=== FILE: README.md ===
# vsnip chat core in Dafny

This project models the messaging core of vsnip, a chat service for VS Code users. The core has two sides.

The server side is an Express API backed by PostgreSQL through Drizzle:

- start-up configuration;
- token issuance and the `isAuth` middleware;
- the user, conversation and message services and their controllers;
- the realtime channel (a `ws` server authenticated by an access/refresh token pair);
- the older single-file server `api/src/index.ts`, which has its own registry, upgrade handler and message, history and conversation routes.

The client side is the VS Code webview:

- the reconnecting socket;
- the `WebSocketManager` (subscribers, the open chat and its announcement);
- the `AppProvider` session (tokens, base URL, page and parameters);
- `getUserIdOrder`, which puts the two participants of a conversation in canonical order.

Everything is modelled as pure functions over immutable values:

- The database is a value `Db` holding the three tables in storage order. A `fault` field stands for a failing connection.
- A signed token is a datatype. It records its claims, the secret it was signed with and its expiry instant. There is no cryptography.
- The socket registry is a map from user id to an entry.
- Each HTTP handler returns its `Reply`: a response, an error handed to `next`, or no answer at all.
- Time, fresh identifiers and the outcome of a socket `send` are parameters.

The JavaScript semantics the decisions depend on are written out:

- truthiness;
- `trim`;
- `parseInt`;
- the default string sort;
- `String.prototype.replace` with a string pattern;
- `split(':')[0]`;
- strict equality of `null` and `undefined`.

Modules follow the source files. The files and what they model:

- `wrappers`, `js`, `string_order`, `recency`, `jwt`, `schema`, `wire`: shared definitions.
- `config`: `config.ts`.
- `auth`: `auth.ts`.
- `auth_service`, `user_service`, `conversation_service`, `message_service`: the services.
- `auth_controller`, `user_controller`, `conversation_controller`, `message_controller`: the controllers.
- `realtime`: `websocket/index.ts`.
- `monolith`: `api/src/index.ts`.
- `reconnecting_socket`, `socket_manager`: `websocket.ts`.
- `app_session`: `AppContext.tsx`.

Behaviour of the code worth noting:

- `isAuth` never rotates tokens. A refresh-and-reissue block exists in `api/src/auth.ts:57-72`, but it sits after a `try`/`catch` whose two branches both return, so it cannot run. The middleware authenticates by the access token alone. `Auth.IsAuth` and `Auth.OnlyAccessHeaderRead` state this.
- Only the single-file server marks a conversation unread when a message arrives for a recipient who is not focused on the sender. The modular `createNewMessage` stores and pushes the message and leaves the conversation row alone (`MessageService.CreateNewMessage`).
- Only the modular server marks a conversation read on a `message-open` frame. The single-file server only records the open chat (`Monolith.ReceiveVariants`).
- The single-file upgrade handler does not always answer 401. A request without a URL, a refresh token that does not verify, or a failing lookup is swallowed by an empty `catch`, and the transport is left hanging (`Monolith.Upgrade`).
- The Google callback without tokens calls `res.status(401).redirect(...)`. Express's `redirect` sets its own status, so the answer is a 302 (`AuthController.GoogleCallback`).

## Model

| member | source | states |
|---|---|---|
| Config.VarOr | api/src/config.ts:4-5 | an unset or empty variable falls back to the default, and any other value is used as given |
| Config.Load | api/src/config.ts:1-32 | start-up succeeds exactly when the client id, the client secret and both token secrets are non-empty. Otherwise the message names the first missing one, in source order. On success both secrets are usable |
| Config.DatabaseUrlOptional | api/src/config.ts:28-32 | adding, removing or changing `DATABASE_URL` never changes whether start-up succeeds |
| Config.ProdMatchesNodeEnv | api/src/config.ts:11-12 | `prod` holds exactly when the effective `nodeEnv` is `production`. Without `NODE_ENV` the server runs as `development` |
| Config.ProdOnlyForProduction | api/src/config.ts:12 | `prod` is on exactly when `NODE_ENV` is the string `production` |
| Config.UrlDefaults | api/src/config.ts:4-5 | unset URLs fall back to `http://localhost:4000` and `http://localhost:3000`; a set `SERVER_URL` is used verbatim |
| Config.PortFromEnv | api/src/config.ts:10 | a decimal `PORT` is read back as that number, and no `PORT` means 4000 |
| Js.TrimEmptyIffBlank | api/src/controllers/user.controller.ts:40-41 | `s.trim()` is empty exactly when `s` is all whitespace |
| Js.TrimTrims | api/src/services/user.service.ts:49 | the result of `trim` has no whitespace at either end |
| Js.TrimIdempotent | api/src/services/user.service.ts:49 | trimming twice is trimming once |
| Js.ParseInt | api/src/services/message.service.ts:19 | `parseInt(s, 10)` is NaN exactly when no digit follows the leading whitespace and the optional sign. Otherwise its magnitude is the value of the leading digits, and it is negative only after a minus sign and positive only without one |
| Js.DecimalValue | api/src/config.ts:10 | a decimal spelling of a natural number reads back as that number |
| Js.ParseIntDecimal | api/src/services/message.service.ts:19 | `parseInt(String(n), 10) == n`: decimal printing and parsing are inverse |
| Js.ParseIntNegative | api/src/services/message.service.ts:19-20 | a minus sign before digits yields the negated value, which is never positive |
| Jwt.SignThenVerify | api/src/auth.ts:19-32 | a signed token verifies under its own secret, with its claims, strictly before its expiry. It fails at or after the expiry and under any other secret |
| Jwt.SignNeedsSecret | api/src/services/auth.service.ts:7-9 | signing fails exactly when the secret is missing or empty |
| Schema.UsersWithId | api/src/services/user.service.ts:12-15 | the lookup keeps exactly the rows with the id, in storage order |
| Schema.UsersWithIdHead | api/src/services/user.service.ts:11-17 | `const [user] = ...` on the lookup by id is the earliest stored row with that id |
| StringOrder.BelowIrreflexive | extension-old/webviews/shared/utils.ts:9 | no string sorts strictly before itself |
| StringOrder.BelowAsymmetric | extension-old/webviews/shared/utils.ts:9 | two strings never each sort strictly before the other |
| StringOrder.BelowTransitive | extension-old/webviews/shared/utils.ts:9 | the default string order is transitive |
| StringOrder.BelowTotal | extension-old/webviews/shared/utils.ts:9 | of two different strings one sorts strictly before the other |
| StringOrder.AtMostTransitive | extension-old/webviews/shared/utils.ts:9 | sorting no later than is transitive |
| StringOrder.AtMostAntisymmetric | extension-old/webviews/shared/utils.ts:9 | two strings that each sort no later than the other are equal |
| StringOrder.AtMostTotal | extension-old/webviews/shared/utils.ts:9 | any two strings are comparable |
| StringOrder.Sort | extension-old/webviews/shared/utils.ts:9 | `uuids.sort()` returns an ordered permutation of its input |
| StringOrder.SortedUnique | extension-old/webviews/shared/utils.ts:9 | two ordered lists with the same elements are equal, so the sort result is fully determined |
| StringOrder.SortPermutationInvariant | extension-old/webviews/shared/utils.ts:9 | the sorted result depends only on the multiset of arguments, not their order |
| StringOrder.GetUserIdOrder | extension-old/webviews/shared/utils.ts:6-12 | `userId1` is the least argument and `userId2` the least of the rest; missing slots are undefined |
| StringOrder.SortedTwoLeast | extension-old/webviews/shared/utils.ts:9 | in an ordered list the head is at most every element and the second element at most every later one |
| StringOrder.OrderPair | extension/webviews/shared/utils.ts:3-7 | the pair is the two arguments, as a multiset, with the first at most the second |
| StringOrder.OrderPairSymmetric | extension/webviews/shared/utils.ts:3-7 | swapping the two participants gives the same ordered pair |
| StringOrder.OrderPairFirst | extension/webviews/shared/utils.ts:3-7 | `userId1` is `a` exactly when `a` sorts no later than `b` |
| StringOrder.OrderPairSame | extension/webviews/shared/utils.ts:3-7 | a self-pair orders to the same id twice |
| StringOrder.OrderPairOfSorted | extension/webviews/shared/utils.ts:3-7 | a pair already in order is kept, whichever participant comes first |
| Recency.SortNewestFirst | api/src/services/conversation.service.ts:53-57 | `ORDER BY ... DESC NULLS LAST` yields a permutation of the rows in which each key is no older than any later one, with missing keys last |
| Recency.Take | api/src/services/message.service.ts:51 | `LIMIT n` keeps the first `min(n, length)` rows |
| Recency.TakeKeepsNewest | api/src/services/conversation.service.ts:58 | a limited sorted result stays sorted, and every kept row is no older than every dropped one |
| Recency.TakeSubMultiset | api/src/services/message.service.ts:51 | a limit returns no row more often than the table holds it |
| Recency.PrefixBeatsRest | api/src/services/conversation.service.ts:53-58 | in a sorted result each row of a prefix is no older than each row after it |
| Auth.CreateTokens | api/src/auth.ts:16-35 | both tokens are issued exactly when both secrets are usable. The access token verifies with `{ userId }` for 15 minutes and the refresh token with `{ userId, tokenVersion }` for 14 days, and neither verifies afterwards |
| Auth.IsAuth | api/src/auth.ts:37-73 | `req.userId` is set exactly when the `access-token` header verifies, and then to its user with a plain `next()`. Otherwise `next` gets the error or `false` per `shouldThrow` |
| Auth.UnverifiableIsMissing | api/src/auth.ts:42-55 | a header that does not verify decides like no header |
| Auth.OnlyAccessHeaderRead | api/src/auth.ts:40 | adding or removing any other header, `refresh-token` included, changes nothing |
| Auth.DefaultFailsWithError | api/src/auth.ts:38-44 | `isAuth()` fails a request without a token with an error |
| Auth.IssuedAccessTokenAuthenticates | api/src/auth.ts:26-52 | an issued access token authenticates its user for 15 minutes and not afterwards |
| Auth.RefreshTokenNotAccepted | api/src/auth.ts:19-49 | a refresh token in the access header is refused when the two secrets differ |
| AuthService.GenerateAuthTokens | api/src/services/auth.service.ts:6-22 | the service refuses unless both configured secrets are set. Otherwise it issues the pair with the claims and lifetimes of the original issuer |
| AuthService.AgreesWithCreateTokens | api/src/services/auth.service.ts:6-22 | the service and `createTokens` fail on the same secrets and issue the same tokens |
| AuthService.IssuedRefreshTokenClaims | api/src/services/auth.service.ts:10-16 | the refresh token carries the user's current token version and verifies for 14 days |
| AuthController.IndexFrom | api/src/controllers/auth.controller.ts:61 | the result is the first occurrence of the pattern at or after the start, or none when no occurrence exists |
| AuthController.BeforeColon | api/src/controllers/auth.controller.ts:61 | `split(':')[0]` is the longest colon-free prefix and stops at the first colon |
| AuthController.DevHostOfHttpUrl | api/src/controllers/auth.controller.ts:61 | `http://host:port` yields `host` |
| AuthController.DevPrefixOfHttpUrl | api/src/controllers/auth.controller.ts:58-61 | in development, a server URL `http://host:port` (such as the default `http://localhost:4000`) gives deep links starting `exp://host:19000/--/` |
| AuthController.GoogleCallback | api/src/controllers/auth.controller.ts:34-83 | the answer is always a 302. No tokens gives `authentication_payload_missing`; an undecodable state gives `state_processing_failed`. Otherwise `rn2` goes to `tokens2` and `rn` to `tokens` on the app prefix, and anything else goes to the web callback, each carrying the issued tokens |
| AuthController.DefaultStateGoesToWeb | api/src/controllers/auth.controller.ts:26-27 | a login started with the default state returns to the web client's callback with the tokens |
| AuthController.CallbackCarriesTokens | api/src/controllers/auth.controller.ts:48-83 | a login error page is shown exactly when the tokens or the state are missing; every other redirect carries the issued tokens, and it is a deep link exactly when `rn2` or `rn` is truthy |
| AuthController.GetMe | api/src/controllers/auth.controller.ts:85-106 | no user gives 401, a query failure 500, an unknown id 404. Otherwise 200 with the account of the first stored row with that id, e-mail kept |
| AuthController.MeMatchesLookup | api/src/controllers/auth.controller.ts:90-99 | `/auth/me` succeeds exactly when `GET /users/:id` does for the same id, with the same account |
| UserService.FindUserById | api/src/services/user.service.ts:11-17 | the earliest stored row with the id, none when there is none, and a failing query rethrows |
| UserService.UsersWithGoogleId | api/src/services/user.service.ts:22-25 | exactly the rows linked to the Google id, in storage order; a null column never matches |
| UserService.FindUserByGoogleId | api/src/services/user.service.ts:19-27 | the first row linked to the Google account, or none |
| UserService.Others | api/src/services/user.service.ts:32-39 | one public profile per row whose id differs from the caller's, in table order |
| UserService.GetFeedProfiles | api/src/services/user.service.ts:29-40 | every other user's public profile (token version, Google id and e-mail stripped); a failing query rethrows |
| UserService.UpdateFailure | api/src/services/user.service.ts:56-62 | a unique violation is a 409 and any other failure a 500 |
| UserService.SetDetails | api/src/services/user.service.ts:47-51 | rows with the id get the new e-mail and name, and no other field or row changes |
| UserService.UpdateUserDetails | api/src/services/user.service.ts:42-63 | both values are stored trimmed; null when no row has the id, otherwise the account of the earliest updated row; the token version and Google id are untouched |
| UserService.UpdateIdempotent | api/src/services/user.service.ts:42-63 | repeating an update changes nothing further |
| UserService.UpdatedIsFound | api/src/services/user.service.ts:42-63 | after an update that found the user, looking that user up returns the updated account |
| UserService.CreateDevelopmentUser | api/src/services/user.service.ts:65-94 | the account is appended with token version 1 and no Google id, and returned without them. A unique violation gives 409, any other failure 500 |
| UserService.DevUserFound | api/src/services/user.service.ts:72-83 | a development account created under a fresh id is what a lookup of that id returns |
| UserController.GetFeed | api/src/controllers/user.controller.ts:10-25 | 401 without a user. Otherwise every other user's public profile and only profiles of stored users, or the service's error passed on |
| UserController.UpdateUser | api/src/controllers/user.controller.ts:27-66 | 401 without a user. 400 unless both fields are non-blank strings, and the database is then unchanged. 404 for an unknown id, otherwise 200 with the earliest row's account carrying the trimmed values |
| UserController.GetUserById | api/src/controllers/user.controller.ts:68-90 | 400 for an empty id, 404 for an unknown one, a failing query passed on, otherwise 200 with the account of the earliest stored row with the id, e-mail kept |
| UserController.UpdateThenLookup | api/src/controllers/user.controller.ts:27-90 | after a successful profile edit, looking the user up returns the edited account |
| UserController.DevCreateUser | api/src/controllers/user.controller.ts:92-125 | 403 in production, and 400 without an e-mail and a name; neither changes the database. Otherwise, for string values, 201 with the created account, or 409 for a unique violation and 500 for another database failure, with the database unchanged |
| UserController.DevCreateThenLookup | api/src/controllers/user.controller.ts:92-125 | a development account created under a fresh id is what `GET /users/:id` returns |
| ConversationService.Latest | api/src/services/conversation.service.ts:37-49 | the latest message exchanged between the two users, or none when they exchanged none |
| ConversationService.PreviewShape | api/src/services/conversation.service.ts:39-42 | a preview is the whole text up to 40 characters, else its first 39 characters and `...` |
| ConversationService.ViewReadIsOwnFlag | api/src/services/conversation.service.ts:28-31 | the listed `read` is the caller's own flag, never the partner's |
| ConversationService.JoinedSpec | api/src/services/conversation.service.ts:50-52 | a row is in the join exactly when it views a listed conversation of the caller with one of its partners |
| ConversationService.GetConversationsForUser | api/src/services/conversation.service.ts:22-65 | the joined rows ordered by latest message, newest first and empty ones last, at most 150; a failure is a 500 |
| ConversationService.ListedRowsBelongToCaller | api/src/services/conversation.service.ts:50-52 | every listed row is an active conversation of the caller, shows the other participant and carries the caller's own flag |
| ConversationService.ListedConversationsAppear | api/src/services/conversation.service.ts:50-58 | below the limit every active conversation of the caller is listed with each partner |
| ConversationService.FindFrom | api/src/services/conversation.service.ts:76-90 | the index of the first row joining the pair in either column order, or none when no row does |
| ConversationService.Reactivate | api/src/services/conversation.service.ts:94-98 | rows with the id lose the unfriended flag and nothing else changes |
| ConversationService.FindOrCreateConversation | api/src/services/conversation.service.ts:67-121 | self is a 400 before any lookup. An active existing row is returned unchanged and not created; an unfriended one is reactivated and reported created. Otherwise the sorted pair is appended, and a failure is a 500 |
| ConversationService.FindOrCreateSymmetric | api/src/services/conversation.service.ts:79-90 | either participant asking gives the same conversation, flag and database |
| ConversationService.FindOrCreateSettles | api/src/services/conversation.service.ts:67-121 | asking again returns the same conversation, not created, and changes nothing |
| ConversationService.MarkRow | api/src/services/conversation.service.ts:134-147 | on a row joining the pair with the smaller id first, the caller's own flag ends up set and the partner's is untouched; every other row is unchanged, and no flag is ever cleared |
| ConversationService.MarkConversationAsRead | api/src/services/conversation.service.ts:123-157 | a no-op for a missing id or a failing database. Otherwise the caller's own flag is set on every row joining the pair in stored order, the partner's flag is untouched, and every other row is unchanged |
| ConversationService.MarkReadSetsOnlyOwnFlag | api/src/services/conversation.service.ts:134-147 | on rows under the ordered pair the caller's flag is set and the partner's untouched; other rows are unchanged |
| ConversationService.OrderedKey | api/src/services/conversation.service.ts:134-147 | the rows keyed by `getUserIdOrder(me, other)` are exactly those joining the pair with the smaller id first |
| ConversationService.MarkReadSelfPair | api/src/services/conversation.service.ts:127-147 | a conversation with oneself, which passes the missing-id check, gets `read1` set |
| ConversationService.MarkReadIdempotent | api/src/services/conversation.service.ts:123-157 | marking read twice is marking once |
| ConversationService.MarkedConversationShowsRead | api/src/services/conversation.service.ts:28-31 | after marking, the caller's listing shows the conversation as read |
| ConversationController.GetConversations | api/src/controllers/conversation.controller.ts:9-26 | 401 without a user. Otherwise 200 with exactly the service's list, or the service's error passed on unchanged |
| ConversationController.ListedReplyBelongsToCaller | api/src/controllers/conversation.controller.ts:17-21 | every conversation a 200 lists is an active conversation of the caller, shows the other participant and carries the caller's own flag |
| ConversationController.CreateConversation | api/src/controllers/conversation.controller.ts:28-54 | 401 without a user and 400 without a non-empty string id, neither touching the database. Otherwise the service's outcome: 201 when created or reactivated and 200 for an active existing conversation, with its database; a service error is passed on unchanged |
| ConversationController.RepeatedCreateAnswers200 | api/src/controllers/conversation.controller.ts:42-49 | posting the same pair again answers 200 with the same conversation and changes nothing |
| ConversationController.SelfConversationRefused | api/src/services/conversation.service.ts:71-73 | a conversation with oneself is refused with 400 and changes nothing |
| MessageService.ParseCursor | api/src/services/message.service.ts:18-27 | no cursor when absent or empty. Otherwise a parsed positive timestamp, or a 400 for NaN and non-positive values |
| MessageService.CursorRoundTrip | api/src/services/message.service.ts:18-27 | a positive timestamp printed in decimal is read back as that cursor |
| MessageService.CursorDateRange | api/src/services/message.service.ts:18-61 | a positive cursor up to 8640000000000000 pages whenever the database works; a larger one is a 500 whatever the database holds |
| MessageService.CursorZeroRefused | api/src/services/message.service.ts:20 | cursor `0` is a 400 |
| MessageService.CursorNegativeRefused | api/src/services/message.service.ts:20 | a negative cursor is a 400 |
| MessageService.Matching | api/src/services/message.service.ts:33-49 | exactly the rows exchanged between the two users and older than the cursor, in table order |
| MessageService.PageOf | api/src/services/message.service.ts:50-58 | the page holds the newest `limit` rows, newest first, and `hasMore` holds exactly when `limit + 1` rows came back |
| MessageService.GetMessagesForUser | api/src/services/message.service.ts:9-63 | a bad cursor is a 400 before the database is read. A database failure, or a cursor past the largest `Date`, is a 500. Otherwise the newest page of the pair's messages before the cursor |
| MessageService.PageSelected | api/src/services/message.service.ts:33-49 | every message of a page belongs to the pair and lies before the cursor |
| MessageService.HistorySymmetric | api/src/services/message.service.ts:35-44 | both participants see the same history |
| MessageService.NextPageReachesOlder | api/src/services/message.service.ts:45-47 | paging from a page's oldest timestamp reaches every older message, except those sharing that exact timestamp |
| MessageService.Store | api/src/services/message.service.ts:81-91 | the trimmed message is appended under the fresh id and time, and pushed to the recipient's socket when one is registered |
| MessageService.CreateNewMessage | api/src/services/message.service.ts:65-98 | the invalid-body 400 and self-message 400 come before any write. A non-string recipient or a database failure is a 500 with nothing stored. Otherwise the trimmed text is stored once under the new id and time and pushed to a registered recipient, and conversations are untouched |
| MessageService.BlankTextRefused | api/src/services/message.service.ts:71-76 | a whitespace-only text is a 400 and stores nothing |
| MessageService.StoredIsLatest | api/src/services/message.service.ts:81-91 | a message stored after every earlier one becomes the conversation's latest, from both sides |
| MessageService.PageHeadIsNewest | api/src/services/message.service.ts:50-56 | a row strictly newer than every other heads any non-empty page |
| MessageService.StoredHeadsHistory | api/src/services/message.service.ts:81-91 | a newly stored latest message heads the recipient's first page |
| MessageService.PostedMessageIsNewest | api/src/services/message.service.ts:65-98 | a posted latest message is its conversation's preview and heads the recipient's history |
| MessageController.GetMessages | api/src/controllers/message.controller.ts:10-38 | 401 without a user and 400 without the other id. Otherwise 200 with exactly the service's default-size page, or its error passed on unchanged |
| MessageController.HistoryReplySelected | api/src/controllers/message.controller.ts:27-33 | every message of a 200 was exchanged by the pair and lies before the cursor, and both participants get the same answer |
| MessageController.CreateMessage | api/src/controllers/message.controller.ts:40-74 | 401, then 400 for a missing recipient or text, a non-string or blank text, or a self-message, all before any write. Otherwise 201 with the message the service stored and its push, or the service's error passed on with nothing stored |
| MessageController.ServiceChecksShadowed | api/src/controllers/message.controller.ts:51-62 | the service's own validation errors never reach a client of this route; any failure it forwards is a 400, a 401 or a 500 |
| Wire.Transmit | api/src/websocket/index.ts:22-33 | a registered user's socket gets the frame unless its `send` throws; an unregistered user gets nothing |
| Realtime.WsSend | api/src/websocket/index.ts:22-33 | the frame goes to the user's current socket; a throwing send is swallowed |
| Realtime.Connect | api/src/websocket/index.ts:38-44 | a falsy id registers nothing. Otherwise the socket replaces the user's entry with no chat open, and other entries are unchanged |
| Realtime.Receive | api/src/websocket/index.ts:46-72 | a `message-open` frame from a registered user records the open chat and marks it read. Every other frame changes nothing |
| Realtime.Close | api/src/websocket/index.ts:74-76 | the user's entry is removed, whichever socket it holds, and other entries stay |
| Realtime.Fail | api/src/websocket/index.ts:78-83 | an error removes the user's entry |
| Realtime.FailMatchesClose | api/src/websocket/index.ts:74-83 | an error and a close leave the same registry |
| Realtime.CloseIdempotent | api/src/websocket/index.ts:74-76 | closing twice is closing once |
| Realtime.SendAfterConnect | api/src/websocket/index.ts:22-44 | after a connection registers, a send reaches that socket |
| Realtime.NewerSocketWins | api/src/websocket/index.ts:44 | a second connection of a user supersedes the first |
| Realtime.StaleCloseDropsNewer | api/src/websocket/index.ts:74-76 | the superseded socket's close unregisters the newer connection, so the user then receives nothing |
| Realtime.FocusMarksRead | api/src/websocket/index.ts:54-63 | after a focus frame the chat is recorded and shows as read to the user |
| Realtime.Authenticate | api/src/websocket/index.ts:86-158 | refused without a URL, without either token or with an unset secret. A verifying access token is accepted for its user. Otherwise a verifying refresh token is accepted exactly when a stored row matches its id and version, and everything else is refused |
| Realtime.HandleUpgrade | api/src/websocket/index.ts:118-149 | an accepted upgrade registers through the connection handler and a refused one changes nothing |
| Realtime.FreshLoginConnects | api/src/websocket/index.ts:113-121 | the tokens of a login open a socket for that user while the access token lasts |
| Realtime.RefreshTokenConnects | api/src/websocket/index.ts:128-149 | after the access token expires, the refresh token still connects while the stored version is unchanged |
| Realtime.RevokedRefreshRejected | api/src/websocket/index.ts:133-145 | bumping the stored token version revokes the refresh token once the access token has expired |
| Realtime.UnconfiguredRejectsAll | api/src/websocket/index.ts:106-111 | with a secret unset no upgrade is ever accepted |
| Monolith.WsSend | api/src/index.ts:32-36 | the frame goes to a registered user, and a throwing `send` escapes |
| Monolith.WsSendAgrees | api/src/index.ts:32-36 | the two servers' pushes differ only when the socket's send throws |
| Monolith.Connect | api/src/index.ts:364-369 | the entry is registered even for a falsy id, with no chat open |
| Monolith.ConnectVariants | api/src/index.ts:364-369 | the servers register the same entries except that this one also registers the empty id |
| Monolith.Receive | api/src/index.ts:371-382 | an unparsable frame crashes. A `message-open` frame from a registered user records the chat, and nothing is marked read |
| Monolith.ReceiveVariants | api/src/index.ts:371-382 | on a parsable frame both servers leave the same registry; only the modular one marks read and survives a bad frame |
| Monolith.EmptyIdConnectionLifecycle | api/src/index.ts:364-387 | an empty-id connection receives sends until its close removes it |
| Monolith.Upgrade | api/src/index.ts:389-441 | it hangs without a URL, and 401s without two non-empty string tokens. A verifying access token upgrades. Otherwise a bad refresh token or failing lookup hangs; a verifying one upgrades when the earliest row with its id carries its version under strict equality, and is refused when that row differs or no row has the id |
| Monolith.HandleUpgrade | api/src/index.ts:390-394 | an upgraded socket registers through the connection handler; otherwise nothing registers |
| Monolith.UpgradeVariants | api/src/index.ts:406-439 | with both secrets set, the servers accept the same access tokens; a bad refresh token is refused by the modular one and hangs here |
| Monolith.NullVersionVariants | api/src/index.ts:429-438 | a refresh token issued under a null version connects here but is refused by the modular server |
| Monolith.RefreshTokenUpgrades | api/src/index.ts:423-438 | after the access token expires, a login's refresh token upgrades exactly when the earliest row with the user's id still carries the issued version, and is refused otherwise |
| Monolith.MarkUnread | api/src/index.ts:315-323 | the row named by the body becomes the sorted pair, active and unread for the recipient; other rows are unchanged |
| Monolith.PostMessage | api/src/index.ts:298-327 | the row is inserted first. A falsy recipient is left unanswered, as is a throwing send. Unless the recipient is focused on the sender, the named conversation is marked unread. A database failure stores nothing, and otherwise the answer is 200 with the row |
| Monolith.FocusSuppressesUnread | api/src/index.ts:311-314 | a recipient focused on the sender gets the frame and the conversation is unchanged |
| Monolith.UnfocusedRecipientSeesUnread | api/src/index.ts:311-324 | otherwise the named conversation is listed again and unread for the recipient |
| Monolith.ForeignConversationRewritten | api/src/index.ts:315-323 | a message naming another pair's conversation rewrites that row's participants |
| Monolith.GetMessages | api/src/index.ts:244-283 | the cursor is ignored. The 21 newest messages of the pair are fetched and the first 20 answered, with `hasMore` when 21 came back. A failure is unanswered |
| Monolith.HistoryMatchesService | api/src/index.ts:259-281 | the answer equals the modular service's first page of default size, whatever the cursor |
| Monolith.PostConversation | api/src/index.ts:213-242 | for a string `userId`, the first row joining the pair is returned as is, even when unfriended, and otherwise the sorted pair is inserted. There is no self check; answers are 200, and a failure is unanswered |
| Monolith.PostConversationSettles | api/src/index.ts:213-242 | posting the same pair again returns the same conversation and changes nothing |
| Monolith.UnfriendedStaysUnfriended | api/src/index.ts:232-234 | an unfriended conversation is returned unchanged, where the modular service reactivates it |
| Monolith.SelfConversationVariants | api/src/index.ts:236-241 | a self-conversation is created here but refused by the modular service |
| ReconnectingSocket.Reconnect | extension/webview/shared/websocket.ts:143-168 | nothing while a retry is pending or after a forced close. Below 10 attempts one is counted and a retry scheduled, and after that it gives up |
| ReconnectingSocket.CreateSocket | extension/webview/shared/websocket.ts:107-138 | a new connecting socket replaces the old one, or, when construction throws, a reconnect is tried |
| ReconnectingSocket.Connect | extension/webview/shared/websocket.ts:36-44 | nothing while open. Otherwise the URL is recorded, a forced close undone and a socket created; the counter is not reset |
| ReconnectingSocket.Disconnect | extension/webview/shared/websocket.ts:49-63 | forced close, no socket, no pending retry, counter zero |
| ReconnectingSocket.Send | extension/webview/shared/websocket.ts:68-74 | data reaches the current socket exactly when it is open |
| ReconnectingSocket.SetState | extension/webview/shared/websocket.ts:111-124 | an event changes the state of the socket it names, if that socket is still current |
| ReconnectingSocket.Step | extension/webview/shared/websocket.ts:111-162 | an open resets the counter, a close after a forced close schedules nothing, and a cancelled timer never fires |
| ReconnectingSocket.RunBounded | extension/webview/shared/websocket.ts:148-149 | under any events the counter never exceeds 10 |
| ReconnectingSocket.ForcedCloseStaysClosed | extension/webview/shared/websocket.ts:121-123 | after a forced close no event brings back a socket or a retry |
| ReconnectingSocket.DisconnectThenEvents | extension/webview/shared/websocket.ts:49-63 | after `disconnect()` no event reconnects |
| ReconnectingSocket.RetriesExhaust | extension/webview/shared/websocket.ts:143-168 | k refused rounds count `min(a + k, 10)` attempts and leave nothing pending |
| ReconnectingSocket.GivesUpAtMax | extension/webview/shared/websocket.ts:163-167 | at 10 attempts a close schedules nothing |
| ReconnectingSocket.OpenRestartsRetries | extension/webview/shared/websocket.ts:113 | an open followed by a drop starts a new series at one attempt |
| ReconnectingSocket.ConnectWhileOpenKeepsUrl | extension/webview/shared/websocket.ts:37-39 | connecting while open keeps the old URL and socket |
| ReconnectingSocket.SendNeedsOpen | extension/webview/shared/websocket.ts:68-74 | a send reaches a new socket only after its open event |
| SocketManager.Without | extension/webview/shared/websocket.ts:244 | every occurrence of the handler is removed, and every other handler keeps its number of occurrences |
| SocketManager.Subscribe | extension/webview/shared/websocket.ts:239-240 | the handler is appended and nothing else changes |
| SocketManager.Unsubscribe | extension/webview/shared/websocket.ts:243-245 | the handler is removed entirely and nothing else changes |
| SocketManager.SubscribeThenUnsubscribe | extension/webview/shared/websocket.ts:239-246 | subscribing a new handler and unsubscribing it restores the list |
| SocketManager.UnsubscribeIdempotent | extension/webview/shared/websocket.ts:243-245 | unsubscribing twice is unsubscribing once |
| SocketManager.Deliver | extension/webview/shared/websocket.ts:263-270 | a parsed frame goes to each subscription in order, and an unparsable one is dropped |
| SocketManager.UnsubscribedGetsNothing | extension/webview/shared/websocket.ts:243-266 | an unsubscribed handler receives nothing, and the others receive what they did before |
| SocketManager.SetActiveChatUser | extension/webview/shared/websocket.ts:252-258 | the chat is always recorded, and sent only while the manager believes it is connected and the socket is open |
| SocketManager.AnnouncementReachesServer | extension/webview/shared/websocket.ts:256 | the announced chat is what the modular server records, and it marks that chat read |
| SocketManager.ToWsSchemes | extension/webview/shared/websocket.ts:217 | `http` becomes `ws`, `https` becomes `wss`, and any other base is kept |
| SocketManager.Connect | extension/webview/shared/websocket.ts:187-222 | the socket is created on first use and connected to the URL built from the base and the tokens |
| SocketManager.Disconnect | extension/webview/shared/websocket.ts:227-234 | the chat is cleared, with the clearing announced while connected, and the socket force-closed |
| SocketManager.Opened | extension/webview/shared/websocket.ts:196-204 | an open marks the manager connected and re-announces a recorded chat |
| SocketManager.Closed | extension/webview/shared/websocket.ts:206-209 | a close marks the manager disconnected |
| SocketManager.FocusAnnouncedOnOpen | extension/webview/shared/websocket.ts:196-204 | a chat opened while connecting is announced as soon as the socket opens |
| SocketManager.NoChatNoAnnouncement | extension/webview/shared/websocket.ts:201-203 | without a recorded chat an open announces nothing |
| SocketManager.DisconnectForgetsChat | extension/webview/shared/websocket.ts:227-234 | after disconnect a late open announces nothing and no retry is pending |
| SocketManager.DisconnectAnnouncesClear | extension/webview/shared/websocket.ts:228-231 | a connected manager with an open socket tells the server the chat was closed |
| SocketManager.FirstConnectOpensSocket | extension/webview/shared/websocket.ts:187-222 | the first connect opens a socket to the URL built from the tokens |
| AppSession.OrNull | extension/webview/context/AppContext.tsx:52-57 | `value \|\| null` keeps a non-empty string and turns empty or missing into null |
| AppSession.Init | extension/webview/context/AppContext.tsx:49-74 | tokens come from the globals with empty ones as null, the base URL from the globals or empty, and page and parameters from the saved state or sidebar and none. `send-tokens` is posted |
| AppSession.Persist | extension/webview/context/AppContext.tsx:66-70 | the saved state records the page and the parameters |
| AppSession.PersistThenInitRestoresNavigation | extension/webview/context/AppContext.tsx:49-70 | reopening with the saved state restores the page and the parameters |
| AppSession.OnHostMessage | extension/webview/context/AppContext.tsx:76-107 | token commands with a payload set both tokens and, when given, the base URL. `login-complete` sets only the tokens, and `logout-complete` clears the tokens and navigation. Anything else is a no-op, and the globals are never touched |
| AppSession.UpdateTokens | extension/webview/context/AppContext.tsx:113-125 | both tokens are set as given, mirrored into the globals and posted once |
| AppSession.Logout | extension/webview/context/AppContext.tsx:127-140 | tokens and globals are cleared, navigation returns to the sidebar with no parameters, and `logout` is posted |
| AppSession.LogoutMatchesLogoutComplete | extension/webview/context/AppContext.tsx:101-140 | a logout and `logout-complete` leave the same session except for the globals |
| AppSession.LoginCompleteKeepsNavigation | extension/webview/context/AppContext.tsx:94-99 | `login-complete` keeps the page, parameters and base URL, and authenticates exactly when its token is non-empty |
| AppSession.EchoedTokensChangeNothing | extension/webview/context/AppContext.tsx:81-125 | the host echoing posted tokens back as `tokens-updated` changes nothing |
| AppSession.EmptyAccessTokenNotAuthenticated | extension/webview/context/AppContext.tsx:113-149 | an empty access token is stored but does not authenticate |
| AppSession.LogoutIdempotent | extension/webview/context/AppContext.tsx:127-140 | logging out twice is logging out once |
| AppSession.LogoutDropsSocket | extension/webview/shared/websocket.ts:285-297 | after either logout the socket hook's condition fails, so it disconnects |
| AppSession.GlobalsStartSocket | extension/webview/shared/websocket.ts:285-289 | a webview opened with tokens and a base URL in its globals wants a socket at once |

## Left out

- Cryptography and clocks: a token is a datatype with its secret and expiry, and the current time is a parameter. The HMAC algorithm and the base64url text are not modelled.
- The SQL engine: queries are functions over sequences. Foreign keys, uuid validity and column types are not checked. Ties under `ORDER BY ... DESC` keep table order, which is one of the orders PostgreSQL may return.
- Passport and the Google strategy (the strategy at `api/src/index.ts:38-87`, `serializeUser` at `api/src/index.ts:89-91`, and the `passport.authenticate` call in `googleLogin`): the callback receives their outcome as a parameter. The CORS and JSON middleware set up at `api/src/index.ts:93-111` is not modelled either.
- Base64 and JSON decoding of the OAuth `state`: the callback receives the decoded state or `Corrupt`.
- UTF-16: strings are sequences of characters. PostgreSQL's `char_length` and `substr` count code points, as the model's characters do, so the preview agrees with the source on all text. JavaScript's default sort compares UTF-16 code units, so `StringOrder.Below` agrees with it only on text in the Basic Multilingual Plane.
- The reconnect delay `1000 * 1.5^(n-1)` ms is floating point, and timers are not modelled. Only whether a retry is pending is kept, and the timer firing is an event.
- The error listeners that only log, and every `console` call.
- `useWebSocket`'s local `isConnected` state and the React effect scheduling; the hook's connect condition is kept as `AppSession.SocketWanted`.
- The single-file server's `/me`, `/feed`, `/conversations/:cursor`, `/dev/user`, `PUT /user`, `GET /user/:id` and its OAuth callback are outside the modelled core. They are not copies of the modular routes and behave differently:
  - `/me` (`api/src/index.ts:156-171`) answers 200 with a null user when not signed in, where the modular route answers 401. It returns the whole row, including `tokenVersion` and `googleId`, answers 200 for an unknown id, and has no `try`, so a database failure leaves the request unanswered.
  - `/feed` (`api/src/index.ts:173-181`) selects every column of the other users, including email, `google_id` and `tokenVersion`, where `api/src/services/user.service.ts:36-39` keeps only the public profile.
  - `/conversations/:cursor` (`api/src/index.ts:183-211`) has no outer `ORDER BY`, so `LIMIT 150` keeps rows in no defined order, where `api/src/services/conversation.service.ts:53-58` sorts by the latest message, newest first with nulls last.
  - `/dev/user` (`api/src/index.ts:285-296`) inserts without validation, has no 409 path, answers 200 rather than 201, and returns the raw row.
  - `PUT /user` and `GET /user/:id` (`api/src/index.ts:329-358`) return the error from `createHttpError` without sending it, so a blank body or a missing id leaves the request unanswered. `PUT /user` also stores the values untrimmed and has no 409 path.
  - The OAuth callback (`api/src/index.ts:121-154`) builds `exp:` without `//`, strips `http:` with `replace`, redirects the web case to `localhost:54321`, and calls `JSON.parse` on the state outside any `try`.
- UserController.DevCreateUser: the body's `email` and `username` are taken as absent or a string. The source checks only their truthiness (`api/src/controllers/user.controller.ts:103`) and passes whatever value came to the insert (`api/src/services/user.service.ts:72-80`), so a truthy number or object reaches the database, which stores its text. The model cannot express such a body.
- Monolith.PostConversation: the body's `userId` is taken as a string. The source uses it unchecked (`api/src/index.ts:214-238`). Without it, both halves of the lookup compare a column with null and match nothing, `getUserIdOrder(undefined, me)` sorts the missing value last, and a row pairing the caller with a null id is inserted and answered with 200, a new one on every call. The model cannot express such a body.
- Monolith.PostMessage: a missing `recipientId` is written as the empty id rather than null, which behaves the same under the falsy check. A body whose fields are not strings is not modelled.
- Schema: message text is a string, whereas the column is nullable.
- Jwt: `verify` on a query value given several times (an array) is modelled as failing; the library's other argument checks are not.
- The `redisUrl` and `databaseUrl` settings are read but never used by the core; they are carried as fields only.
- The JSON wrappers of the answers: the controllers answer `{ message }`, `{ conversations }`, `{ profiles }` and `{ user }`, and the model's body is the wrapped value.
- SocketManager.Deliver: handlers are assumed not to throw. In the source a throwing handler ends the `forEach`, the `catch` at `extension/webview/shared/websocket.ts:263-269` logs it, and the remaining handlers miss that frame.
- Number precision: `parseInt` returns a double, so digit strings beyond 2^53 lose precision. The model reads them exactly. Every such cursor is past the range of `Date` and is a 500 in both.
- The webview's pages and the extension host (`SidebarProvider`, `authenticate.ts`): only the messages they exchange with the provider are modelled.

=== FILE: app_session.dfy ===
/**
 * The webview's session and navigation state (`AppProvider` in
 * `extension/webview/context/AppContext.tsx`): the tokens, the API base URL,
 * the current page and its parameters, the window globals that mirror the
 * tokens, and the messages posted to the extension host.
 */
module AppSession {
  import opened Wrappers
  import Js

  /** The pages of the webview (`Page`). */
  datatype Page = Sidebar | Profile | Explore | Messages | Conversation | ProfileForm | Loading

  /** The parameters of the current page (`Record<string, any>`). */
  type Params = map<string, Js.Json>

  /** `window.accessToken`, `window.refreshToken` and `window.apiBaseUrl`; `None` is `undefined`. */
  datatype Globals = Globals(accessToken: Option<string>, refreshToken: Option<string>, apiBaseUrl: Option<string>)

  /** What `vscode.getState()` returned from an earlier session. */
  datatype SavedState = SavedState(page: Option<Page>, params: Option<Params>)

  /** A message posted to the extension host. */
  datatype Post = SendTokens | TokensPost(accessToken: string, refreshToken: string) | LogoutPost

  /** The provider's state. Tokens are `None` for `null`. */
  datatype Session = Session(
    accessToken: Option<string>,
    refreshToken: Option<string>,
    apiBaseUrl: string,
    page: Page,
    viewParams: Params,
    globals: Globals)

  /** `value || null`: an empty string becomes `null`. */
  function OrNull(v: Option<string>): (r: Option<string>)
    ensures r.Some? <==> Js.Present(v)
    ensures r.Some? ==> r == v
  {
    if Js.Present(v) then v else None
  }

  /** `isAuthenticated: !!accessToken`. */
  predicate IsAuthenticated(s: Session) {
    Js.Present(s.accessToken)
  }

  /**
   * The state on mount: the tokens from the window globals (empty ones as
   * `null`), the base URL from the globals or empty, and the page and
   * parameters saved by an earlier session or the sidebar with none. The
   * provider then asks the host for the tokens.
   */
  function Init(globals: Globals, saved: Option<SavedState>): (r: (Session, Post))
    ensures r.1 == SendTokens
    ensures r.0.accessToken == OrNull(globals.accessToken) && r.0.refreshToken == OrNull(globals.refreshToken)
    ensures r.0.apiBaseUrl == (if Js.Present(globals.apiBaseUrl) then globals.apiBaseUrl.value else "")
    ensures r.0.page == (if saved.Some? && saved.value.page.Some? then saved.value.page.value else Sidebar)
    ensures r.0.viewParams == (if saved.Some? && saved.value.params.Some? then saved.value.params.value else map[])
    ensures r.0.globals == globals
  {
    var page := if saved.Some? && saved.value.page.Some? then saved.value.page.value else Sidebar;
    var params := if saved.Some? && saved.value.params.Some? then saved.value.params.value else map[];
    (Session(OrNull(globals.accessToken), OrNull(globals.refreshToken),
             if Js.Present(globals.apiBaseUrl) then globals.apiBaseUrl.value else "",
             page, params, globals),
     SendTokens)
  }

  /** What the provider hands to `vscode.setState` whenever the page or its parameters change. */
  function Persist(s: Session): (r: SavedState)
    ensures r.page.Some? && r.params.Some?
  {
    SavedState(Some(s.page), Some(s.viewParams))
  }

  /** A webview reopened with the state it saved comes back on the same page with the same parameters. */
  lemma PersistThenInitRestoresNavigation(s: Session, globals: Globals)
    ensures var r := Init(globals, Some(Persist(s))).0;
      r.page == s.page && r.viewParams == s.viewParams
  {
  }

  /** The payload of a host message. */
  datatype Payload = Payload(accessToken: Option<string>, refreshToken: Option<string>, apiBaseUrl: Option<string>)

  /** A message from the extension host: its `command` and its payload, if any. */
  datatype HostMessage = HostMessage(command: string, payload: Option<Payload>)

  const InitTokens := "init-tokens"
  const TokensUpdated := "tokens-updated"
  const LoginComplete := "login-complete"
  const LogoutComplete := "logout-complete"

  /**
   * The `message` listener. `init-tokens` and `tokens-updated` with a
   * payload set both tokens (empty ones as `null`) and the base URL when the
   * payload has one; `login-complete` with a payload sets only the tokens;
   * `logout-complete` clears the tokens and returns to the sidebar with no
   * parameters. Nothing else changes the state, and the window globals are
   * never touched.
   */
  function OnHostMessage(s: Session, msg: HostMessage): (r: Session)
    ensures r.globals == s.globals
    ensures (msg.command == InitTokens || msg.command == TokensUpdated) && msg.payload.Some? ==>
      && r.accessToken == OrNull(msg.payload.value.accessToken)
      && r.refreshToken == OrNull(msg.payload.value.refreshToken)
      && r.apiBaseUrl == (if Js.Present(msg.payload.value.apiBaseUrl) then msg.payload.value.apiBaseUrl.value else s.apiBaseUrl)
      && r.page == s.page && r.viewParams == s.viewParams
    ensures msg.command == LoginComplete && msg.payload.Some? ==>
      r == s.(accessToken := OrNull(msg.payload.value.accessToken), refreshToken := OrNull(msg.payload.value.refreshToken))
    ensures msg.command == LogoutComplete ==>
      r == s.(accessToken := None, refreshToken := None, page := Sidebar, viewParams := map[])
    ensures msg.command != LogoutComplete && (msg.command !in {InitTokens, TokensUpdated, LoginComplete} || msg.payload.None?) ==>
      r == s
  {
    if (msg.command == InitTokens || msg.command == TokensUpdated) && msg.payload.Some? then
      var p := msg.payload.value;
      s.(accessToken := OrNull(p.accessToken), refreshToken := OrNull(p.refreshToken),
         apiBaseUrl := if Js.Present(p.apiBaseUrl) then p.apiBaseUrl.value else s.apiBaseUrl)
    else if msg.command == LoginComplete && msg.payload.Some? then
      var p := msg.payload.value;
      s.(accessToken := OrNull(p.accessToken), refreshToken := OrNull(p.refreshToken))
    else if msg.command == LogoutComplete then
      s.(accessToken := None, refreshToken := None, page := Sidebar, viewParams := map[])
    else s
  }

  /**
   * `updateTokens(access, refresh)`: both tokens are set as given (an empty
   * one is kept, not turned into `null`), mirrored into the window globals,
   * and posted to the host once.
   */
  function UpdateTokens(s: Session, accessToken: string, refreshToken: string): (r: (Session, Post))
    ensures r.0 == s.(accessToken := Some(accessToken), refreshToken := Some(refreshToken),
                      globals := s.globals.(accessToken := Some(accessToken), refreshToken := Some(refreshToken)))
    ensures r.1 == TokensPost(accessToken, refreshToken)
  {
    (s.(accessToken := Some(accessToken), refreshToken := Some(refreshToken),
        globals := s.globals.(accessToken := Some(accessToken), refreshToken := Some(refreshToken))),
     TokensPost(accessToken, refreshToken))
  }

  /** `logout()`: tokens and globals cleared, back to the sidebar with no parameters, and `logout` posted. */
  function Logout(s: Session): (r: (Session, Post))
    ensures !IsAuthenticated(r.0) && r.0.refreshToken.None?
    ensures r.0.globals.accessToken.None? && r.0.globals.refreshToken.None? && r.0.globals.apiBaseUrl == s.globals.apiBaseUrl
    ensures r.0.page == Sidebar && r.0.viewParams == map[] && r.0.apiBaseUrl == s.apiBaseUrl
    ensures r.1 == LogoutPost
  {
    (s.(accessToken := None, refreshToken := None, page := Sidebar, viewParams := map[],
        globals := s.globals.(accessToken := None, refreshToken := None)),
     LogoutPost)
  }

  /** A logout and the host's `logout-complete` leave the same tokens and navigation; only the globals differ. */
  lemma LogoutMatchesLogoutComplete(s: Session, payload: Option<Payload>)
    ensures var (a, b) := (Logout(s).0, OnHostMessage(s, HostMessage(LogoutComplete, payload)));
      a == b.(globals := a.globals)
  {
  }

  /** `login-complete` never moves the user away from the page they are on, nor changes the base URL. */
  lemma LoginCompleteKeepsNavigation(s: Session, p: Payload)
    ensures var r := OnHostMessage(s, HostMessage(LoginComplete, Some(p)));
      r.page == s.page && r.viewParams == s.viewParams && r.apiBaseUrl == s.apiBaseUrl
    ensures IsAuthenticated(OnHostMessage(s, HostMessage(LoginComplete, Some(p)))) <==> Js.Present(p.accessToken)
  {
  }

  /**
   * When the host echoes the tokens a webview posted back as
   * `tokens-updated`, the session does not change.
   */
  lemma EchoedTokensChangeNothing(s: Session, accessToken: string, refreshToken: string)
    requires accessToken != "" && refreshToken != ""
    ensures var (s1, post) := UpdateTokens(s, accessToken, refreshToken);
      OnHostMessage(s1, HostMessage(TokensUpdated, Some(Payload(Some(post.accessToken), Some(post.refreshToken), None)))) == s1
  {
  }

  /** An empty access token is stored by `updateTokens` but does not authenticate. */
  lemma EmptyAccessTokenNotAuthenticated(s: Session, refreshToken: string)
    ensures var s1 := UpdateTokens(s, "", refreshToken).0;
      s1.accessToken == Some("") && !IsAuthenticated(s1)
  {
  }

  /** Logging out twice is logging out once. */
  lemma LogoutIdempotent(s: Session)
    ensures Logout(Logout(s).0) == Logout(s)
  {
  }

  /**
   * `useWebSocket`'s condition for keeping a socket: a base URL, both tokens
   * and an authenticated session.
   */
  predicate SocketWanted(s: Session) {
    s.apiBaseUrl != "" && Js.Present(s.accessToken) && Js.Present(s.refreshToken) && IsAuthenticated(s)
  }

  /** After a logout, by either route, the socket hook's condition fails, so its cleanup disconnects. */
  lemma LogoutDropsSocket(s: Session, payload: Option<Payload>)
    ensures !SocketWanted(Logout(s).0)
    ensures !SocketWanted(OnHostMessage(s, HostMessage(LogoutComplete, payload)))
  {
  }

  /** A webview opened with tokens and a base URL in its globals wants a socket from the start. */
  lemma GlobalsStartSocket(accessToken: string, refreshToken: string, apiBaseUrl: string, saved: Option<SavedState>)
    requires accessToken != "" && refreshToken != "" && apiBaseUrl != ""
    ensures SocketWanted(Init(Globals(Some(accessToken), Some(refreshToken), Some(apiBaseUrl)), saved).0)
  {
  }
}

=== FILE: auth.dfy ===
/**
 * The original HTTP authentication helpers (`auth.ts`): `createTokens`, which
 * signs the token pair with the secrets from the process environment, and the
 * `isAuth(shouldThrow)` middleware.
 */
module Auth {
  import opened Wrappers
  import opened Jwt
  import Schema

  /**
   * `createTokens(user)`: the refresh token carries `{ userId, tokenVersion }`
   * under the refresh secret for 14 days, the access token `{ userId }` under
   * the access secret for 15 minutes. `None` when either secret is unusable, so
   * that `sign` throws.
   */
  function CreateTokens(user: Schema.UserRow, accessSecret: Option<string>, refreshSecret: Option<string>, now: int)
    : (r: Option<TokenPair>)
    ensures r.Some? <==> UsableSecret(accessSecret) && UsableSecret(refreshSecret)
    ensures r.Some? ==>
      && (forall t :: now <= t < now + AccessLifetime ==>
            Verify(r.value.accessToken, accessSecret, t) == Some(AccessClaims(user.id)))
      && Verify(r.value.accessToken, accessSecret, now + AccessLifetime).None?
      && (forall t :: now <= t < now + RefreshLifetime ==>
            Verify(r.value.refreshToken, refreshSecret, t) == Some(RefreshClaims(user.id, user.tokenVersion)))
      && Verify(r.value.refreshToken, refreshSecret, now + RefreshLifetime).None?
  {
    var refresh := Sign(RefreshClaims(user.id, user.tokenVersion), refreshSecret, RefreshLifetime, now);
    var access := Sign(AccessClaims(user.id), accessSecret, AccessLifetime, now);
    if refresh.Some? && access.Some? then Some(TokenPair(refresh.value, access.value)) else None
  }

  /** The argument `isAuth` passes to `next`: nothing, `false`, or an `Error`. */
  datatype NextArg = NoArg | FalseArg | ErrorArg(message: string)

  /** What the middleware leaves behind: the `req.userId` it set (if any) and how it called `next`. */
  datatype Decision = Decision(userId: Option<string>, next: NextArg)

  /** `isAuth()` without an argument. */
  const DefaultShouldThrow := true

  /** The `access-token` request header name. */
  const AccessHeader := "access-token"

  /**
   * `isAuth(shouldThrow)` on a request with the given headers. Only the
   * `access-token` header is read: a verifiable token sets `req.userId` and
   * continues; a missing or unverifiable one calls `next(shouldThrow && Error)`.
   * The refresh-and-rotate block after the `try/catch` is unreachable, since
   * both branches return, and is not part of the behaviour.
   */
  function IsAuth(shouldThrow: bool, headers: map<string, TokenText>, accessSecret: Option<string>, now: int)
    : (r: Decision)
    ensures r.userId.Some? <==> AccessHeader in headers && Verify(headers[AccessHeader], accessSecret, now).Some?
    ensures r.userId.Some? ==>
      r.userId.value == Verify(headers[AccessHeader], accessSecret, now).value.userId && r.next == NoArg
    ensures r.userId.None? ==> r.next == (if shouldThrow then ErrorArg("not authenticated") else FalseArg)
  {
    if AccessHeader !in headers then
      Decision(None, if shouldThrow then ErrorArg("not authenticated") else FalseArg)
    else
      match Verify(headers[AccessHeader], accessSecret, now)
      case Some(claims) => Decision(Some(claims.userId), NoArg)
      case None => Decision(None, if shouldThrow then ErrorArg("not authenticated") else FalseArg)
  }

  /** A header that does not verify is treated exactly like a missing one. */
  lemma UnverifiableIsMissing(shouldThrow: bool, headers: map<string, TokenText>, accessSecret: Option<string>, now: int)
    requires AccessHeader in headers && Verify(headers[AccessHeader], accessSecret, now).None?
    ensures IsAuth(shouldThrow, headers, accessSecret, now) == IsAuth(shouldThrow, headers - {AccessHeader}, accessSecret, now)
  {
  }

  /** No other header, `refresh-token` included, influences the decision. */
  lemma OnlyAccessHeaderRead(shouldThrow: bool, headers: map<string, TokenText>, name: string, value: TokenText,
                             accessSecret: Option<string>, now: int)
    requires name != AccessHeader
    ensures IsAuth(shouldThrow, headers[name := value], accessSecret, now) == IsAuth(shouldThrow, headers, accessSecret, now)
    ensures IsAuth(shouldThrow, headers - {name}, accessSecret, now) == IsAuth(shouldThrow, headers, accessSecret, now)
  {
    assert AccessHeader in headers[name := value] <==> AccessHeader in headers;
    assert AccessHeader in headers - {name} <==> AccessHeader in headers;
  }

  /** With the default `shouldThrow`, an unauthenticated request is failed with an error. */
  lemma DefaultFailsWithError(headers: map<string, TokenText>, accessSecret: Option<string>, now: int)
    requires AccessHeader !in headers
    ensures IsAuth(DefaultShouldThrow, headers, accessSecret, now) == Decision(None, ErrorArg("not authenticated"))
  {
  }

  /** An access token from `createTokens` authenticates its user for fifteen minutes, and no longer. */
  lemma IssuedAccessTokenAuthenticates(user: Schema.UserRow, accessSecret: Option<string>, refreshSecret: Option<string>,
                                       now: int, later: int, shouldThrow: bool)
    requires UsableSecret(accessSecret) && UsableSecret(refreshSecret)
    ensures var pair := CreateTokens(user, accessSecret, refreshSecret, now).value;
      var d := IsAuth(shouldThrow, map[AccessHeader := pair.accessToken], accessSecret, later);
      && (now <= later < now + AccessLifetime ==> d == Decision(Some(user.id), NoArg))
      && (later >= now + AccessLifetime ==> d.userId.None?)
  {
  }

  /** A refresh token offered in the `access-token` header is refused when the two secrets differ. */
  lemma RefreshTokenNotAccepted(user: Schema.UserRow, accessSecret: Option<string>, refreshSecret: Option<string>,
                                now: int, later: int, shouldThrow: bool)
    requires UsableSecret(accessSecret) && UsableSecret(refreshSecret) && accessSecret != refreshSecret
    ensures var pair := CreateTokens(user, accessSecret, refreshSecret, now).value;
      IsAuth(shouldThrow, map[AccessHeader := pair.refreshToken], accessSecret, later).userId.None?
  {
  }
}

=== FILE: auth_controller.dfy ===
/**
 * The OAuth and session handlers (`auth.controller.ts`): the state a Google
 * login starts with, the redirect after Google's callback, and `GET /auth/me`.
 */
module AuthController {
  import opened Wrappers
  import opened Schema
  import Js
  import Jwt
  import Config
  import UserService
  import UserController

  /** The login state carried through Google in the `state` parameter: `{ rn, rn2 }`. */
  datatype LoginState = LoginState(rn: Js.Json, rn2: Js.Json)

  /** `googleLogin` always starts with `{ rn: false, rn2: false }`. */
  const DefaultState := LoginState(Js.Bool(false), Js.Bool(false))

  /**
   * The `state` query parameter after base64 and JSON decoding; `Corrupt`
   * when decoding throws (no parameter, text that is not JSON, or `null`).
   */
  datatype StateParam = Decoded(state: LoginState) | Corrupt

  /** Where the callback sends the browser. */
  datatype Location =
    | LoginError(clientUrl: string, message: string)
    | DeepLink(prefix: string, route: string, accessToken: Jwt.TokenText, refreshToken: Jwt.TokenText)
    | WebCallback(clientUrl: string, accessToken: Jwt.TokenText, refreshToken: Jwt.TokenText)

  /** `res.redirect(...)`: Express answers 302 even after `res.status(401)`, since `redirect` sets its own status. */
  datatype Redirect = Redirect(status: int, location: Location)

  /** `pat` occurs in `s` starting at index `k`. */
  predicate OccursAt(s: string, pat: string, k: nat) {
    k + |pat| <= |s| && s[k..k + |pat|] == pat
  }

  /** The first index at or after `from` where `pat` occurs in `s`: `s.indexOf(pat, from)`. */
  function IndexFrom(s: string, pat: string, from: nat): (r: Option<nat>)
    requires from <= |s|
    ensures r.Some? ==> from <= r.value && OccursAt(s, pat, r.value)
    ensures r.Some? ==> forall k: nat :: from <= k < r.value ==> !OccursAt(s, pat, k)
    ensures r.None? ==> forall k: nat :: from <= k ==> !OccursAt(s, pat, k)
    decreases |s| - from
  {
    if from + |pat| > |s| then
      assert forall k: nat :: from <= k ==> !OccursAt(s, pat, k);
      None
    else if OccursAt(s, pat, from) then Some(from)
    else IndexFrom(s, pat, from + 1)
  }

  /** `s.replace(pat, repl)` with a string pattern: only the first occurrence is replaced. */
  function ReplaceFirst(s: string, pat: string, repl: string): string {
    match IndexFrom(s, pat, 0)
    case None => s
    case Some(i) => s[..i] + repl + s[i + |pat|..]
  }

  /** `s.split(':')[0]`: everything before the first colon, or all of `s` without one. */
  function BeforeColon(s: string): (r: string)
    ensures |r| <= |s| && r == s[..|r|] && ':' !in r
    ensures |r| < |s| ==> s[|r|] == ':'
  {
    if s == [] || s[0] == ':' then [] else [s[0]] + BeforeColon(s[1..])
  }

  /** The development host: `serverUrl.replace('http://', '').split(':')[0]`. */
  function DevHost(serverUrl: string): string {
    BeforeColon(ReplaceFirst(serverUrl, "http://", ""))
  }

  /** The prefix of the mobile deep link: the app scheme in production, the Expo development server otherwise. */
  function AppPrefix(prod: bool, serverUrl: string): string {
    if prod then "vsnip://" else "exp://" + DevHost(serverUrl) + ":19000/--/"
  }

  /** A server URL of the form `http://host:port` yields `host`. */
  lemma DevHostOfHttpUrl(host: string, port: string)
    requires ':' !in host
    ensures DevHost("http://" + host + ":" + port) == host
  {
    var s := "http://" + host + ":" + port;
    assert s[0..7] == "http://";
    var rest := host + ":" + port;
    assert ReplaceFirst(s, "http://", "") == rest by {
      assert s[7..] == rest;
    }
    BeforeColonOfPrefix(host, port);
  }

  lemma {:induction false} BeforeColonOfPrefix(host: string, port: string)
    requires ':' !in host
    ensures BeforeColon(host + ":" + port) == host
  {
    if host != [] {
      assert (host + ":" + port)[1..] == host[1..] + ":" + port;
      BeforeColonOfPrefix(host[1..], port);
    }
  }

  /** In development a server URL `http://host:port` sends the mobile app to the Expo server on `host`. */
  lemma DevPrefixOfHttpUrl(host: string, port: string)
    requires ':' !in host
    ensures AppPrefix(false, "http://" + host + ":" + port) == "exp://" + host + ":19000/--/"
  {
    DevHostOfHttpUrl(host, port);
  }

  /**
   * `googleCallback`: without the tokens Passport attaches, a login error
   * page; with them, a deep link into the mobile app when the state asks for
   * it (`rn2` before `rn`), the web client's callback otherwise, and a login
   * error page when the state cannot be decoded.
   */
  function GoogleCallback(tokens: Option<Jwt.TokenPair>, state: StateParam, settings: Config.Settings)
    : (r: Redirect)
    ensures r.status == 302
    ensures tokens.None? ==>
      r.location == LoginError(settings.clientUrl, "authentication_payload_missing")
    ensures tokens.Some? && state.Corrupt? ==>
      r.location == LoginError(settings.clientUrl, "state_processing_failed")
    ensures r.location.DeepLink? || r.location.WebCallback? ==>
      && tokens.Some? && state.Decoded?
      && r.location.accessToken == tokens.value.accessToken
      && r.location.refreshToken == tokens.value.refreshToken
    ensures r.location.DeepLink? ==>
      && r.location.prefix == AppPrefix(settings.prod, settings.serverUrl)
      && r.location.route == (if Js.Truthy(state.state.rn2) then "tokens2" else "tokens")
      && (Js.Truthy(state.state.rn2) || Js.Truthy(state.state.rn))
    ensures r.location.WebCallback? ==>
      r.location.clientUrl == settings.clientUrl && !Js.Truthy(state.state.rn2) && !Js.Truthy(state.state.rn)
    ensures tokens.Some? && state.Decoded? && Js.Truthy(state.state.rn2) ==>
      r.location == DeepLink(AppPrefix(settings.prod, settings.serverUrl), "tokens2",
                             tokens.value.accessToken, tokens.value.refreshToken)
    ensures tokens.Some? && state.Decoded? && !Js.Truthy(state.state.rn2) && Js.Truthy(state.state.rn) ==>
      r.location == DeepLink(AppPrefix(settings.prod, settings.serverUrl), "tokens",
                             tokens.value.accessToken, tokens.value.refreshToken)
    ensures tokens.Some? && state.Decoded? && !Js.Truthy(state.state.rn2) && !Js.Truthy(state.state.rn) ==>
      r.location == WebCallback(settings.clientUrl, tokens.value.accessToken, tokens.value.refreshToken)
  {
    if tokens.None? then Redirect(302, LoginError(settings.clientUrl, "authentication_payload_missing"))
    else
      match state
      case Corrupt => Redirect(302, LoginError(settings.clientUrl, "state_processing_failed"))
      case Decoded(st) =>
        var t := tokens.value;
        if Js.Truthy(st.rn2) then
          Redirect(302, DeepLink(AppPrefix(settings.prod, settings.serverUrl), "tokens2", t.accessToken, t.refreshToken))
        else if Js.Truthy(st.rn) then
          Redirect(302, DeepLink(AppPrefix(settings.prod, settings.serverUrl), "tokens", t.accessToken, t.refreshToken))
        else
          Redirect(302, WebCallback(settings.clientUrl, t.accessToken, t.refreshToken))
  }

  /** A login started by `googleLogin` comes back to the web client's callback with the issued tokens. */
  lemma DefaultStateGoesToWeb(tokens: Jwt.TokenPair, settings: Config.Settings)
    ensures GoogleCallback(Some(tokens), Decoded(DefaultState), settings)
         == Redirect(302, WebCallback(settings.clientUrl, tokens.accessToken, tokens.refreshToken))
  {
  }

  /**
   * Whatever the decoded state asks for, the browser leaves the callback with
   * the tokens Passport attached, and a login error page is shown exactly when
   * the tokens or the state are missing.
   */
  lemma CallbackCarriesTokens(tokens: Option<Jwt.TokenPair>, state: StateParam, settings: Config.Settings)
    ensures var loc := GoogleCallback(tokens, state, settings).location;
      && (loc.LoginError? <==> tokens.None? || state.Corrupt?)
      && (!loc.LoginError? ==> loc.accessToken == tokens.value.accessToken && loc.refreshToken == tokens.value.refreshToken)
      && (loc.DeepLink? <==> !loc.LoginError? && (Js.Truthy(state.state.rn2) || Js.Truthy(state.state.rn)))
  {
  }

  /** The body of `GET /auth/me`: the account, or `{ user: null, message }`. */
  datatype MeBody = SignedIn(user: Account) | NoUser(message: string)

  /**
   * `getMe`: 401 without an authenticated user, 404 when no row has the id,
   * 500 when the query fails, otherwise the account (e-mail address kept).
   * Every outcome is answered directly; nothing is passed on.
   */
  function GetMe(db: Db, userId: Option<string>): (r: Reply<MeBody>)
    ensures r.Respond?
    ensures r.status == 200 <==> r.body.SignedIn?
    ensures !Js.Present(userId) ==> r == Respond(401, NoUser("Not authenticated"))
    ensures Js.Present(userId) && db.fault.Some? ==> r == Respond(500, NoUser("Internal server error"))
    ensures (Js.Present(userId) && db.fault.None? && forall u :: u in db.users ==> u.id != userId.value) ==>
      r == Respond(404, NoUser("User not found"))
    ensures r.body.SignedIn? ==>
      Js.Present(userId) && r.body.user.id == userId.value && exists u :: u in db.users && ToAccount(u) == r.body.user
    ensures Js.Present(userId) && db.fault.None? ==>
      forall i :: FirstWithId(db.users, userId.value, i) ==> r == Respond(200, SignedIn(ToAccount(db.users[i])))
  {
    if !Js.Present(userId) then Respond(401, NoUser("Not authenticated"))
    else
      match UserService.FindUserById(db, userId.value)
      case Failure(_) => Respond(500, NoUser("Internal server error"))
      case Success(None) => Respond(404, NoUser("User not found"))
      case Success(Some(u)) => Respond(200, SignedIn(ToAccount(u)))
  }

  /**
   * `GET /auth/me` for the signed-in user answers with the same account as
   * `GET /users/:id` for that user's id, and fails exactly when that lookup does.
   */
  lemma MeMatchesLookup(db: Db, id: string)
    requires id != ""
    ensures var (me, byId) := (GetMe(db, Some(id)), UserController.GetUserById(db, id));
      && (me.status == 200 <==> byId.Respond?)
      && (byId.Respond? ==> me.body == SignedIn(byId.body))
  {
  }
}

=== FILE: auth_service.dfy ===
/** Token issuance of the modular server (`auth.service.ts`). */
module AuthService {
  import opened Wrappers
  import opened Jwt
  import Schema
  import Auth

  /**
   * `generateAuthTokens(user)`: refuses, before signing anything, unless both
   * configured secrets are set; otherwise exactly the two signed tokens.
   */
  function GenerateAuthTokens(user: Schema.UserRow, accessSecret: Option<string>, refreshSecret: Option<string>, now: int)
    : (r: Result<TokenPair, string>)
    ensures r.Failure? <==> !UsableSecret(accessSecret) || !UsableSecret(refreshSecret)
    ensures r.Failure? ==> r.error == "Token secrets are not configured."
    ensures r.Success? ==>
      && r.value.refreshToken == Signed(Token(RefreshClaims(user.id, user.tokenVersion), refreshSecret.value, now + RefreshLifetime))
      && r.value.accessToken == Signed(Token(AccessClaims(user.id), accessSecret.value, now + AccessLifetime))
  {
    if !UsableSecret(refreshSecret) || !UsableSecret(accessSecret) then
      Failure("Token secrets are not configured.")
    else
      var refresh := Sign(RefreshClaims(user.id, user.tokenVersion), refreshSecret, RefreshLifetime, now).value;
      var access := Sign(AccessClaims(user.id), accessSecret, AccessLifetime, now).value;
      Success(TokenPair(refresh, access))
  }

  /** The modular issuer and the original `createTokens` agree: same failures, same tokens. */
  lemma AgreesWithCreateTokens(user: Schema.UserRow, accessSecret: Option<string>, refreshSecret: Option<string>, now: int)
    ensures GenerateAuthTokens(user, accessSecret, refreshSecret, now).Success?
        <==> Auth.CreateTokens(user, accessSecret, refreshSecret, now).Some?
    ensures GenerateAuthTokens(user, accessSecret, refreshSecret, now).Success? ==>
      GenerateAuthTokens(user, accessSecret, refreshSecret, now).value
        == Auth.CreateTokens(user, accessSecret, refreshSecret, now).value
  {
  }

  /** The issued refresh token carries the user's current counter and verifies for fourteen days. */
  lemma IssuedRefreshTokenClaims(user: Schema.UserRow, accessSecret: Option<string>, refreshSecret: Option<string>,
                                 now: int, later: int)
    requires GenerateAuthTokens(user, accessSecret, refreshSecret, now).Success?
    ensures var pair := GenerateAuthTokens(user, accessSecret, refreshSecret, now).value;
      && (now <= later < now + RefreshLifetime ==>
            Verify(pair.refreshToken, refreshSecret, later) == Some(RefreshClaims(user.id, user.tokenVersion)))
      && (now <= later < now + AccessLifetime ==>
            Verify(pair.accessToken, accessSecret, later) == Some(AccessClaims(user.id)))
  {
  }
}

=== FILE: config.dfy ===
/**
 * Start-up configuration (`config.ts`): the settings object read from the
 * process environment, its defaults, and the validation that aborts start-up
 * when a credential is missing.
 */
module Config {
  import opened Wrappers
  import Js

  /** The process environment: variable name to value. */
  type Env = map<string, string>

  datatype Settings = Settings(
    googleOAuthClientId: Option<string>,
    googleOAuthClientSecret: Option<string>,
    serverUrl: string,
    clientUrl: string,
    accessTokenSecret: Option<string>,
    refreshTokenSecret: Option<string>,
    databaseUrl: Option<string>,
    redisUrl: Option<string>,
    /** `None` stands for `NaN` (a `PORT` without leading digits). */
    port: Option<int>,
    nodeEnv: string,
    prod: bool)

  const DefaultServerUrl := "http://localhost:4000"
  const DefaultClientUrl := "http://localhost:3000"
  const DefaultPort := 4000
  const DefaultNodeEnv := "development"

  /** `process.env[name]`. */
  function Var(env: Env, name: string): Option<string> {
    if name in env then Some(env[name]) else None
  }

  /** `process.env[name] || fallback`: an empty value also falls back. */
  function VarOr(env: Env, name: string, fallback: string): (r: string)
    ensures Js.Present(Var(env, name)) ==> r == env[name]
    ensures !Js.Present(Var(env, name)) ==> r == fallback
  {
    if Js.Present(Var(env, name)) then env[name] else fallback
  }

  /** The `config` object literal, before any check. */
  function Read(env: Env): Settings {
    Settings(
      Var(env, "GOOGLE_OAUTH_CLIENT_ID"),
      Var(env, "GOOGLE_OAUTH_CLIENT_SECRET"),
      VarOr(env, "SERVER_URL", DefaultServerUrl),
      VarOr(env, "CLIENT_URL", DefaultClientUrl),
      Var(env, "ACCESS_TOKEN_SECRET"),
      Var(env, "REFRESH_TOKEN_SECRET"),
      Var(env, "DATABASE_URL"),
      Var(env, "REDIS_URL"),
      if Js.Present(Var(env, "PORT")) then Js.ParseInt(env["PORT"]) else Some(DefaultPort),
      VarOr(env, "NODE_ENV", DefaultNodeEnv),
      Var(env, "NODE_ENV") == Some("production"))
  }

  /**
   * Module initialisation: the settings, or the message of the first failed
   * check. The client id, the client secret, the access secret and the refresh
   * secret are checked in that order; `DATABASE_URL` is not required.
   */
  function Load(env: Env): (r: Result<Settings, string>)
    ensures r.Success? <==>
      && Js.Present(Var(env, "GOOGLE_OAUTH_CLIENT_ID"))
      && Js.Present(Var(env, "GOOGLE_OAUTH_CLIENT_SECRET"))
      && Js.Present(Var(env, "ACCESS_TOKEN_SECRET"))
      && Js.Present(Var(env, "REFRESH_TOKEN_SECRET"))
    ensures !Js.Present(Var(env, "GOOGLE_OAUTH_CLIENT_ID")) ==>
      r == Failure("Missing GOOGLE_OAUTH_CLIENT_ID in .env")
    ensures Js.Present(Var(env, "GOOGLE_OAUTH_CLIENT_ID")) && !Js.Present(Var(env, "GOOGLE_OAUTH_CLIENT_SECRET")) ==>
      r == Failure("Missing GOOGLE_OAUTH_CLIENT_SECRET in .env")
    ensures (Js.Present(Var(env, "GOOGLE_OAUTH_CLIENT_ID")) && Js.Present(Var(env, "GOOGLE_OAUTH_CLIENT_SECRET"))
             && !Js.Present(Var(env, "ACCESS_TOKEN_SECRET"))) ==>
      r == Failure("Missing ACCESS_TOKEN_SECRET in .env")
    ensures (Js.Present(Var(env, "GOOGLE_OAUTH_CLIENT_ID")) && Js.Present(Var(env, "GOOGLE_OAUTH_CLIENT_SECRET"))
             && Js.Present(Var(env, "ACCESS_TOKEN_SECRET")) && !Js.Present(Var(env, "REFRESH_TOKEN_SECRET"))) ==>
      r == Failure("Missing REFRESH_TOKEN_SECRET in .env")
    ensures r.Success? ==>
      (r.value == Read(env) && Js.Present(r.value.accessTokenSecret) && Js.Present(r.value.refreshTokenSecret))
  {
    var s := Read(env);
    if !Js.Present(s.googleOAuthClientId) then Failure("Missing GOOGLE_OAUTH_CLIENT_ID in .env")
    else if !Js.Present(s.googleOAuthClientSecret) then Failure("Missing GOOGLE_OAUTH_CLIENT_SECRET in .env")
    else if !Js.Present(s.accessTokenSecret) then Failure("Missing ACCESS_TOKEN_SECRET in .env")
    else if !Js.Present(s.refreshTokenSecret) then Failure("Missing REFRESH_TOKEN_SECRET in .env")
    else Success(s)
  }

  /** Whether `DATABASE_URL` is set never decides whether start-up succeeds. */
  lemma DatabaseUrlOptional(env: Env, url: string)
    ensures Load(env).Success? <==> Load(env - {"DATABASE_URL"}).Success?
    ensures Load(env).Success? <==> Load(env["DATABASE_URL" := url]).Success?
  {
    assert Var(env - {"DATABASE_URL"}, "GOOGLE_OAUTH_CLIENT_ID") == Var(env, "GOOGLE_OAUTH_CLIENT_ID");
    assert Var(env - {"DATABASE_URL"}, "GOOGLE_OAUTH_CLIENT_SECRET") == Var(env, "GOOGLE_OAUTH_CLIENT_SECRET");
    assert Var(env - {"DATABASE_URL"}, "ACCESS_TOKEN_SECRET") == Var(env, "ACCESS_TOKEN_SECRET");
    assert Var(env - {"DATABASE_URL"}, "REFRESH_TOKEN_SECRET") == Var(env, "REFRESH_TOKEN_SECRET");
  }

  /** `prod` holds exactly when the effective `nodeEnv` is `production`; with no `NODE_ENV` it is `development`. */
  lemma ProdMatchesNodeEnv(env: Env)
    ensures Read(env).prod <==> Read(env).nodeEnv == "production"
    ensures !Js.Present(Var(env, "NODE_ENV")) ==> Read(env).nodeEnv == DefaultNodeEnv && !Read(env).prod
  {
  }

  /** `prod` is a strict comparison with `production`, so no other spelling turns it on. */
  lemma ProdOnlyForProduction(env: Env)
    ensures Read(env).prod <==> Var(env, "NODE_ENV") == Some("production")
  {
  }

  /** Unset or empty URLs fall back to the local development servers. */
  lemma UrlDefaults(env: Env)
    ensures !Js.Present(Var(env, "SERVER_URL")) ==> Read(env).serverUrl == "http://localhost:4000"
    ensures !Js.Present(Var(env, "CLIENT_URL")) ==> Read(env).clientUrl == "http://localhost:3000"
    ensures Js.Present(Var(env, "SERVER_URL")) ==> Read(env).serverUrl == env["SERVER_URL"]
  {
  }

  /** A `PORT` written in decimal is the port; without `PORT` the server listens on 4000. */
  lemma PortFromEnv(env: Env, n: nat)
    ensures Var(env, "PORT") == Some(Js.Decimal(n)) ==> Read(env).port == Some(n)
    ensures "PORT" !in env ==> Read(env).port == Some(4000)
  {
    if Var(env, "PORT") == Some(Js.Decimal(n)) {
      Js.ParseIntDecimal(n);
    }
  }
}

=== FILE: conversation_controller.dfy ===
/**
 * The conversation routes' handlers (`conversation.controller.ts`):
 * authentication and request checks in front of the conversation service.
 */
module ConversationController {
  import opened Wrappers
  import opened Schema
  import Js
  import ConversationService

  /** The JSON body of a find-or-create answer: `{ conv, ok: true, created }`. */
  datatype ConvBody = ConvBody(conv: ConversationRow, ok: bool, created: bool)

  /** `GET /conversations`: 401 without an authenticated user, otherwise the user's list or the service error. */
  function GetConversations(db: Db, userId: Option<string>)
    : (r: Reply<seq<ConversationService.ConversationView>>)
    ensures !Js.Present(userId) ==> r == Forward(HttpError(401, "Not authenticated"))
    ensures r.Respond? <==>
      Js.Present(userId) && ConversationService.GetConversationsForUser(db, userId.value).Success?
    ensures r.Respond? ==>
      r.status == 200 && Success(r.body) == ConversationService.GetConversationsForUser(db, userId.value)
    ensures Js.Present(userId) && ConversationService.GetConversationsForUser(db, userId.value).Failure? ==>
      r == Forward(ConversationService.GetConversationsForUser(db, userId.value).error)
    ensures !r.Unanswered?
  {
    if !Js.Present(userId) then Forward(HttpError(401, "Not authenticated"))
    else
      match ConversationService.GetConversationsForUser(db, userId.value)
      case Success(list) => Respond(200, list)
      case Failure(e) => Forward(e)
  }

  /**
   * Every conversation a 200 lists is an active conversation of the caller,
   * shown with the other participant and the caller's own read flag.
   */
  lemma ListedReplyBelongsToCaller(db: Db, me: string, v: ConversationService.ConversationView)
    requires me != ""
    requires GetConversations(db, Some(me)).Respond?
    requires v in GetConversations(db, Some(me)).body
    ensures exists co, u ::
      (&& co in db.conversations && u in db.users
       && (co.userId1 == me || co.userId2 == me) && !co.unfriended
       && u.id != me && v.userId == u.id && v.conversationId == co.id
       && v.read == ConversationService.OwnFlag(co, me))
  {
    ConversationService.ListedRowsBelongToCaller(db, me, v);
  }

  /**
   * `POST /conversations`: 401 without an authenticated user, 400 unless the
   * body's `userId` is a non-empty string; otherwise find-or-create, answered
   * with 201 when a conversation was created or reactivated and 200 when an
   * active one already existed.
   */
  function CreateConversation(db: Db, userId: Option<string>, other: Js.Json, newId: string, now: int)
    : (r: (Db, Reply<ConvBody>))
    ensures !Js.Present(userId) ==> r == (db, Forward(HttpError(401, "Not authenticated")))
    ensures Js.Present(userId) && (!Js.Truthy(other) || !other.Str?) ==>
      r == (db, Forward(HttpError(400, "Valid otherUserId is required")))
    ensures r.1.Respond? ==>
      var found := ConversationService.FindOrCreateConversation(db, userId.value, other.s, newId, now);
      && found.Success?
      && r.0 == found.value.db
      && r.1.status == (if found.value.created then 201 else 200)
      && r.1.body == ConvBody(found.value.conv, true, found.value.created)
    ensures r.1.Forward? ==> r.0 == db
    ensures Js.Present(userId) && Js.Truthy(other) && other.Str? ==>
      var found := ConversationService.FindOrCreateConversation(db, userId.value, other.s, newId, now);
      && (found.Success? ==>
            r == (found.value.db, Respond(if found.value.created then 201 else 200,
                                          ConvBody(found.value.conv, true, found.value.created))))
      && (found.Failure? ==> r == (db, Forward(found.error)))
    ensures !r.1.Unanswered?
  {
    if !Js.Present(userId) then (db, Forward(HttpError(401, "Not authenticated")))
    else if !Js.Truthy(other) || !other.Str? then (db, Forward(HttpError(400, "Valid otherUserId is required")))
    else
      match ConversationService.FindOrCreateConversation(db, userId.value, other.s, newId, now)
      case Success(o) => (o.db, Respond(if o.created then 201 else 200, ConvBody(o.conv, true, o.created)))
      case Failure(e) => (db, Forward(e))
  }

  /** Posting the same pair again answers 200 with the conversation the first post returned, and changes nothing. */
  lemma RepeatedCreateAnswers200(db: Db, me: string, other: string, newId: string, newId2: string, now: int, now2: int)
    requires CreateConversation(db, Some(me), Js.Str(other), newId, now).1.Respond?
    ensures var (db1, first) := CreateConversation(db, Some(me), Js.Str(other), newId, now);
      CreateConversation(db1, Some(me), Js.Str(other), newId2, now2)
        == (db1, Respond(200, ConvBody(first.body.conv, true, false)))
  {
    ConversationService.FindOrCreateSettles(db, me, other, newId, newId2, now, now2);
  }

  /** Asking for a conversation with oneself is refused with 400 and changes nothing. */
  lemma SelfConversationRefused(db: Db, me: string, newId: string, now: int)
    requires me != ""
    ensures CreateConversation(db, Some(me), Js.Str(me), newId, now)
         == (db, Forward(HttpError(400, "Cannot create a conversation with yourself.")))
  {
  }
}

=== FILE: conversation_service.dfy ===
/**
 * The conversation service (`conversation.service.ts`): the per-user
 * conversation list, find-or-create with reactivation, and mark-as-read.
 */
module ConversationService {
  import opened Wrappers
  import opened Schema
  import Js
  import StringOrder
  import Recency

  // ---------------------------------------------------------------------------
  // The conversation list
  // ---------------------------------------------------------------------------

  /** The preview of a conversation's latest message. */
  datatype Preview = Preview(text: string, createdAt: int)

  /** A row of the conversation list (`EnrichedConversation`), seen from the requesting user. */
  datatype ConversationView = ConversationView(
    read: bool,
    conversationId: string,
    userId: string,
    username: string,
    avatar: Option<string>,
    createdAt: int,
    message: Option<Preview>)

  /** `LIMIT 150`. */
  const ListLimit: nat := 150
  /** Texts longer than this are cut in the preview. */
  const PreviewLimit: nat := 40

  /** The latest message between `a` and `b` (`ORDER BY created_at DESC LIMIT 1`); among equal times the first stored. */
  function Latest(ms: seq<MessageRow>, a: string, b: string): (r: Option<MessageRow>)
    ensures r.Some? ==> r.value in ms && Exchanged(r.value, a, b)
    ensures r.Some? ==> forall m :: m in ms && Exchanged(m, a, b) ==> m.createdAt <= r.value.createdAt
    ensures r.None? <==> forall m :: m in ms ==> !Exchanged(m, a, b)
  {
    if ms == [] then None
    else
      var rest := Latest(ms[1..], a, b);
      assert forall m :: m in ms ==> m == ms[0] || m in ms[1..];
      if !Exchanged(ms[0], a, b) then rest
      else if rest.Some? && rest.value.createdAt > ms[0].createdAt then rest
      else Some(ms[0])
  }

  /**
   * The preview text: `CASE WHEN char_length(text) > 40 THEN substr(text, 0, 40) || '...'`.
   * PostgreSQL counts `substr` positions from 1, so start 0 with length 40 keeps 39 characters.
   */
  function PreviewText(t: string): string {
    if |t| > PreviewLimit then t[..PreviewLimit - 1] + "..." else t
  }

  /** A preview is the whole text up to 40 characters, else its first 39 characters and an ellipsis. */
  lemma PreviewShape(t: string)
    ensures |PreviewText(t)| <= PreviewLimit + 2
    ensures |t| <= PreviewLimit ==> PreviewText(t) == t
    ensures |t| > PreviewLimit ==>
      && |PreviewText(t)| == 42
      && PreviewText(t)[..39] == t[..39]
      && PreviewText(t)[39..] == "..."
  {
  }

  /** The requesting user's own read flag: `read1` when they are `userId1`, else `read2`. */
  function OwnFlag(co: ConversationRow, me: string): bool {
    if co.userId1 == me then co.read1 else co.read2
  }

  /** The `WHERE` clause: the user takes part and the conversation is not unfriended. */
  predicate Listed(co: ConversationRow, me: string) {
    (co.userId1 == me || co.userId2 == me) && !co.unfriended
  }

  /** The `INNER JOIN` condition: `u` is a participant other than the requesting user. */
  predicate Partner(u: UserRow, co: ConversationRow, me: string) {
    u.id != me && (u.id == co.userId1 || u.id == co.userId2)
  }

  /** The projected row for conversation `co` joined with user `u`. */
  function View(co: ConversationRow, u: UserRow, msgs: seq<MessageRow>): ConversationView {
    var latest := Latest(msgs, co.userId1, co.userId2);
    ConversationView(
      if u.id == co.userId1 then co.read2 else co.read1,
      co.id, u.id, u.username, u.avatar, co.createdAt,
      if latest.Some? then Some(Preview(PreviewText(latest.value.text), latest.value.createdAt)) else None)
  }

  /** The `read` column is the requesting user's own flag, never the partner's. */
  lemma ViewReadIsOwnFlag(co: ConversationRow, u: UserRow, me: string, msgs: seq<MessageRow>)
    requires Listed(co, me) && Partner(u, co, me)
    ensures View(co, u, msgs).read == OwnFlag(co, me)
  {
  }

  /** The rows `co` contributes to the join, one per matching user row. */
  function RowsFor(co: ConversationRow, users: seq<UserRow>, me: string, msgs: seq<MessageRow>): seq<ConversationView> {
    if users == [] then []
    else
      (if Listed(co, me) && Partner(users[0], co, me) then [View(co, users[0], msgs)] else [])
      + RowsFor(co, users[1..], me, msgs)
  }

  /** The join of `conversations` with `users`, before ordering and limiting. */
  function Joined(convs: seq<ConversationRow>, users: seq<UserRow>, me: string, msgs: seq<MessageRow>)
    : seq<ConversationView>
  {
    if convs == [] then [] else RowsFor(convs[0], users, me, msgs) + Joined(convs[1..], users, me, msgs)
  }

  lemma {:induction false} RowsForSpec(co: ConversationRow, users: seq<UserRow>, me: string, msgs: seq<MessageRow>,
                                       v: ConversationView)
    ensures v in RowsFor(co, users, me, msgs) <==>
      exists u :: u in users && Listed(co, me) && Partner(u, co, me) && v == View(co, u, msgs)
  {
    if users != [] {
      RowsForSpec(co, users[1..], me, msgs, v);
      assert forall u :: u in users <==> u == users[0] || u in users[1..];
    }
  }

  /** A row is in the join exactly when it is the view of a listed conversation and one of its partners. */
  lemma {:induction false} JoinedSpec(convs: seq<ConversationRow>, users: seq<UserRow>, me: string, msgs: seq<MessageRow>,
                                      v: ConversationView)
    ensures v in Joined(convs, users, me, msgs) <==>
      exists co, u :: co in convs && u in users && Listed(co, me) && Partner(u, co, me) && v == View(co, u, msgs)
  {
    if convs != [] {
      JoinedSpec(convs[1..], users, me, msgs, v);
      RowsForSpec(convs[0], users, me, msgs, v);
      assert forall co :: co in convs <==> co == convs[0] || co in convs[1..];
    }
  }

  /** The ordering key: the time of the latest message, absent for a conversation without messages. */
  function LatestTime(v: ConversationView): Option<int> {
    if v.message.Some? then Some(v.message.value.createdAt) else None
  }

  /**
   * `getConversationsForUser(userId)`: the joined rows ordered by latest
   * message time, newest first and message-less conversations last, cut at 150.
   * A database failure becomes a 500.
   */
  function GetConversationsForUser(db: Db, me: string): (r: Result<seq<ConversationView>, Failure>)
    ensures r.Failure? <==> db.fault.Some?
    ensures r.Failure? ==> r.error == HttpError(500, "Database error while fetching conversations.")
    ensures r.Success? ==>
      var all := Joined(db.conversations, db.users, me, db.messages);
      && |r.value| == (if |all| <= ListLimit then |all| else ListLimit)
      && multiset(r.value) <= multiset(all)
      && Recency.NewestFirst(r.value, LatestTime)
      && (|all| <= ListLimit ==> multiset(r.value) == multiset(all))
      && (forall x, y :: x in r.value && y in multiset(all) - multiset(r.value) ==>
            Recency.NoOlder(LatestTime(x), LatestTime(y)))
  {
    if db.fault.Some? then Failure(HttpError(500, "Database error while fetching conversations."))
    else
      var all := Joined(db.conversations, db.users, me, db.messages);
      var sorted := Recency.SortNewestFirst(all, LatestTime);
      assert |sorted| == |multiset(sorted)| == |all|;
      Recency.TakeKeepsNewest(sorted, ListLimit, LatestTime);
      Recency.TakeSubMultiset(sorted, ListLimit);
      var kept := Recency.Take(sorted, ListLimit);
      Recency.PrefixBeatsRest(sorted, |kept|, LatestTime);
      Success(kept)
  }

  /**
   * Every listed row comes from a conversation the user takes part in that is
   * not unfriended, shows the other participant, and carries the user's own
   * read flag.
   */
  lemma ListedRowsBelongToCaller(db: Db, me: string, v: ConversationView)
    requires GetConversationsForUser(db, me).Success?
    requires v in GetConversationsForUser(db, me).value
    ensures exists co, u ::
      (&& co in db.conversations && u in db.users
       && (co.userId1 == me || co.userId2 == me) && !co.unfriended
       && u.id != me && v.userId == u.id && v.conversationId == co.id
       && v.read == OwnFlag(co, me))
  {
    var all := Joined(db.conversations, db.users, me, db.messages);
    var r := GetConversationsForUser(db, me).value;
    assert v in multiset(r);
    assert v in all;
    JoinedSpec(db.conversations, db.users, me, db.messages, v);
    var co, u :| co in db.conversations && u in db.users && Listed(co, me) && Partner(u, co, me)
      && v == View(co, u, db.messages);
    ViewReadIsOwnFlag(co, u, me, db.messages);
  }

  /** Below the limit, every listed conversation appears once for each of its partner rows. */
  lemma ListedConversationsAppear(db: Db, me: string, co: ConversationRow, u: UserRow)
    requires db.fault.None?
    requires |Joined(db.conversations, db.users, me, db.messages)| <= ListLimit
    requires co in db.conversations && u in db.users && Listed(co, me) && Partner(u, co, me)
    ensures View(co, u, db.messages) in GetConversationsForUser(db, me).value
  {
    var v := View(co, u, db.messages);
    JoinedSpec(db.conversations, db.users, me, db.messages, v);
    var r := GetConversationsForUser(db, me).value;
    assert v in multiset(Joined(db.conversations, db.users, me, db.messages));
    assert v in multiset(r);
  }

  // ---------------------------------------------------------------------------
  // Find or create
  // ---------------------------------------------------------------------------

  /** The conversation row joins `a` and `b`, in either column order. */
  predicate Joins(co: ConversationRow, a: string, b: string) {
    (co.userId1 == b && co.userId2 == a) || (co.userId1 == a && co.userId2 == b)
  }

  /** The index of the first row joining `a` and `b` at or after `from`. */
  function FindFrom(convs: seq<ConversationRow>, a: string, b: string, from: nat): (r: Option<nat>)
    requires from <= |convs|
    ensures r.Some? ==> from <= r.value < |convs| && Joins(convs[r.value], a, b)
    ensures r.Some? ==> forall j :: from <= j < r.value ==> !Joins(convs[j], a, b)
    ensures r.None? ==> forall j :: from <= j < |convs| ==> !Joins(convs[j], a, b)
    decreases |convs| - from
  {
    if from == |convs| then None
    else if Joins(convs[from], a, b) then Some(from)
    else FindFrom(convs, a, b, from + 1)
  }

  /** `UPDATE conversations SET unfriended = false WHERE id = $1`. */
  function Reactivate(convs: seq<ConversationRow>, id: string): (r: seq<ConversationRow>)
    ensures |r| == |convs|
    ensures forall i :: 0 <= i < |r| ==> r[i] == if convs[i].id == id then convs[i].(unfriended := false) else convs[i]
  {
    seq(|convs|, i requires 0 <= i < |convs| => if convs[i].id == id then convs[i].(unfriended := false) else convs[i])
  }

  /** The result of find-or-create: the database afterwards, the conversation and whether it counts as created. */
  datatype Outcome = Outcome(db: Db, conv: ConversationRow, created: bool)

  /**
   * `findOrCreateConversation(me, other)`. A conversation with oneself is a 400
   * before any lookup. An existing conversation (either column order) is
   * returned as is, or reactivated and reported as created when it was
   * unfriended; otherwise a new row with the ids in sorted order is inserted.
   * A database failure becomes a 500.
   */
  function FindOrCreateConversation(db: Db, me: string, other: string, newId: string, now: int)
    : (r: Result<Outcome, Failure>)
    ensures other == me ==> r == Failure(HttpError(400, "Cannot create a conversation with yourself."))
    ensures other != me && db.fault.Some? ==>
      r == Failure(HttpError(500, "Database error while creating/finding conversation."))
    ensures r.Success? <==> other != me && db.fault.None?
    ensures r.Success? ==> Joins(r.value.conv, me, other) && !r.value.conv.unfriended
    ensures r.Success? && !r.value.created ==> r.value.db == db && r.value.conv in db.conversations
    ensures r.Success? && r.value.created && FindFrom(db.conversations, me, other, 0).None? ==>
      && r.value.db == db.(conversations := db.conversations + [r.value.conv])
      && StringOrder.AtMost(r.value.conv.userId1, r.value.conv.userId2)
      && r.value.conv == ConversationRow(newId, r.value.conv.userId1, r.value.conv.userId2, false, false, false, now)
    ensures r.Success? ==>
      var found := FindFrom(db.conversations, me, other, 0);
      && (found.None? ==> r.value.created)
      && (found.Some? && !db.conversations[found.value].unfriended ==>
            r.value == Outcome(db, db.conversations[found.value], false))
      && (found.Some? && db.conversations[found.value].unfriended ==>
            var co := db.conversations[found.value];
            r.value == Outcome(db.(conversations := Reactivate(db.conversations, co.id)), co.(unfriended := false), true))
  {
    if other == me then Failure(HttpError(400, "Cannot create a conversation with yourself."))
    else if db.fault.Some? then Failure(HttpError(500, "Database error while creating/finding conversation."))
    else
      match FindFrom(db.conversations, me, other, 0)
      case Some(i) =>
        var co := db.conversations[i];
        if co.unfriended then
          Success(Outcome(db.(conversations := Reactivate(db.conversations, co.id)), co.(unfriended := false), true))
        else
          Success(Outcome(db, co, false))
      case None =>
        var ids := StringOrder.OrderPair(other, me);
        StringOrder.PairOfMultiset(ids.0, ids.1, other, me);
        var row := ConversationRow(newId, ids.0, ids.1, false, false, false, now);
        Success(Outcome(db.(conversations := db.conversations + [row]), row, true))
  }

  /** Which participant asks makes no difference: the same conversation, the same `created`, the same database. */
  lemma FindOrCreateSymmetric(db: Db, a: string, b: string, newId: string, now: int)
    ensures FindOrCreateConversation(db, a, b, newId, now) == FindOrCreateConversation(db, b, a, newId, now)
  {
    assert forall co :: Joins(co, a, b) <==> Joins(co, b, a);
    FindFromSymmetric(db.conversations, a, b, 0);
    StringOrder.OrderPairSymmetric(a, b);
  }

  lemma {:induction false} FindFromSymmetric(convs: seq<ConversationRow>, a: string, b: string, from: nat)
    requires from <= |convs|
    ensures FindFrom(convs, a, b, from) == FindFrom(convs, b, a, from)
    decreases |convs| - from
  {
    if from < |convs| {
      FindFromSymmetric(convs, a, b, from + 1);
    }
  }

  /** Asking again finds what the first call returned: the same conversation, not created, nothing changed. */
  lemma FindOrCreateSettles(db: Db, me: string, other: string, newId: string, newId2: string, now: int, now2: int)
    requires FindOrCreateConversation(db, me, other, newId, now).Success?
    ensures var first := FindOrCreateConversation(db, me, other, newId, now).value;
      var second := FindOrCreateConversation(first.db, me, other, newId2, now2);
      second == Success(Outcome(first.db, first.conv, false))
  {
    var first := FindOrCreateConversation(db, me, other, newId, now).value;
    var convs := db.conversations;
    var convs' := first.db.conversations;
    match FindFrom(convs, me, other, 0)
    case Some(i) =>
      FindFromSame(convs, convs', me, other, i);
    case None =>
      FindFromSame(convs, convs', me, other, |convs|);
  }

  /** A table whose first `i` rows join the same pairs as before and whose row `i` joins the pair is searched to `i`. */
  lemma FindFromSame(convs: seq<ConversationRow>, convs': seq<ConversationRow>, a: string, b: string, i: nat)
    requires i < |convs'| && i <= |convs|
    requires forall j :: 0 <= j < i ==> !Joins(convs[j], a, b)
    requires forall j :: 0 <= j < i ==> convs'[j].userId1 == convs[j].userId1 && convs'[j].userId2 == convs[j].userId2
    requires Joins(convs'[i], a, b)
    ensures FindFrom(convs', a, b, 0) == Some(i)
  {
    assert forall j :: 0 <= j < i ==> !Joins(convs'[j], a, b);
  }

  // ---------------------------------------------------------------------------
  // Mark as read
  // ---------------------------------------------------------------------------

  /** The row joins `a` and `b` and is stored with the smaller id in `userId1`, as every insert stores it. */
  predicate StoredInOrder(co: ConversationRow, a: string, b: string) {
    Joins(co, a, b) && StringOrder.AtMost(co.userId1, co.userId2)
  }

  /** The rows keyed by `getUserIdOrder(a, b)` are exactly the rows joining the pair in stored order. */
  lemma OrderedKey(a: string, b: string)
    ensures forall co :: StoredInOrder(co, a, b) <==> (co.userId1, co.userId2) == StringOrder.OrderPair(a, b)
  {
    StringOrder.OrderPairFirst(a, b);
    forall co | StoredInOrder(co, a, b)
      ensures (co.userId1, co.userId2) == StringOrder.OrderPair(a, b)
    {
      if co.userId1 == b && co.userId2 == a && StringOrder.AtMost(a, b) {
        StringOrder.AtMostAntisymmetric(a, b);
      }
    }
    var ids := StringOrder.OrderPair(a, b);
    StringOrder.PairOfMultiset(ids.0, ids.1, a, b);
  }

  /**
   * One row after mark-read: on a row keyed by `getUserIdOrder(me, other)`
   * the flag of the caller's column is set (`read1` when the caller is the
   * smaller id); any other row is left alone.
   */
  function MarkRow(co: ConversationRow, me: string, other: string): (r: ConversationRow)
    ensures r == co.(read1 := r.read1, read2 := r.read2)
    ensures (co.read1 ==> r.read1) && (co.read2 ==> r.read2)
    ensures StoredInOrder(co, me, other) ==>
      OwnFlag(r, me) && (other != me ==> OwnFlag(r, other) == OwnFlag(co, other))
    ensures !StoredInOrder(co, me, other) ==> r == co
  {
    OrderedKey(me, other);
    var ids := StringOrder.OrderPair(me, other);
    if co.userId1 == ids.0 && co.userId2 == ids.1 then
      (if me == ids.0 then co.(read1 := true) else co.(read2 := true))
    else co
  }

  /**
   * `markConversationAsRead(me, other)`: a no-op when either id is missing;
   * otherwise sets the caller's own flag (`read1` when the caller is the
   * smaller id) on the rows stored under the ordered pair. A database failure
   * is swallowed, leaving everything as it was.
   */
  function MarkConversationAsRead(db: Db, me: string, other: Option<string>): (r: Db)
    ensures r.users == db.users && r.messages == db.messages && r.fault == db.fault
    ensures |r.conversations| == |db.conversations|
    ensures me == "" || !Js.Present(other) || db.fault.Some? ==> r == db
    ensures forall i :: 0 <= i < |r.conversations| ==>
      var (c, c') := (db.conversations[i], r.conversations[i]);
      && c' == c.(read1 := c'.read1, read2 := c'.read2)
      && (c.read1 ==> c'.read1) && (c.read2 ==> c'.read2)
    ensures me != "" && Js.Present(other) && db.fault.None? ==>
      forall i :: 0 <= i < |r.conversations| ==>
        var (c, c') := (db.conversations[i], r.conversations[i]);
        && (StoredInOrder(c, me, other.value) ==>
              OwnFlag(c', me) && (other.value != me ==> OwnFlag(c', other.value) == OwnFlag(c, other.value)))
        && (!StoredInOrder(c, me, other.value) ==> c' == c)
  {
    if me == "" || !Js.Present(other) || db.fault.Some? then db
    else
      db.(conversations := seq(|db.conversations|, i requires 0 <= i < |db.conversations| =>
        MarkRow(db.conversations[i], me, other.value)))
  }

  /**
   * On each row stored under the ordered pair the caller's own flag ends up
   * set and the other participant's flag is untouched; rows under any other
   * key do not change.
   */
  lemma MarkReadSetsOnlyOwnFlag(db: Db, me: string, other: string, i: nat)
    requires me != "" && other != "" && me != other && db.fault.None?
    requires i < |db.conversations|
    ensures var (c, c') := (db.conversations[i], MarkConversationAsRead(db, me, Some(other)).conversations[i]);
      var ids := StringOrder.OrderPair(me, other);
      && (c.userId1 == ids.0 && c.userId2 == ids.1 ==> OwnFlag(c', me) && OwnFlag(c', other) == OwnFlag(c, other))
      && (!(c.userId1 == ids.0 && c.userId2 == ids.1) ==> c' == c)
  {
    var ids := StringOrder.OrderPair(me, other);
    StringOrder.PairOfMultiset(ids.0, ids.1, me, other);
  }

  /** A conversation with oneself, which the service accepts here, gets `read1` set. */
  lemma MarkReadSelfPair(db: Db, me: string, i: nat)
    requires me != "" && db.fault.None?
    requires i < |db.conversations|
    requires db.conversations[i].userId1 == me && db.conversations[i].userId2 == me
    ensures MarkConversationAsRead(db, me, Some(me)).conversations[i] == db.conversations[i].(read1 := true)
  {
    StringOrder.OrderPairSame(me);
  }

  /** Marking read is idempotent. */
  lemma MarkReadIdempotent(db: Db, me: string, other: Option<string>)
    ensures var once := MarkConversationAsRead(db, me, other);
      MarkConversationAsRead(once, me, other) == once
  {
    var once := MarkConversationAsRead(db, me, other);
    var twice := MarkConversationAsRead(once, me, other);
    assert twice.conversations == once.conversations;
  }

  /** After marking, a listed conversation shows as read to the caller. */
  lemma MarkedConversationShowsRead(db: Db, me: string, other: string, i: nat, u: UserRow)
    requires me != "" && other != "" && me != other && db.fault.None?
    requires i < |db.conversations|
    requires Joins(db.conversations[i], me, other)
    requires StringOrder.AtMost(db.conversations[i].userId1, db.conversations[i].userId2)
    ensures var after := MarkConversationAsRead(db, me, Some(other));
      var c' := after.conversations[i];
      Listed(c', me) && Partner(u, c', me) ==> View(c', u, after.messages).read
  {
    var c := db.conversations[i];
    StringOrder.OrderPairOfSorted(c.userId1, c.userId2);
    MarkReadSetsOnlyOwnFlag(db, me, other, i);
  }
}

=== FILE: js.dfy ===
/**
 * The few JavaScript value semantics the server's decisions depend on:
 * truthiness of request-body values, `String.prototype.trim`, and
 * `Number.parseInt(s, 10)`.
 */
module Js {
  import opened Wrappers

  /** A value read out of a parsed JSON request body. Numbers are modelled as integers. */
  datatype Json = Undefined | Null | Bool(b: bool) | Num(n: int) | Str(s: string) | Object

  /** JavaScript truthiness: what `!!v` yields. */
  predicate Truthy(v: Json) {
    match v
    case Undefined => false
    case Null => false
    case Bool(b) => b
    case Num(n) => n != 0
    case Str(s) => s != ""
    case Object => true
  }

  /** Truthiness of an optional string (`undefined`, `null` and `""` are falsy). */
  predicate Present(s: Option<string>) {
    s.Some? && s.value != ""
  }

  /** The characters `trim` and `parseInt` skip: ECMAScript WhiteSpace and LineTerminator. */
  predicate IsSpace(c: char) {
    || c == '\t' || c == '\n' || c == '\U{000B}' || c == '\U{000C}' || c == '\r' || c == ' '
    || c == '\U{00A0}' || c == '\U{1680}' || ('\U{2000}' <= c <= '\U{200A}')
    || c == '\U{2028}' || c == '\U{2029}' || c == '\U{202F}' || c == '\U{205F}'
    || c == '\U{3000}' || c == '\U{FEFF}'
  }

  /** Leading whitespace removed: a suffix of `s` that starts with a non-space, preceded only by spaces. */
  function TrimStart(s: string): (r: string)
    ensures |r| <= |s| && r == s[|s| - |r|..]
    ensures r == [] || !IsSpace(r[0])
    ensures forall i :: 0 <= i < |s| - |r| ==> IsSpace(s[i])
  {
    if |s| > 0 && IsSpace(s[0]) then TrimStart(s[1..]) else s
  }

  /** Trailing whitespace removed: a prefix of `s` that ends with a non-space, followed only by spaces. */
  function TrimEnd(s: string): (r: string)
    ensures |r| <= |s| && r == s[..|r|]
    ensures r == [] || !IsSpace(r[|r| - 1])
    ensures forall i :: |r| <= i < |s| ==> IsSpace(s[i])
  {
    if |s| > 0 && IsSpace(s[|s| - 1]) then TrimEnd(s[..|s| - 1]) else s
  }

  /** `s.trim()`. */
  function Trim(s: string): string {
    TrimEnd(TrimStart(s))
  }

  /** Every character of `s` is whitespace. */
  predicate Blank(s: string) {
    forall i :: 0 <= i < |s| ==> IsSpace(s[i])
  }

  /** `s.trim()` is empty exactly when `s` consists of whitespace only. */
  lemma TrimEmptyIffBlank(s: string)
    ensures Trim(s) == [] <==> Blank(s)
  {
    var t := TrimStart(s);
    if t != [] {
      assert t[0] == s[|s| - |t|];
      assert IsSpace(t[0]) || TrimEnd(t) != [];
    }
  }

  /** No whitespace at either end. */
  predicate Trimmed(t: string) {
    t == [] || (!IsSpace(t[0]) && !IsSpace(t[|t| - 1]))
  }

  /** `trim` leaves no whitespace at either end. */
  lemma TrimTrims(s: string)
    ensures Trimmed(Trim(s))
  {
    var t := TrimStart(s);
    var r := TrimEnd(t);
    assert Trim(s) == r;
    if r != [] {
      assert r == t[..|r|] && t != [];
      assert r[0] == t[0];
      assert !IsSpace(r[0]) && !IsSpace(r[|r| - 1]);
    }
  }

  /** Trimming a trimmed string changes nothing. */
  lemma TrimIdempotent(s: string)
    ensures Trim(Trim(s)) == Trim(s)
  {
    var r := Trim(s);
    var t := TrimStart(s);
    assert r == t[..|r|];
    if r != [] {
      assert r[0] == t[0];
      assert TrimStart(r) == r;
      assert TrimEnd(r) == r;
    }
  }

  predicate IsDigit(c: char) {
    '0' <= c <= '9'
  }

  function DigitValue(c: char): nat
    requires IsDigit(c)
  {
    (c as int) - ('0' as int)
  }

  function DigitChar(d: nat): (c: char)
    requires d < 10
    ensures IsDigit(c) && DigitValue(c) == d
  {
    (('0' as int) + d) as char
  }

  /** The longest prefix of `s` made of decimal digits. */
  function DigitPrefix(s: string): (r: string)
    ensures |r| <= |s| && r == s[..|r|]
    ensures forall i :: 0 <= i < |r| ==> IsDigit(r[i])
    ensures |r| < |s| ==> !IsDigit(s[|r|])
  {
    if |s| > 0 && IsDigit(s[0]) then [s[0]] + DigitPrefix(s[1..]) else []
  }

  /** The value of a string of decimal digits, most significant first. */
  function DigitsValue(ds: string): nat
    requires forall i :: 0 <= i < |ds| ==> IsDigit(ds[i])
  {
    if ds == [] then 0 else DigitsValue(ds[..|ds| - 1]) * 10 + DigitValue(ds[|ds| - 1])
  }

  /**
   * `Number.parseInt(s, 10)`: skip leading whitespace, read an optional sign and
   * the longest run of decimal digits; `None` stands for `NaN` (no digit at all).
   */
  function ParseInt(s: string): (r: Option<int>)
    ensures r.None? <==> DigitPrefix(Unsigned(TrimStart(s))) == []
    ensures r.Some? ==> (if r.value < 0 then 0 - r.value else r.value) == DigitsValue(DigitPrefix(Unsigned(TrimStart(s))))
    ensures r.Some? && r.value < 0 ==> |TrimStart(s)| > 0 && TrimStart(s)[0] == '-'
    ensures r.Some? && r.value > 0 ==> !(|TrimStart(s)| > 0 && TrimStart(s)[0] == '-')
  {
    var t := TrimStart(s);
    var body := Unsigned(t);
    var ds := DigitPrefix(body);
    if ds == [] then None
    else if |t| > 0 && t[0] == '-' then Some(0 - DigitsValue(ds))
    else Some(DigitsValue(ds))
  }

  /** The text after an optional leading sign. */
  function Unsigned(t: string): (r: string)
    ensures r == t || (|t| > 0 && (t[0] == '-' || t[0] == '+') && r == t[1..])
  {
    if |t| > 0 && (t[0] == '-' || t[0] == '+') then t[1..] else t
  }

  /** The decimal spelling of a natural number, as `String(n)` writes it. */
  function Decimal(n: nat): (r: string)
    ensures |r| > 0
    ensures forall i :: 0 <= i < |r| ==> IsDigit(r[i])
  {
    if n < 10 then [DigitChar(n)] else Decimal(n / 10) + [DigitChar(n % 10)]
  }

  /** Reading back a decimal spelling gives the number. */
  lemma {:induction false} DecimalValue(n: nat)
    ensures DigitsValue(Decimal(n)) == n
  {
    if n >= 10 {
      var r := Decimal(n);
      assert r[..|r| - 1] == Decimal(n / 10);
      DecimalValue(n / 10);
    }
  }

  /** A run of digits is its own digit prefix. */
  lemma {:induction false} DigitPrefixOfDigits(s: string)
    requires forall i :: 0 <= i < |s| ==> IsDigit(s[i])
    ensures DigitPrefix(s) == s
  {
    if |s| > 0 {
      DigitPrefixOfDigits(s[1..]);
    }
  }

  /** `parseInt(String(n), 10) == n`: a timestamp written out in decimal reads back unchanged. */
  lemma ParseIntDecimal(n: nat)
    ensures ParseInt(Decimal(n)) == Some(n)
  {
    var d := Decimal(n);
    assert !IsSpace(d[0]);
    assert TrimStart(d) == d;
    assert Unsigned(d) == d;
    DigitPrefixOfDigits(d);
    DecimalValue(n);
  }

  /** A leading minus sign in front of digits gives the negated value, which is never positive. */
  lemma ParseIntNegative(n: nat)
    ensures ParseInt("-" + Decimal(n)) == Some(0 - n)
  {
    var d := Decimal(n);
    var t := "-" + d;
    assert t[0] == '-' && !IsDigit('-');
    assert TrimStart(t) == t;
    assert Unsigned(t) == d;
    DigitPrefixOfDigits(d);
    assert DigitPrefix(Unsigned(TrimStart(t))) == d;
    DecimalValue(n);
    assert DigitsValue(d) == n;
  }
}

=== FILE: jwt.dfy ===
/**
 * The bearer-token codec (`jsonwebtoken`'s `sign` and `verify`) as an abstract
 * data structure. No cryptography: a token records the claims it carries, the
 * secret it was signed with and the instant it expires, and verification
 * checks the secret and the clock. Text that no `sign` produced is `Garbage`
 * and never verifies.
 */
module Jwt {
  import opened Wrappers

  /** Claims of an access token (`{ userId }`) or of a refresh token (`{ userId, tokenVersion }`). */
  datatype Claims =
    | AccessClaims(userId: string)
    | RefreshClaims(userId: string, tokenVersion: Option<int>)
  {
    /** `payload.tokenVersion`: `undefined` on access claims, the stored (nullable) counter on refresh claims. */
    function ClaimedVersion(): Option<int> {
      match this
      case AccessClaims(_) => None
      case RefreshClaims(_, v) => v
    }
  }

  /** A signed token: its claims, the signing secret and its `exp` instant in seconds. */
  datatype Token = Token(claims: Claims, secret: string, expiresAt: int)

  /** A token as it travels in a query string or a header. */
  datatype TokenText = Signed(token: Token) | Garbage(text: string) {
    /** Truthiness of the text: a signed token is never empty. */
    predicate NonEmpty() {
      Signed? || text != ""
    }
  }

  /** The two tokens handed to a client after login (`AuthTokens`). */
  datatype TokenPair = TokenPair(refreshToken: TokenText, accessToken: TokenText)

  /** `expiresIn: '15min'`, in seconds. */
  const AccessLifetime: nat := 15 * 60
  /** `expiresIn: '14d'`, in seconds. */
  const RefreshLifetime: nat := 14 * 24 * 60 * 60

  /** A secret `jsonwebtoken` accepts: present and non-empty. */
  predicate UsableSecret(secret: Option<string>) {
    secret.Some? && secret.value != ""
  }

  /** `sign(claims, secret, { expiresIn })` at time `now`; `None` when the secret is unusable (`sign` throws). */
  function Sign(claims: Claims, secret: Option<string>, lifetime: nat, now: int): Option<TokenText> {
    if UsableSecret(secret) then Some(Signed(Token(claims, secret.value, now + lifetime))) else None
  }

  /**
   * `verify(text, secret)` at time `now`: the claims when the text is a token
   * signed with this very secret that has not reached its expiry (`exp` is
   * exclusive); `None` (the call throws) otherwise.
   */
  function Verify(text: TokenText, secret: Option<string>, now: int): Option<Claims> {
    if UsableSecret(secret) && text.Signed? && text.token.secret == secret.value && now < text.token.expiresAt
    then Some(text.token.claims)
    else None
  }

  /** A token verifies under its own secret until it expires, and never afterwards or under another secret. */
  lemma SignThenVerify(claims: Claims, secret: string, other: Option<string>, lifetime: nat, now: int, later: int)
    requires secret != ""
    ensures Sign(claims, Some(secret), lifetime, now).Some?
    ensures var t := Sign(claims, Some(secret), lifetime, now).value;
      && (now <= later < now + lifetime ==> Verify(t, Some(secret), later) == Some(claims))
      && (later >= now + lifetime ==> Verify(t, Some(secret), later) == None)
      && (other != Some(secret) ==> Verify(t, other, later) == None)
  {
  }

  /** Signing fails exactly when the secret is missing or empty. */
  lemma SignNeedsSecret(claims: Claims, secret: Option<string>, lifetime: nat, now: int)
    ensures Sign(claims, secret, lifetime, now).None? <==> !UsableSecret(secret)
  {
  }
}

=== FILE: message_controller.dfy ===
/**
 * The message routes' handlers (`message.controller.ts`): authentication and
 * request checks in front of the message service.
 */
module MessageController {
  import opened Wrappers
  import opened Schema
  import opened Wire
  import Js
  import MessageService

  /** What a handler leaves: the database afterwards, a realtime push (if any) and the reply. */
  datatype Handled<+T> = Handled(db: Db, push: Option<Delivery>, reply: Reply<T>)

  /**
   * `GET /messages/:userId/:cursor?`: 401 without an authenticated user, 400
   * without the other user's id, otherwise the service's page with the
   * default page size, or its error passed on.
   */
  function GetMessages(db: Db, userId: Option<string>, otherUserId: string, cursor: Option<string>)
    : (r: Reply<MessageService.Page>)
    ensures !Js.Present(userId) ==> r == Forward(HttpError(401, "Not authenticated"))
    ensures Js.Present(userId) && otherUserId == "" ==>
      r == Forward(HttpError(400, "Other user ID (userId) parameter is required"))
    ensures r.Respond? <==>
      Js.Present(userId) && otherUserId != "" &&
      MessageService.GetMessagesForUser(db, userId.value, otherUserId, cursor, MessageService.DefaultLimit).Success?
    ensures r.Respond? ==>
      (r.status == 200 &&
       Success(r.body) == MessageService.GetMessagesForUser(db, userId.value, otherUserId, cursor, MessageService.DefaultLimit))
    ensures (Js.Present(userId) && otherUserId != "" &&
             MessageService.GetMessagesForUser(db, userId.value, otherUserId, cursor, MessageService.DefaultLimit).Failure?) ==>
      r == Forward(MessageService.GetMessagesForUser(db, userId.value, otherUserId, cursor, MessageService.DefaultLimit).error)
    ensures !r.Unanswered?
  {
    if !Js.Present(userId) then Forward(HttpError(401, "Not authenticated"))
    else if otherUserId == "" then Forward(HttpError(400, "Other user ID (userId) parameter is required"))
    else
      match MessageService.GetMessagesForUser(db, userId.value, otherUserId, cursor, MessageService.DefaultLimit)
      case Success(page) => Respond(200, page)
      case Failure(e) => Forward(e)
  }

  /**
   * Every message a 200 returns was exchanged between the caller and the
   * other user and lies before the cursor, and both participants get the same
   * answer.
   */
  lemma HistoryReplySelected(db: Db, me: string, other: string, cursor: Option<string>, m: MessageRow)
    requires me != "" && other != ""
    requires GetMessages(db, Some(me), other, cursor).Respond?
    requires m in GetMessages(db, Some(me), other, cursor).body.messages
    ensures m in db.messages && Exchanged(m, me, other)
    ensures MessageService.ParseCursor(cursor).value.Some? ==> m.createdAt < MessageService.ParseCursor(cursor).value.value
    ensures GetMessages(db, Some(other), me, cursor) == GetMessages(db, Some(me), other, cursor)
  {
    MessageService.PageSelected(db, me, other, cursor, MessageService.DefaultLimit, m);
    MessageService.HistorySymmetric(db, me, other, cursor, MessageService.DefaultLimit);
  }

  /**
   * `POST /messages`: 401 without an authenticated user; 400 when the
   * recipient or the text is missing, when the text is not a string or is
   * blank, or when the recipient is the sender; otherwise the service stores
   * and pushes the message and the reply is 201 with it.
   */
  function CreateMessage(db: Db, reg: Registry, broken: set<SocketId>, userId: Option<string>,
                         recipientId: Js.Json, text: Js.Json, newId: string, now: int)
    : (r: Handled<MessageRow>)
    ensures !Js.Present(userId) ==> r == Handled(db, None, Forward(HttpError(401, "Not authenticated")))
    ensures Js.Present(userId) && (!Js.Truthy(recipientId) || !Js.Truthy(text)) ==>
      r == Handled(db, None, Forward(HttpError(400, "recipientId, and text are required")))
    ensures Js.Present(userId) && Js.Truthy(recipientId) && Js.Truthy(text) && (!text.Str? || Js.Trim(text.s) == "") ==>
      r == Handled(db, None, Forward(HttpError(400, "Message text cannot be empty")))
    ensures r.reply.Respond? ==>
      var created := MessageService.CreateNewMessage(db, reg, broken, userId.value, recipientId, text, newId, now);
      && r.reply.status == 201
      && created.Success?
      && r == Handled(created.value.db, created.value.push, Respond(201, created.value.message))
    ensures r.reply.Forward? ==> r.db == db && r.push == None
    ensures Js.Present(userId) && !MessageService.InvalidBody(recipientId, text) && recipientId == Js.Str(userId.value) ==>
      r == Handled(db, None, Forward(HttpError(400, "Recipient cannot be the same as the sender")))
    ensures Js.Present(userId) && !MessageService.InvalidBody(recipientId, text) && recipientId != Js.Str(userId.value) ==>
      var created := MessageService.CreateNewMessage(db, reg, broken, userId.value, recipientId, text, newId, now);
      && (created.Success? ==> r == Handled(created.value.db, created.value.push, Respond(201, created.value.message)))
      && (created.Failure? ==> r == Handled(db, None, Forward(created.error)))
    ensures !r.reply.Unanswered?
  {
    if !Js.Present(userId) then Handled(db, None, Forward(HttpError(401, "Not authenticated")))
    else if !Js.Truthy(recipientId) || !Js.Truthy(text) then
      Handled(db, None, Forward(HttpError(400, "recipientId, and text are required")))
    else if !text.Str? || Js.Trim(text.s) == "" then
      Handled(db, None, Forward(HttpError(400, "Message text cannot be empty")))
    else if recipientId == Js.Str(userId.value) then
      Handled(db, None, Forward(HttpError(400, "Recipient cannot be the same as the sender")))
    else
      match MessageService.CreateNewMessage(db, reg, broken, userId.value, recipientId, text, newId, now)
      case Success(p) => Handled(p.db, p.push, Respond(201, p.message))
      case Failure(e) => Handled(db, None, Forward(e))
  }

  /**
   * A reply that is neither of the service's two validation errors, and whose
   * failure, if any, is a 400, a 401 or a 500.
   */
  predicate Shadowed(r: Reply<MessageRow>) {
    && r != Forward(HttpError(400, "Missing or invalid parameters for message creation."))
    && r != Forward(HttpError(400, "Recipient cannot be the same as the sender."))
    && (r.Forward? ==> r.failure.HttpError? && r.failure.status in {400, 401, 500})
  }

  /** A failure of another length than the service's two validation texts, with one of the three statuses. */
  lemma OtherTextShadowed(r: Reply<MessageRow>)
    requires r.Forward? ==> r.failure.HttpError? && r.failure.status in {400, 401, 500}
    requires r.Forward? ==> |r.failure.message| != 51 && |r.failure.message| != 43
    ensures Shadowed(r)
  {
  }

  /** The replies the handler gives before it calls the service. */
  lemma HandlerRepliesShadowed(db: Db, reg: Registry, broken: set<SocketId>, userId: Option<string>,
                               recipientId: Js.Json, text: Js.Json, newId: string, now: int)
    requires !Js.Present(userId) || MessageService.InvalidBody(recipientId, text) || recipientId == Js.Str(userId.value)
    ensures Shadowed(CreateMessage(db, reg, broken, userId, recipientId, text, newId, now).reply)
  {
    var r := CreateMessage(db, reg, broken, userId, recipientId, text, newId, now).reply;
    if !Js.Present(userId) {
      assert r == Forward(HttpError(401, "Not authenticated"));
    } else if !Js.Truthy(recipientId) || !Js.Truthy(text) {
      assert r == Forward(HttpError(400, "recipientId, and text are required"));
    } else if !text.Str? || Js.Trim(text.s) == "" {
      assert r == Forward(HttpError(400, "Message text cannot be empty"));
    } else {
      assert r == Forward(HttpError(400, "Recipient cannot be the same as the sender"));
    }
    OtherTextShadowed(r);
  }

  /** The replies that come from the service: its only failure left is the database error. */
  lemma ServiceRepliesShadowed(db: Db, reg: Registry, broken: set<SocketId>, userId: Option<string>,
                               recipientId: Js.Json, text: Js.Json, newId: string, now: int)
    requires Js.Present(userId) && !MessageService.InvalidBody(recipientId, text) && recipientId != Js.Str(userId.value)
    ensures Shadowed(CreateMessage(db, reg, broken, userId, recipientId, text, newId, now).reply)
  {
    var r := CreateMessage(db, reg, broken, userId, recipientId, text, newId, now).reply;
    assert r.Forward? ==> r.failure == HttpError(500, "Database error while creating message.");
    OtherTextShadowed(r);
  }

  /**
   * The handler's own checks run first, so the service's validation errors
   * never reach a client of this route: what remains is the database error.
   */
  lemma ServiceChecksShadowed(db: Db, reg: Registry, broken: set<SocketId>, userId: Option<string>,
                              recipientId: Js.Json, text: Js.Json, newId: string, now: int)
    ensures Shadowed(CreateMessage(db, reg, broken, userId, recipientId, text, newId, now).reply)
  {
    if Js.Present(userId) && !MessageService.InvalidBody(recipientId, text) && recipientId != Js.Str(userId.value) {
      ServiceRepliesShadowed(db, reg, broken, userId, recipientId, text, newId, now);
    } else {
      HandlerRepliesShadowed(db, reg, broken, userId, recipientId, text, newId, now);
    }
  }
}

=== FILE: message_service.dfy ===
/**
 * The message service (`message.service.ts`): cursor pagination of the
 * history between two users, and creating a message with its realtime push.
 */
module MessageService {
  import opened Wrappers
  import opened Schema
  import opened Wire
  import Js
  import Recency
  import Realtime
  import ConversationService

  /** The page size when the caller gives none. */
  const DefaultLimit: nat := 20

  /** One page of history and whether older messages remain. */
  datatype Page = Page(messages: seq<MessageRow>, hasMore: bool)

  /**
   * The `cursor` parameter: no cursor when absent or empty; otherwise
   * `parseInt(cursor, 10)`, which must be a positive timestamp in
   * milliseconds, or the request is a 400.
   */
  function ParseCursor(cursor: Option<string>): (r: Result<Option<int>, Failure>)
    ensures !Js.Present(cursor) ==> r == Success(None)
    ensures r.Failure? <==>
      Js.Present(cursor) && (Js.ParseInt(cursor.value).None? || Js.ParseInt(cursor.value).value <= 0)
    ensures r.Failure? ==> r.error == HttpError(400, "Invalid cursor: must be a positive timestamp.")
    ensures r.Success? && r.value.Some? ==> r.value.value > 0 && Js.ParseInt(cursor.value) == r.value
  {
    if !Js.Present(cursor) then Success(None)
    else
      match Js.ParseInt(cursor.value)
      case None => Failure(HttpError(400, "Invalid cursor: must be a positive timestamp."))
      case Some(n) =>
        if n <= 0 then Failure(HttpError(400, "Invalid cursor: must be a positive timestamp.")) else Success(Some(n))
  }

  /** A positive timestamp written in decimal is read back as that cursor. */
  lemma CursorRoundTrip(n: nat)
    requires n > 0
    ensures ParseCursor(Some(Js.Decimal(n))) == Success(Some(n))
  {
    Js.ParseIntDecimal(n);
  }

  /** A cursor of `0` is refused. */
  lemma CursorZeroRefused()
    ensures ParseCursor(Some(Js.Decimal(0))).Failure?
  {
    Js.ParseIntDecimal(0);
  }

  /** A negative cursor is refused. */
  lemma CursorNegativeRefused(n: nat)
    ensures ParseCursor(Some("-" + Js.Decimal(n))).Failure?
  {
    Js.ParseIntNegative(n);
  }

  /** The largest time value a JavaScript `Date` can hold, in milliseconds after the epoch. */
  const MaxDate: int := 8640000000000000

  /**
   * The cursor is past the range of `Date`: `new Date(n)` is then an invalid
   * date, and turning it into the query's timestamp parameter throws inside
   * the query's `try`.
   */
  predicate BeyondDates(before: Option<int>) {
    before.Some? && before.value > MaxDate
  }

  /** The `WHERE` clause: exchanged between the two users, and older than the cursor when there is one. */
  predicate Selected(m: MessageRow, me: string, other: string, before: Option<int>) {
    Exchanged(m, me, other) && (before.Some? ==> m.createdAt < before.value)
  }

  /** The rows the `WHERE` clause keeps, in table order. */
  function Matching(ms: seq<MessageRow>, me: string, other: string, before: Option<int>): (r: seq<MessageRow>)
    ensures forall m :: m in r <==> m in ms && Selected(m, me, other, before)
    ensures forall m :: m in ms && Selected(m, me, other, before) ==> multiset(r)[m] == multiset(ms)[m]
  {
    if ms == [] then []
    else
      assert ms == [ms[0]] + ms[1..];
      (if Selected(ms[0], me, other, before) then [ms[0]] else []) + Matching(ms[1..], me, other, before)
  }

  /** The ordering key, `created_at`. */
  function SentAt(m: MessageRow): Option<int> {
    Some(m.createdAt)
  }

  /**
   * The rows of `all` the query returns: `limit + 1` of them newest first,
   * `hasMore` when all of those came back, and the page without the extra row.
   */
  function PageOf(all: seq<MessageRow>, limit: nat): (r: Page)
    ensures |r.messages| == (if |all| <= limit then |all| else limit)
    ensures r.hasMore <==> |all| > limit
    ensures multiset(r.messages) <= multiset(all)
    ensures !r.hasMore ==> multiset(r.messages) == multiset(all)
    ensures Recency.NewestFirst(r.messages, SentAt)
    ensures forall x, y :: x in r.messages && y in multiset(all) - multiset(r.messages) ==> x.createdAt >= y.createdAt
  {
    var sorted := Recency.SortNewestFirst(all, SentAt);
    assert |sorted| == |multiset(sorted)| == |all|;
    var rows := Recency.Take(sorted, limit + 1);
    var hasMore := |rows| == limit + 1;
    var page := if hasMore then rows[..limit] else rows;
    assert page == sorted[..|page|];
    NewestPrefix(sorted, |page|);
    Page(page, hasMore)
  }

  /** A prefix of a newest-first list is newest-first, and holds rows no older than those it leaves out. */
  lemma NewestPrefix(sorted: seq<MessageRow>, n: nat)
    requires Recency.NewestFirst(sorted, SentAt) && n <= |sorted|
    ensures Recency.NewestFirst(sorted[..n], SentAt)
    ensures multiset(sorted[..n]) <= multiset(sorted)
    ensures forall x, y :: x in sorted[..n] && y in multiset(sorted) - multiset(sorted[..n]) ==> x.createdAt >= y.createdAt
  {
    assert Recency.Take(sorted, n) == sorted[..n];
    Recency.TakeKeepsNewest(sorted, n, SentAt);
    Recency.TakeSubMultiset(sorted, n);
    Recency.PrefixBeatsRest(sorted, n, SentAt);
    forall x, y | x in sorted[..n] && y in multiset(sorted) - multiset(sorted[..n])
      ensures x.createdAt >= y.createdAt
    {
      assert Recency.NoOlder(SentAt(x), SentAt(y));
    }
  }

  /**
   * `getMessagesForUser(me, other, cursor, limit)`: the newest `limit`
   * messages between the two users older than the cursor, and whether more
   * remain. A bad cursor is a 400 before the database is touched; a database
   * failure, or a cursor past the range of `Date`, is a 500.
   */
  function GetMessagesForUser(db: Db, me: string, other: string, cursor: Option<string>, limit: nat)
    : (r: Result<Page, Failure>)
    ensures ParseCursor(cursor).Failure? ==> r == Failure(ParseCursor(cursor).error)
    ensures ParseCursor(cursor).Success? && (db.fault.Some? || BeyondDates(ParseCursor(cursor).value)) ==>
      r == Failure(HttpError(500, "Database error while fetching messages."))
    ensures r.Success? <==> ParseCursor(cursor).Success? && db.fault.None? && !BeyondDates(ParseCursor(cursor).value)
    ensures r.Success? ==>
      var all := Matching(db.messages, me, other, ParseCursor(cursor).value);
      var page := r.value.messages;
      && |page| == (if |all| <= limit then |all| else limit)
      && (r.value.hasMore <==> |all| > limit)
      && multiset(page) <= multiset(all)
      && (!r.value.hasMore ==> multiset(page) == multiset(all))
      && Recency.NewestFirst(page, SentAt)
      && (forall x, y :: x in page && y in multiset(all) - multiset(page) ==> x.createdAt >= y.createdAt)
  {
    match ParseCursor(cursor)
    case Failure(e) => Failure(e)
    case Success(before) =>
      if db.fault.Some? || BeyondDates(before) then Failure(HttpError(500, "Database error while fetching messages."))
      else Success(PageOf(Matching(db.messages, me, other, before), limit))
  }

  /** A cursor within the range of `Date` pages before it; one past that range is a 500 whatever the database holds. */
  lemma CursorDateRange(db: Db, me: string, other: string, n: nat, limit: nat)
    requires n > 0
    ensures n <= MaxDate ==>
      (GetMessagesForUser(db, me, other, Some(Js.Decimal(n)), limit).Success? <==> db.fault.None?)
    ensures n > MaxDate ==>
      GetMessagesForUser(db, me, other, Some(Js.Decimal(n)), limit)
        == Failure(HttpError(500, "Database error while fetching messages."))
  {
    CursorRoundTrip(n);
  }

  /** Every message of a page belongs to the conversation and lies before the cursor. */
  lemma PageSelected(db: Db, me: string, other: string, cursor: Option<string>, limit: nat, m: MessageRow)
    requires GetMessagesForUser(db, me, other, cursor, limit).Success?
    requires m in GetMessagesForUser(db, me, other, cursor, limit).value.messages
    ensures m in db.messages && Selected(m, me, other, ParseCursor(cursor).value)
  {
    var page := GetMessagesForUser(db, me, other, cursor, limit).value.messages;
    assert m in multiset(page);
  }

  /** The history is the same whichever participant asks. */
  lemma HistorySymmetric(db: Db, me: string, other: string, cursor: Option<string>, limit: nat)
    ensures GetMessagesForUser(db, me, other, cursor, limit) == GetMessagesForUser(db, other, me, cursor, limit)
  {
    MatchingSymmetric(db.messages, me, other, if ParseCursor(cursor).Success? then ParseCursor(cursor).value else None);
  }

  lemma {:induction false} MatchingSymmetric(ms: seq<MessageRow>, a: string, b: string, before: Option<int>)
    ensures Matching(ms, a, b, before) == Matching(ms, b, a, before)
  {
    if ms != [] {
      MatchingSymmetric(ms[1..], a, b, before);
    }
  }

  /**
   * Paging with the timestamp of a page's oldest message as the next cursor
   * reaches every older message except those sharing that exact timestamp,
   * which `created_at < cursor` skips.
   */
  lemma NextPageReachesOlder(db: Db, me: string, other: string, limit: nat, m: MessageRow)
    requires GetMessagesForUser(db, me, other, None, limit).Success?
    requires var page := GetMessagesForUser(db, me, other, None, limit).value.messages;
      page != [] && m in db.messages && Exchanged(m, me, other) && m !in page
    ensures var page := GetMessagesForUser(db, me, other, None, limit).value.messages;
      var last := page[|page| - 1].createdAt;
      m.createdAt <= last && (m.createdAt != last ==> Selected(m, me, other, Some(last)))
  {
    FirstPageIsPageOf(db, me, other, limit);
    var all := Matching(db.messages, me, other, None);
    DroppedBeforeLast(all, PageOf(all, limit).messages, m, me, other);
  }

  /**
   * A row of the pair that a page leaves out is no newer than the page's last
   * row, and a strictly older one passes the next cursor.
   */
  lemma DroppedBeforeLast(all: seq<MessageRow>, page: seq<MessageRow>, m: MessageRow, me: string, other: string)
    requires forall x, y :: x in page && y in multiset(all) - multiset(page) ==> x.createdAt >= y.createdAt
    requires m in all && Exchanged(m, me, other) && page != [] && m !in page
    ensures var last := page[|page| - 1].createdAt;
      m.createdAt <= last && (m.createdAt != last ==> Selected(m, me, other, Some(last)))
  {
    assert multiset(page)[m] == 0;
    assert m in multiset(all) - multiset(page);
    assert page[|page| - 1] in page;
  }

  // ---------------------------------------------------------------------------
  // Creating a message
  // ---------------------------------------------------------------------------

  /** A stored message, the database afterwards, and the push to the recipient's socket (if any). */
  datatype Posted = Posted(db: Db, message: MessageRow, push: Option<Delivery>)

  /** The request body is rejected before anything is stored: `!recipientId || !text || typeof text !== 'string' || !text.trim()`. */
  predicate InvalidBody(recipientId: Js.Json, text: Js.Json) {
    !Js.Truthy(recipientId) || !Js.Truthy(text) || !text.Str? || Js.Trim(text.s) == ""
  }

  /** The row `createNewMessage` inserts and the frame it pushes, for a body that passed validation. */
  function Store(db: Db, reg: Registry, broken: set<SocketId>, sender: string, recipient: string, text: string,
                 newId: string, now: int): (r: Posted)
    ensures r.message == MessageRow(newId, None, sender, recipient, r.message.text, now)
    ensures r.message.text == Js.Trim(text) && Js.Trimmed(r.message.text)
    ensures r.db == db.(messages := db.messages + [r.message])
    ensures r.push.Some? <==> recipient in reg && reg[recipient].socket !in broken
    ensures r.push.Some? ==> r.push.value == Delivery(reg[recipient].socket, NewMessage(r.message))
  {
    Js.TrimTrims(text);
    var m := MessageRow(newId, None, sender, recipient, Js.Trim(text), now);
    Posted(db.(messages := db.messages + [m]), m, Realtime.WsSend(reg, broken, recipient, NewMessage(m)))
  }

  /**
   * `createNewMessage(sender, { recipientId, text })`: validates, stores the
   * trimmed text under a fresh id and the current time, and pushes a
   * `new-message` frame to the recipient's socket. Only a string can be
   * stored as a recipient id: any other value fails in the database like a
   * database fault, with a 500. The conversation row is not touched.
   */
  function CreateNewMessage(db: Db, reg: Registry, broken: set<SocketId>, sender: string, recipientId: Js.Json,
                            text: Js.Json, newId: string, now: int): (r: Result<Posted, Failure>)
    ensures InvalidBody(recipientId, text) ==>
      r == Failure(HttpError(400, "Missing or invalid parameters for message creation."))
    ensures !InvalidBody(recipientId, text) && recipientId == Js.Str(sender) ==>
      r == Failure(HttpError(400, "Recipient cannot be the same as the sender."))
    ensures (!InvalidBody(recipientId, text) && recipientId != Js.Str(sender)
             && (db.fault.Some? || !recipientId.Str?)) ==>
      r == Failure(HttpError(500, "Database error while creating message."))
    ensures r.Success? <==>
      !InvalidBody(recipientId, text) && recipientId.Str? && recipientId.s != sender && db.fault.None?
    ensures r.Success? ==>
      && r.value.message.text != "" && Js.Trimmed(r.value.message.text)
      && r.value.message.senderId == sender && r.value.message.recipientId == recipientId.s
      && r.value.db.messages == db.messages + [r.value.message]
      && r.value.db.conversations == db.conversations && r.value.db.users == db.users
    ensures r.Success? ==> r.value == Store(db, reg, broken, sender, recipientId.s, text.s, newId, now)
  {
    if InvalidBody(recipientId, text) then
      Failure(HttpError(400, "Missing or invalid parameters for message creation."))
    else if recipientId == Js.Str(sender) then
      Failure(HttpError(400, "Recipient cannot be the same as the sender."))
    else if db.fault.Some? || !recipientId.Str? then
      Failure(HttpError(500, "Database error while creating message."))
    else
      Success(Store(db, reg, broken, sender, recipientId.s, text.s, newId, now))
  }

  /** A body of whitespace only is refused, whatever the whitespace. */
  lemma BlankTextRefused(db: Db, reg: Registry, broken: set<SocketId>, sender: string, recipientId: Js.Json,
                         s: string, newId: string, now: int)
    requires Js.Blank(s)
    ensures CreateNewMessage(db, reg, broken, sender, recipientId, Js.Str(s), newId, now)
         == Failure(HttpError(400, "Missing or invalid parameters for message creation."))
  {
    Js.TrimEmptyIffBlank(s);
  }

  /** A message stored after every earlier one becomes the latest of its conversation, from both sides. */
  lemma StoredIsLatest(db: Db, reg: Registry, broken: set<SocketId>, sender: string, recipient: string,
                       text: string, newId: string, now: int)
    requires forall m :: m in db.messages ==> m.createdAt < now
    ensures var p := Store(db, reg, broken, sender, recipient, text, newId, now);
      && ConversationService.Latest(p.db.messages, sender, recipient) == Some(p.message)
      && ConversationService.Latest(p.db.messages, recipient, sender) == Some(p.message)
  {
    var p := Store(db, reg, broken, sender, recipient, text, newId, now);
    LatestOfAppended(db.messages, p.message, sender, recipient);
    LatestOfAppended(db.messages, p.message, recipient, sender);
  }

  /** A message of the pair appended after every earlier one is the pair's latest. */
  lemma LatestOfAppended(ms: seq<MessageRow>, x: MessageRow, a: string, b: string)
    requires Exchanged(x, a, b)
    requires forall m :: m in ms ==> m.createdAt < x.createdAt
    ensures ConversationService.Latest(ms + [x], a, b) == Some(x)
  {
    var r := ConversationService.Latest(ms + [x], a, b);
    assert x in ms + [x];
    assert forall m :: m in ms + [x] && m.createdAt >= x.createdAt ==> m == x;
  }

  /** The head of a newest-first list is no older than anything in it. */
  lemma NewestFirstHead(msgs: seq<MessageRow>, x: MessageRow)
    requires Recency.NewestFirst(msgs, SentAt) && x in msgs
    ensures msgs[0].createdAt >= x.createdAt
  {
    var j :| 0 <= j < |msgs| && msgs[j] == x;
    if j > 0 {
      assert Recency.NoOlder(SentAt(msgs[0]), SentAt(msgs[j]));
    }
  }

  /** The head of a page is no older than any row of the query, kept or dropped. */
  lemma PageHeadNoOlder(all: seq<MessageRow>, limit: nat, x: MessageRow)
    requires PageOf(all, limit).messages != [] && x in all
    ensures PageOf(all, limit).messages[0].createdAt >= x.createdAt
  {
    var msgs := PageOf(all, limit).messages;
    if x in msgs {
      NewestFirstHead(msgs, x);
    } else {
      assert msgs[0] in msgs;
      assert x in multiset(all) - multiset(msgs);
    }
  }

  /** A row strictly newer than every other row of the query heads any non-empty page. */
  lemma PageHeadIsNewest(all: seq<MessageRow>, limit: nat, x: MessageRow)
    requires limit > 0 && x in all
    requires forall m :: m in all && m != x ==> m.createdAt < x.createdAt
    ensures PageOf(all, limit).messages != [] && PageOf(all, limit).messages[0] == x
  {
    var msgs := PageOf(all, limit).messages;
    assert |msgs| > 0;
    PageHeadNoOlder(all, limit, x);
    assert msgs[0] in multiset(msgs);
    assert msgs[0] in all;
  }

  /** A message stored after every earlier one heads the recipient's first page of history. */
  lemma StoredHeadsHistory(db: Db, reg: Registry, broken: set<SocketId>, sender: string, recipient: string,
                           text: string, newId: string, now: int)
    requires db.fault.None?
    requires forall m :: m in db.messages ==> m.createdAt < now
    ensures var p := Store(db, reg, broken, sender, recipient, text, newId, now);
      var history := GetMessagesForUser(p.db, recipient, sender, None, DefaultLimit);
      history.Success? && history.value.messages != [] && history.value.messages[0] == p.message
  {
    var p := Store(db, reg, broken, sender, recipient, text, newId, now);
    var all := Matching(p.db.messages, recipient, sender, None);
    AppendedIsNewest(db.messages, p.message, recipient, sender);
    PageHeadIsNewest(all, DefaultLimit, p.message);
    FirstPageIsPageOf(p.db, recipient, sender, DefaultLimit);
  }

  /** A message of the pair appended after every earlier one is the strictly newest row the query keeps. */
  lemma AppendedIsNewest(ms: seq<MessageRow>, x: MessageRow, me: string, other: string)
    requires Exchanged(x, me, other)
    requires forall m :: m in ms ==> m.createdAt < x.createdAt
    ensures var all := Matching(ms + [x], me, other, None);
      x in all && forall m :: m in all && m != x ==> m.createdAt < x.createdAt
  {
    assert forall m :: m in ms + [x] ==> m in ms || m == x;
  }

  /** Without a cursor and with a working database, the query is the page of every message of the pair. */
  lemma FirstPageIsPageOf(db: Db, me: string, other: string, limit: nat)
    requires db.fault.None?
    ensures GetMessagesForUser(db, me, other, None, limit) == Success(PageOf(Matching(db.messages, me, other, None), limit))
  {
    assert ParseCursor(None) == Success(None);
  }

  /**
   * A message posted after every earlier one is the preview of its
   * conversation and heads the recipient's history.
   */
  lemma PostedMessageIsNewest(db: Db, reg: Registry, broken: set<SocketId>, sender: string, recipient: string,
                              text: Js.Json, newId: string, now: int)
    requires CreateNewMessage(db, reg, broken, sender, Js.Str(recipient), text, newId, now).Success?
    requires forall m :: m in db.messages ==> m.createdAt < now
    ensures var p := CreateNewMessage(db, reg, broken, sender, Js.Str(recipient), text, newId, now).value;
      && ConversationService.Latest(p.db.messages, sender, recipient) == Some(p.message)
      && ConversationService.Latest(p.db.messages, recipient, sender) == Some(p.message)
      && var history := GetMessagesForUser(p.db, recipient, sender, None, DefaultLimit);
        history.Success? && history.value.messages != [] && history.value.messages[0] == p.message
  {
    StoredIsLatest(db, reg, broken, sender, recipient, text.s, newId, now);
    StoredHeadsHistory(db, reg, broken, sender, recipient, text.s, newId, now);
  }
}

=== FILE: monolith.dfy ===
/**
 * The older single-file server (`api/src/index.ts`): its own realtime
 * registry and upgrade handler, and the routes that post a message (with the
 * unread rule), read the history and find or insert a conversation. Its
 * handlers have no `try`/`catch` around the database or the socket, so a
 * throw leaves the request without any answer, and its upgrade handler
 * swallows some failures without answering the transport either.
 */
module Monolith {
  import opened Wrappers
  import opened Schema
  import opened Wire
  import Jwt
  import StringOrder
  import Recency
  import Realtime
  import MessageService
  import ConversationService

  // ---------------------------------------------------------------------------
  // Realtime channel
  // ---------------------------------------------------------------------------

  /** `wsSend(key, v)`: the frame for a registered user; unlike the modular server a throwing `send` escapes. */
  function WsSend(reg: Registry, broken: set<SocketId>, to: string, frame: ServerFrame): (r: SendOutcome)
    ensures r.NotConnected? <==> to !in reg
    ensures r.SendFailed? <==> to in reg && reg[to].socket in broken
    ensures r.Delivered? ==> r.delivery == Delivery(reg[to].socket, frame)
  {
    Transmit(reg, broken, to, frame)
  }

  /** Where the two servers' pushes agree: they differ only when the socket's `send` throws. */
  lemma WsSendAgrees(reg: Registry, broken: set<SocketId>, to: string, frame: ServerFrame)
    ensures var (mono, modular) := (WsSend(reg, broken, to, frame), Realtime.WsSend(reg, broken, to, frame));
      && (mono.Delivered? <==> modular.Some?)
      && (mono.Delivered? ==> modular.value == mono.delivery)
      && (mono.SendFailed? ==> modular.None? && to in reg)
  {
  }

  /**
   * The `connection` handler: a falsy user id terminates the socket, but the
   * handler has no `return`, so the entry is registered all the same.
   */
  function Connect(reg: Registry, userId: string, socket: SocketId): (r: Registry)
    ensures userId in r && r[userId] == Entry(socket, None)
    ensures forall u :: u != userId ==> (u in r <==> u in reg)
    ensures forall u :: u != userId && u in r ==> r[u] == reg[u]
  {
    reg[userId := Entry(socket, None)]
  }

  /** The two servers register the same entries, except that this one also registers the empty id. */
  lemma ConnectVariants(reg: Registry, userId: string, socket: SocketId)
    ensures userId != "" ==> Connect(reg, userId, socket) == Realtime.Connect(reg, userId, socket)
    ensures userId == "" ==> "" in Connect(reg, userId, socket) && Realtime.Connect(reg, userId, socket) == reg
  {
  }

  /**
   * A frame on a connection. `JSON.parse` failures are not caught and end the
   * process (`None`). A `message-open` frame records the open chat while the
   * user is registered; nothing is marked read.
   */
  function Receive(reg: Registry, userId: string, msg: Inbound): (r: Option<Registry>)
    ensures r.None? <==> msg.Malformed?
    ensures r.Some? ==> forall u :: u in r.value <==> u in reg
    ensures r.Some? ==> forall u :: u in reg && u != userId ==> r.value[u] == reg[u]
    ensures r.Some? && userId in reg ==>
      && r.value[userId].socket == reg[userId].socket
      && r.value[userId].openChatUserId == (if msg.kind == MessageOpen then msg.peer else reg[userId].openChatUserId)
  {
    match msg
    case Malformed => None
    case Parsed(kind, peer) =>
      if kind == MessageOpen && userId in reg then Some(reg[userId := reg[userId].(openChatUserId := peer)])
      else Some(reg)
  }

  /**
   * On a frame that parses, both servers leave the same registry; the
   * modular one additionally marks the conversation read, and survives a
   * frame that does not parse.
   */
  lemma ReceiveVariants(reg: Registry, db: Db, userId: string, msg: Inbound)
    ensures msg.Parsed? ==> Receive(reg, userId, msg) == Some(Realtime.Receive(reg, db, userId, msg).0)
    ensures msg.Malformed? ==> Receive(reg, userId, msg).None? && Realtime.Receive(reg, db, userId, msg) == (reg, db)
  {
  }

  /** An empty-id connection stays registered until its close handler deletes the entry. */
  lemma EmptyIdConnectionLifecycle(reg: Registry, socket: SocketId, frame: ServerFrame, broken: set<SocketId>)
    requires socket !in broken
    ensures WsSend(Connect(reg, "", socket), broken, "", frame) == Delivered(Delivery(socket, frame))
    ensures Realtime.Close(Connect(reg, "", socket), "") == reg - {""}
  {
  }

  // ---------------------------------------------------------------------------
  // Upgrade
  // ---------------------------------------------------------------------------

  /** What the upgrade handler does: complete it for a user, answer 401, or neither. */
  datatype UpgradeOutcome = Upgraded(userId: string) | Refused | Hung

  /** The parameter is a non-empty string: `!p || typeof p !== 'string'` fails. */
  predicate StringParam(p: Param) {
    p.One? && p.text.NonEmpty()
  }

  /**
   * `user.tokenVersion !== data.tokenVersion` fails: JavaScript strict
   * equality, under which a stored `null` equals a claimed `null`, and the
   * `undefined` of an access token's claims equals nothing stored.
   */
  predicate VersionAgrees(u: UserRow, claims: Jwt.Claims) {
    claims.RefreshClaims? && u.tokenVersion == claims.tokenVersion
  }

  /**
   * The `upgrade` handler. Without a URL `url.parse` throws into an empty
   * catch; without two non-empty string tokens the answer is 401. A
   * verifying access token upgrades for its user. Otherwise a refresh token
   * that does not verify, or a failing lookup, is swallowed by an empty
   * catch; a verifying one upgrades when the first user row with its id
   * carries the claimed token version, and is refused otherwise.
   */
  function Upgrade(req: UpgradeRequest, accessSecret: Option<string>, refreshSecret: Option<string>,
                   db: Db, now: int): (r: UpgradeOutcome)
    ensures req.url.None? ==> r == Hung
    ensures req.url.Some? && !(StringParam(req.url.value.accessToken) && StringParam(req.url.value.refreshToken)) ==>
      r == Refused
    ensures (&& req.url.Some? && StringParam(req.url.value.accessToken) && StringParam(req.url.value.refreshToken)
             && req.url.value.accessToken.Verify(accessSecret, now).Some?) ==>
      r == Upgraded(req.url.value.accessToken.Verify(accessSecret, now).value.userId)
    ensures r.Hung? <==>
      || req.url.None?
      || (&& StringParam(req.url.value.accessToken) && StringParam(req.url.value.refreshToken)
          && req.url.value.accessToken.Verify(accessSecret, now).None?
          && (req.url.value.refreshToken.Verify(refreshSecret, now).None? || db.fault.Some?))
    ensures r.Upgraded? && req.url.value.accessToken.Verify(accessSecret, now).None? ==>
      var claims := req.url.value.refreshToken.Verify(refreshSecret, now).value;
      && r.userId == claims.userId
      && First(UsersWithId(db.users, claims.userId)).Some?
      && VersionAgrees(First(UsersWithId(db.users, claims.userId)).value, claims)
    ensures (&& req.url.Some? && StringParam(req.url.value.accessToken) && StringParam(req.url.value.refreshToken)
             && req.url.value.accessToken.Verify(accessSecret, now).None?
             && req.url.value.refreshToken.Verify(refreshSecret, now).Some?
             && db.fault.None?) ==>
      var claims := req.url.value.refreshToken.Verify(refreshSecret, now).value;
      && ((forall u :: u in db.users ==> u.id != claims.userId) ==> r == Refused)
      && (forall i :: FirstWithId(db.users, claims.userId, i) ==>
            && (VersionAgrees(db.users[i], claims) ==> r == Upgraded(claims.userId))
            && (!VersionAgrees(db.users[i], claims) ==> r == Refused))
  {
    if req.url.None? then Hung
    else
      var q := req.url.value;
      if !StringParam(q.accessToken) || !StringParam(q.refreshToken) then Refused
      else
        match q.accessToken.Verify(accessSecret, now)
        case Some(claims) => Upgraded(claims.userId)
        case None =>
          match q.refreshToken.Verify(refreshSecret, now)
          case None => Hung
          case Some(claims) =>
            if db.fault.Some? then Hung
            else
              UsersWithIdFirst(db.users, claims.userId);
              match First(UsersWithId(db.users, claims.userId))
              case None => Refused
              case Some(u) => if VersionAgrees(u, claims) then Upgraded(claims.userId) else Refused
  }

  /** The whole upgrade: an upgraded socket goes through the `connection` handler; otherwise nothing registers. */
  function HandleUpgrade(reg: Registry, req: UpgradeRequest, socket: SocketId, accessSecret: Option<string>,
                         refreshSecret: Option<string>, db: Db, now: int): (r: Registry)
    ensures !Upgrade(req, accessSecret, refreshSecret, db, now).Upgraded? ==> r == reg
    ensures Upgrade(req, accessSecret, refreshSecret, db, now).Upgraded? ==>
      var id := Upgrade(req, accessSecret, refreshSecret, db, now).userId;
      id in r && r[id] == Entry(socket, None)
  {
    match Upgrade(req, accessSecret, refreshSecret, db, now)
    case Upgraded(userId) => Connect(reg, userId, socket)
    case Refused => reg
    case Hung => reg
  }

  /**
   * With both secrets set and the request well-formed, the two servers
   * accept the same access tokens for the same users; a refresh token that
   * does not verify is refused by the modular server but left hanging here.
   */
  lemma UpgradeVariants(req: UpgradeRequest, accessSecret: string, refreshSecret: string, db: Db, now: int)
    requires accessSecret != "" && refreshSecret != ""
    requires req.url.Some? && StringParam(req.url.value.accessToken) && StringParam(req.url.value.refreshToken)
    ensures var q := req.url.value;
      q.accessToken.Verify(Some(accessSecret), now).Some? ==>
        Upgrade(req, Some(accessSecret), Some(refreshSecret), db, now).userId
          == Realtime.Authenticate(req, Some(accessSecret), Some(refreshSecret), db, now).userId
    ensures var q := req.url.value;
      q.accessToken.Verify(Some(accessSecret), now).None? && q.refreshToken.Verify(Some(refreshSecret), now).None? ==>
        && Upgrade(req, Some(accessSecret), Some(refreshSecret), db, now) == Hung
        && Realtime.Authenticate(req, Some(accessSecret), Some(refreshSecret), db, now) == Reject
  {
  }

  /**
   * A refresh token issued while the stored token version was `null` still
   * opens a socket here, since `null === null`; the modular server's SQL
   * comparison never matches a null column and refuses it.
   */
  lemma NullVersionVariants(user: UserRow, accessSecret: string, refreshSecret: string, db: Db, issued: int, now: int)
    requires accessSecret != "" && refreshSecret != ""
    requires issued + Jwt.AccessLifetime <= now < issued + Jwt.RefreshLifetime
    requires db.fault.None? && user.tokenVersion.None?
    requires db.users != [] && db.users[0] == user
    ensures var tokens := Jwt.TokenPair(
        Jwt.Sign(Jwt.RefreshClaims(user.id, user.tokenVersion), Some(refreshSecret), Jwt.RefreshLifetime, issued).value,
        Jwt.Sign(Jwt.AccessClaims(user.id), Some(accessSecret), Jwt.AccessLifetime, issued).value);
      && Upgrade(Realtime.LoginQuery(tokens), Some(accessSecret), Some(refreshSecret), db, now) == Upgraded(user.id)
      && Realtime.Authenticate(Realtime.LoginQuery(tokens), Some(accessSecret), Some(refreshSecret), db, now) == Reject
  {
    assert UsersWithId(db.users, user.id)[0] == user;
  }

  /**
   * Once the access token has expired, the refresh token of a login upgrades
   * the socket exactly when the first stored row with the user's id still
   * carries the token version the token was issued with.
   */
  lemma RefreshTokenUpgrades(user: UserRow, accessSecret: string, refreshSecret: string, db: Db,
                             issued: int, now: int, i: nat)
    requires accessSecret != "" && refreshSecret != ""
    requires issued + Jwt.AccessLifetime <= now < issued + Jwt.RefreshLifetime
    requires db.fault.None? && FirstWithId(db.users, user.id, i)
    ensures var tokens := Jwt.TokenPair(
        Jwt.Sign(Jwt.RefreshClaims(user.id, user.tokenVersion), Some(refreshSecret), Jwt.RefreshLifetime, issued).value,
        Jwt.Sign(Jwt.AccessClaims(user.id), Some(accessSecret), Jwt.AccessLifetime, issued).value);
      var r := Upgrade(Realtime.LoginQuery(tokens), Some(accessSecret), Some(refreshSecret), db, now);
      && (db.users[i].tokenVersion == user.tokenVersion ==> r == Upgraded(user.id))
      && (db.users[i].tokenVersion != user.tokenVersion ==> r == Refused)
  {
    var tokens := Jwt.TokenPair(
      Jwt.Sign(Jwt.RefreshClaims(user.id, user.tokenVersion), Some(refreshSecret), Jwt.RefreshLifetime, issued).value,
      Jwt.Sign(Jwt.AccessClaims(user.id), Some(accessSecret), Jwt.AccessLifetime, issued).value);
    assert Jwt.Verify(tokens.accessToken, Some(accessSecret), now).None?;
    assert Jwt.Verify(tokens.refreshToken, Some(refreshSecret), now) == Some(Jwt.RefreshClaims(user.id, user.tokenVersion));
  }

  // ---------------------------------------------------------------------------
  // POST /message
  // ---------------------------------------------------------------------------

  /**
   * The body of `POST /message` as it is inserted. A missing `recipientId`
   * is stored as null; the model writes it as the empty id, which is falsy
   * like null.
   */
  datatype PostBody = PostBody(conversationId: Option<string>, recipientId: string, text: string)

  /** The recipient has the sender's chat open: the only case in which the conversation is not marked unread. */
  predicate Focused(reg: Registry, recipient: string, sender: string) {
    recipient in reg && reg[recipient].openChatUserId == Some(sender)
  }

  /** One row under the unread rule: participants in sorted order, not unfriended, the recipient's flag cleared. */
  function UnreadRow(co: ConversationRow, sender: string, recipient: string): ConversationRow {
    var ids := StringOrder.OrderPair(sender, recipient);
    co.(unfriended := false, userId1 := ids.0, userId2 := ids.1,
        read1 := if ids.0 == recipient then false else co.read1,
        read2 := if ids.0 == recipient then co.read2 else false)
  }

  /**
   * `UPDATE conversations SET unfriended = false, userId1, userId2,
   * read1|read2 = false WHERE id = conversationId`: the row named by the
   * client (none for a null id) becomes the sorted pair, active, unread for
   * the recipient.
   */
  function MarkUnread(convs: seq<ConversationRow>, conversationId: Option<string>, sender: string, recipient: string)
    : (r: seq<ConversationRow>)
    ensures |r| == |convs|
    ensures forall i :: 0 <= i < |r| && conversationId != Some(convs[i].id) ==> r[i] == convs[i]
    ensures forall i :: 0 <= i < |r| && conversationId == Some(convs[i].id) ==>
      && r[i].id == convs[i].id && r[i].createdAt == convs[i].createdAt
      && !r[i].unfriended
      && StringOrder.AtMost(r[i].userId1, r[i].userId2)
      && ConversationService.Joins(r[i], sender, recipient)
      && !ConversationService.OwnFlag(r[i], recipient)
  {
    var ids := StringOrder.OrderPair(sender, recipient);
    StringOrder.PairOfMultiset(ids.0, ids.1, sender, recipient);
    seq(|convs|, i requires 0 <= i < |convs| =>
      if conversationId == Some(convs[i].id) then UnreadRow(convs[i], sender, recipient) else convs[i])
  }

  /** What the route leaves: the database, the push (if any) and the reply. */
  datatype Post = Post(db: Db, push: Option<Delivery>, reply: Reply<MessageRow>)

  /**
   * `POST /message` for the authenticated `sender`. The row is inserted
   * first, unvalidated. A falsy recipient then returns without answering
   * (the `http-errors` object is returned, not sent). The frame is pushed to
   * the recipient; a throwing `send` leaves the request unanswered. Unless
   * the recipient has the sender's chat open, the conversation named in the
   * body is marked unread for the recipient. The answer is the stored row.
   * A database failure is an unhandled rejection: no answer, nothing stored.
   */
  function PostMessage(db: Db, reg: Registry, broken: set<SocketId>, sender: string, body: PostBody,
                       newId: string, now: int): (r: Post)
    ensures var m := MessageRow(newId, body.conversationId, sender, body.recipientId, body.text, now);
      && (db.fault.Some? ==> r == Post(db, None, Unanswered))
      && (db.fault.None? ==> r.db.messages == db.messages + [m] && r.db.users == db.users)
      && (r.reply.Respond? ==> r.reply == Respond(200, m))
    ensures r.reply.Respond? <==>
      db.fault.None? && body.recipientId != "" && !(body.recipientId in reg && reg[body.recipientId].socket in broken)
    ensures r.reply.Unanswered? <==> !r.reply.Respond?
    ensures r.push.Some? <==> r.reply.Respond? && body.recipientId in reg
    ensures r.push.Some? ==> r.push.value == Delivery(reg[body.recipientId].socket, NewMessage(r.reply.body))
    ensures !r.reply.Respond? || Focused(reg, body.recipientId, sender) ==> r.db.conversations == db.conversations
    ensures r.reply.Respond? && !Focused(reg, body.recipientId, sender) ==>
      r.db.conversations == MarkUnread(db.conversations, body.conversationId, sender, body.recipientId)
  {
    if db.fault.Some? then Post(db, None, Unanswered)
    else
      var m := MessageRow(newId, body.conversationId, sender, body.recipientId, body.text, now);
      var stored := db.(messages := db.messages + [m]);
      if body.recipientId == "" then Post(stored, None, Unanswered)
      else
        match WsSend(reg, broken, body.recipientId, NewMessage(m))
        case SendFailed => Post(stored, None, Unanswered)
        case NotConnected =>
          Post(stored.(conversations := MarkUnread(db.conversations, body.conversationId, sender, body.recipientId)),
               None, Respond(200, m))
        case Delivered(d) =>
          if Focused(reg, body.recipientId, sender) then Post(stored, Some(d), Respond(200, m))
          else
            Post(stored.(conversations := MarkUnread(db.conversations, body.conversationId, sender, body.recipientId)),
                 Some(d), Respond(200, m))
  }

  /**
   * A recipient who has the sender's chat open receives the frame and the
   * conversation is left as it was: it stays read.
   */
  lemma FocusSuppressesUnread(db: Db, reg: Registry, broken: set<SocketId>, sender: string, body: PostBody,
                              newId: string, now: int)
    requires db.fault.None? && body.recipientId != ""
    requires Focused(reg, body.recipientId, sender) && reg[body.recipientId].socket !in broken
    ensures var r := PostMessage(db, reg, broken, sender, body, newId, now);
      && r.reply.Respond? && r.push.Some?
      && r.db.conversations == db.conversations
  {
  }

  /**
   * Otherwise the conversation the message names is listed again for the
   * recipient and shows as unread to them, while the sender's own flag keeps
   * its value when the row already held the two in sorted order.
   */
  lemma UnfocusedRecipientSeesUnread(db: Db, reg: Registry, broken: set<SocketId>, sender: string, body: PostBody,
                                     newId: string, now: int, i: nat, u: UserRow)
    requires PostMessage(db, reg, broken, sender, body, newId, now).reply.Respond?
    requires !Focused(reg, body.recipientId, sender)
    requires i < |db.conversations| && body.conversationId == Some(db.conversations[i].id)
    requires sender != body.recipientId && u.id == sender
    ensures var c' := PostMessage(db, reg, broken, sender, body, newId, now).db.conversations[i];
      && ConversationService.Listed(c', body.recipientId)
      && ConversationService.Partner(u, c', body.recipientId)
      && !ConversationService.View(c', u, db.messages).read
    ensures var (c, c') := (db.conversations[i], PostMessage(db, reg, broken, sender, body, newId, now).db.conversations[i]);
      ConversationService.Joins(c, sender, body.recipientId) && StringOrder.AtMost(c.userId1, c.userId2) ==>
        ConversationService.OwnFlag(c', sender) == ConversationService.OwnFlag(c, sender)
  {
    var (c, c') := (db.conversations[i], PostMessage(db, reg, broken, sender, body, newId, now).db.conversations[i]);
    ConversationService.ViewReadIsOwnFlag(c', u, body.recipientId, db.messages);
    if ConversationService.Joins(c, sender, body.recipientId) && StringOrder.AtMost(c.userId1, c.userId2) {
      StringOrder.OrderPairOfSorted(c.userId1, c.userId2);
    }
  }

  /**
   * The conversation id is taken from the body unchecked: a message naming
   * another pair's conversation rewrites that row's participants to the
   * sender and the recipient.
   */
  lemma ForeignConversationRewritten(db: Db, reg: Registry, broken: set<SocketId>, sender: string, body: PostBody,
                                     newId: string, now: int, i: nat)
    requires PostMessage(db, reg, broken, sender, body, newId, now).reply.Respond?
    requires !Focused(reg, body.recipientId, sender)
    requires i < |db.conversations| && body.conversationId == Some(db.conversations[i].id)
    ensures var c' := PostMessage(db, reg, broken, sender, body, newId, now).db.conversations[i];
      multiset{c'.userId1, c'.userId2} == multiset{sender, body.recipientId}
  {
  }

  // ---------------------------------------------------------------------------
  // GET /messages/:userId/:cursor?
  // ---------------------------------------------------------------------------

  /** The number of rows the history query fetches. */
  const HistoryProbe: nat := 21
  /** The number of rows the history answer carries. */
  const HistoryPage: nat := 20

  /**
   * `GET /messages/:userId/:cursor?`: the cursor is parsed and then never
   * used. The query fetches the 21 newest messages between the two users;
   * the answer is the first 20, and `hasMore` holds when 21 came back. A
   * database failure leaves the request unanswered.
   */
  function GetMessages(db: Db, me: string, other: string, cursor: Option<string>): (r: Reply<MessageService.Page>)
    ensures r.Unanswered? <==> db.fault.Some?
    ensures r.Respond? ==>
      var all := MessageService.Matching(db.messages, me, other, None);
      && r.status == 200
      && |r.body.messages| == (if |all| <= HistoryPage then |all| else HistoryPage)
      && (r.body.hasMore <==> |all| >= HistoryProbe)
      && multiset(r.body.messages) <= multiset(all)
      && Recency.NewestFirst(r.body.messages, MessageService.SentAt)
      && (forall x, y :: x in r.body.messages && y in multiset(all) - multiset(r.body.messages) ==>
            x.createdAt >= y.createdAt)
  {
    if db.fault.Some? then Unanswered
    else
      var all := MessageService.Matching(db.messages, me, other, None);
      var rows := Recency.Take(Recency.SortNewestFirst(all, MessageService.SentAt), HistoryProbe);
      var page := MessageService.Page(Recency.Take(rows, HistoryPage), |rows| == HistoryProbe);
      assert page == MessageService.PageOf(all, HistoryPage);
      Respond(200, page)
  }

  /**
   * The single-file server's history is the modular service's first page
   * with the default size, whatever cursor the client sends.
   */
  lemma HistoryMatchesService(db: Db, me: string, other: string, cursor: Option<string>)
    requires db.fault.None?
    ensures GetMessages(db, me, other, cursor)
         == Respond(200, MessageService.GetMessagesForUser(db, me, other, None, MessageService.DefaultLimit).value)
  {
  }

  // ---------------------------------------------------------------------------
  // POST /conversation
  // ---------------------------------------------------------------------------

  /** The JSON body of the answer: `{ conv, ok: true }`. */
  datatype ConvReply = ConvReply(conv: ConversationRow, ok: bool)

  /**
   * `POST /conversation` for the authenticated `me` and the body's `userId`:
   * the first row joining the two (either order) is returned as it is, even
   * when unfriended; otherwise a row with the ids in sorted order is
   * inserted. There is no self check. Every answer is 200; a database
   * failure leaves the request unanswered.
   */
  function PostConversation(db: Db, me: string, other: string, newId: string, now: int)
    : (r: (Db, Reply<ConvReply>))
    ensures r.1.Unanswered? <==> db.fault.Some?
    ensures r.1.Unanswered? ==> r.0 == db
    ensures r.1.Respond? ==>
      && r.1.status == 200 && r.1.body.ok
      && ConversationService.Joins(r.1.body.conv, me, other)
      && r.0.users == db.users && r.0.messages == db.messages
    ensures db.fault.None? && ConversationService.FindFrom(db.conversations, me, other, 0).Some? ==>
      r == (db, Respond(200, ConvReply(db.conversations[ConversationService.FindFrom(db.conversations, me, other, 0).value], true)))
    ensures db.fault.None? && ConversationService.FindFrom(db.conversations, me, other, 0).None? ==>
      && r.1.Respond?
      && r.0.conversations == db.conversations + [r.1.body.conv]
      && StringOrder.AtMost(r.1.body.conv.userId1, r.1.body.conv.userId2)
      && r.1.body.conv == ConversationRow(newId, r.1.body.conv.userId1, r.1.body.conv.userId2, false, false, false, now)
  {
    if db.fault.Some? then (db, Unanswered)
    else
      match ConversationService.FindFrom(db.conversations, me, other, 0)
      case Some(i) => (db, Respond(200, ConvReply(db.conversations[i], true)))
      case None =>
        var ids := StringOrder.OrderPair(other, me);
        StringOrder.PairOfMultiset(ids.0, ids.1, other, me);
        var row := ConversationRow(newId, ids.0, ids.1, false, false, false, now);
        (db.(conversations := db.conversations + [row]), Respond(200, ConvReply(row, true)))
  }

  /** Posting the same pair again returns the conversation the first post returned and changes nothing. */
  lemma PostConversationSettles(db: Db, me: string, other: string, newId: string, newId2: string, now: int, now2: int)
    requires db.fault.None?
    ensures var (db1, first) := PostConversation(db, me, other, newId, now);
      PostConversation(db1, me, other, newId2, now2) == (db1, first)
  {
    var (db1, first) := PostConversation(db, me, other, newId, now);
    if ConversationService.FindFrom(db.conversations, me, other, 0).None? {
      var n := |db.conversations|;
      assert db1.conversations[n] == first.body.conv;
      ConversationService.FindFromSame(db.conversations, db1.conversations, me, other, n);
    }
  }

  /**
   * Where the modular service reactivates an unfriended conversation and
   * reports it as created, this route returns it still unfriended and
   * changes nothing.
   */
  lemma UnfriendedStaysUnfriended(db: Db, me: string, other: string, newId: string, now: int, i: nat)
    requires db.fault.None? && me != other
    requires ConversationService.FindFrom(db.conversations, me, other, 0) == Some(i)
    requires db.conversations[i].unfriended
    ensures PostConversation(db, me, other, newId, now) == (db, Respond(200, ConvReply(db.conversations[i], true)))
    ensures var o := ConversationService.FindOrCreateConversation(db, me, other, newId, now).value;
      o.created && !o.conv.unfriended && o.db != db
  {
    var o := ConversationService.FindOrCreateConversation(db, me, other, newId, now).value;
    assert o.db.conversations[i] == db.conversations[i].(unfriended := false);
  }

  /** A conversation with oneself is created here, where the modular service refuses it with 400. */
  lemma SelfConversationVariants(db: Db, me: string, newId: string, now: int)
    requires db.fault.None?
    ensures PostConversation(db, me, me, newId, now).1.Respond?
    ensures ConversationService.FindOrCreateConversation(db, me, me, newId, now).Failure?
  {
  }
}

=== FILE: realtime.dfy ===
/**
 * The modular server's realtime channel (`websocket/index.ts`): the registry
 * of connected users, `wsSend`, the per-connection event handlers, and the
 * authentication of an upgrade request with the access token or, failing
 * that, the refresh token and the stored token version.
 */
module Realtime {
  import opened Wrappers
  import opened Schema
  import opened Wire
  import Jwt
  import Auth
  import StringOrder
  import ConversationService

  /** `wsSend(userId, data)`: the frame for the user's current socket; a throwing `send` is logged and dropped. */
  function WsSend(reg: Registry, broken: set<SocketId>, to: string, frame: ServerFrame): (r: Option<Delivery>)
    ensures r.Some? <==> to in reg && reg[to].socket !in broken
    ensures r.Some? ==> r.value.socket == reg[to].socket && r.value.frame == frame
  {
    match Transmit(reg, broken, to, frame)
    case Delivered(d) => Some(d)
    case NotConnected => None
    case SendFailed => None
  }

  /**
   * The `connection` handler: a falsy user id terminates the socket without
   * registering it; otherwise the socket replaces any entry of the same user,
   * with no chat open.
   */
  function Connect(reg: Registry, userId: string, socket: SocketId): (r: Registry)
    ensures userId == "" ==> r == reg
    ensures userId != "" ==> userId in r && r[userId] == Entry(socket, None)
    ensures forall u :: u != userId ==> (u in r <==> u in reg)
    ensures forall u :: u != userId && u in r ==> r[u] == reg[u]
  {
    if userId == "" then reg else reg[userId := Entry(socket, None)]
  }

  /**
   * A frame arriving on the connection of `userId`. A parsed `message-open`
   * frame, while the user is registered, records the open chat and marks the
   * conversation read for the user. Malformed frames are logged and ignored.
   * The database write is applied at once.
   */
  function Receive(reg: Registry, db: Db, userId: string, msg: Inbound): (r: (Registry, Db))
    ensures msg.Parsed? && msg.kind == MessageOpen && userId in reg ==>
      && r.0 == reg[userId := reg[userId].(openChatUserId := msg.peer)]
      && r.1 == ConversationService.MarkConversationAsRead(db, userId, msg.peer)
    ensures !(msg.Parsed? && msg.kind == MessageOpen && userId in reg) ==> r == (reg, db)
  {
    match msg
    case Malformed => (reg, db)
    case Parsed(kind, peer) =>
      if kind == MessageOpen && userId in reg then
        (reg[userId := reg[userId].(openChatUserId := peer)],
         ConversationService.MarkConversationAsRead(db, userId, peer))
      else (reg, db)
  }

  /** The `close` handler: the entry of `userId` goes, whichever socket it holds. */
  function Close(reg: Registry, userId: string): (r: Registry)
    ensures userId !in r
    ensures forall u :: u != userId ==> (u in r <==> u in reg)
    ensures forall u :: u in r ==> r[u] == reg[u]
  {
    reg - {userId}
  }

  /** The `error` handler: removes the entry when there is one. */
  function Fail(reg: Registry, userId: string): (r: Registry)
    ensures userId !in r
    ensures userId !in reg ==> r == reg
    ensures forall u :: u in r ==> u in reg && r[u] == reg[u]
  {
    if userId in reg then reg - {userId} else reg
  }

  /** An error and a close leave the same registry. */
  lemma FailMatchesClose(reg: Registry, userId: string)
    ensures Fail(reg, userId) == Close(reg, userId)
  {
  }

  /** Closing twice is closing once. */
  lemma CloseIdempotent(reg: Registry, userId: string)
    ensures Close(Close(reg, userId), userId) == Close(reg, userId)
  {
  }

  /** After a connection is registered, a send to its user goes to that socket. */
  lemma SendAfterConnect(reg: Registry, broken: set<SocketId>, userId: string, socket: SocketId, frame: ServerFrame)
    requires userId != "" && socket !in broken
    ensures WsSend(Connect(reg, userId, socket), broken, userId, frame) == Some(Delivery(socket, frame))
  {
  }

  /** A second connection of the same user supersedes the first: sends reach only the newer socket. */
  lemma NewerSocketWins(reg: Registry, broken: set<SocketId>, userId: string, s1: SocketId, s2: SocketId,
                        frame: ServerFrame)
    requires userId != "" && s2 !in broken
    ensures var r := Connect(Connect(reg, userId, s1), userId, s2);
      WsSend(r, broken, userId, frame) == Some(Delivery(s2, frame))
  {
  }

  /**
   * The close handler of a superseded socket still deletes by user id, so it
   * unregisters the newer connection: the user then receives nothing although
   * a socket is open.
   */
  lemma StaleCloseDropsNewer(reg: Registry, broken: set<SocketId>, userId: string, s1: SocketId, s2: SocketId,
                             frame: ServerFrame)
    requires userId != ""
    ensures var r := Close(Connect(Connect(reg, userId, s1), userId, s2), userId);
      userId !in r && WsSend(r, broken, userId, frame) == None
  {
  }

  /** A focus frame records the open chat, and the chat then shows as read for the user. */
  lemma FocusMarksRead(reg: Registry, db: Db, userId: string, peer: string, i: nat, u: UserRow)
    requires userId in reg && userId != "" && peer != "" && userId != peer && db.fault.None?
    requires i < |db.conversations|
    requires ConversationService.Joins(db.conversations[i], userId, peer)
    requires StringOrder.AtMost(db.conversations[i].userId1, db.conversations[i].userId2)
    ensures var (reg', db') := Receive(reg, db, userId, Parsed(MessageOpen, Some(peer)));
      var c' := db'.conversations[i];
      && reg'[userId].openChatUserId == Some(peer)
      && reg'[userId].socket == reg[userId].socket
      && (ConversationService.Listed(c', userId) && ConversationService.Partner(u, c', userId) ==>
            ConversationService.View(c', u, db'.messages).read)
  {
    ConversationService.MarkedConversationShowsRead(db, userId, peer, i, u);
  }

  // ---------------------------------------------------------------------------
  // Upgrade authentication
  // ---------------------------------------------------------------------------

  /**
   * The refresh lookup: a `users` row with the claimed id and the claimed
   * token version. SQL equality never holds for a null column or a missing
   * claim, and a failing query counts as no row.
   */
  predicate StoredVersionMatches(db: Db, claims: Jwt.Claims) {
    && db.fault.None?
    && exists u :: u in db.users && u.id == claims.userId
         && u.tokenVersion.Some? && claims.ClaimedVersion() == u.tokenVersion
  }

  /**
   * The `upgrade` handler's decision. A request without URL, without either
   * token, or arriving while a secret is unset is refused. A verifying access
   * token is accepted for its user; otherwise a verifying refresh token whose
   * user id and token version match a stored user is accepted; everything
   * else is refused with 401.
   */
  function Authenticate(req: UpgradeRequest, accessSecret: Option<string>, refreshSecret: Option<string>,
                        db: Db, now: int): (r: Verdict)
    ensures r.Accept? ==>
      && req.url.Some?
      && req.url.value.accessToken.Truthy() && req.url.value.refreshToken.Truthy()
      && Jwt.UsableSecret(accessSecret) && Jwt.UsableSecret(refreshSecret)
      && var q := req.url.value;
      || (q.accessToken.Verify(accessSecret, now).Some? &&
          r.userId == q.accessToken.Verify(accessSecret, now).value.userId)
      || (&& q.accessToken.Verify(accessSecret, now).None?
          && q.refreshToken.Verify(refreshSecret, now).Some?
          && r.userId == q.refreshToken.Verify(refreshSecret, now).value.userId
          && StoredVersionMatches(db, q.refreshToken.Verify(refreshSecret, now).value))
    ensures (&& req.url.Some?
             && req.url.value.accessToken.Truthy() && req.url.value.refreshToken.Truthy()
             && Jwt.UsableSecret(accessSecret) && Jwt.UsableSecret(refreshSecret)
             && req.url.value.accessToken.Verify(accessSecret, now).Some?) ==>
      r == Accept(req.url.value.accessToken.Verify(accessSecret, now).value.userId)
    ensures (&& req.url.Some?
             && req.url.value.accessToken.Truthy() && req.url.value.refreshToken.Truthy()
             && Jwt.UsableSecret(accessSecret) && Jwt.UsableSecret(refreshSecret)
             && req.url.value.accessToken.Verify(accessSecret, now).None?
             && req.url.value.refreshToken.Verify(refreshSecret, now).Some?) ==>
      var claims := req.url.value.refreshToken.Verify(refreshSecret, now).value;
      && (StoredVersionMatches(db, claims) ==> r == Accept(claims.userId))
      && (!StoredVersionMatches(db, claims) ==> r == Reject)
  {
    if req.url.None? then Reject
    else
      var q := req.url.value;
      if !q.accessToken.Truthy() || !q.refreshToken.Truthy() then Reject
      else if !Jwt.UsableSecret(accessSecret) || !Jwt.UsableSecret(refreshSecret) then Reject
      else
        match q.accessToken.Verify(accessSecret, now)
        case Some(claims) => Accept(claims.userId)
        case None =>
          match q.refreshToken.Verify(refreshSecret, now)
          case None => Reject
          case Some(claims) => if StoredVersionMatches(db, claims) then Accept(claims.userId) else Reject
  }

  /** The whole upgrade: an accepted socket goes through the `connection` handler; a refused one changes nothing. */
  function HandleUpgrade(reg: Registry, req: UpgradeRequest, socket: SocketId, accessSecret: Option<string>,
                         refreshSecret: Option<string>, db: Db, now: int): (r: Registry)
    ensures Authenticate(req, accessSecret, refreshSecret, db, now).Reject? ==> r == reg
    ensures Authenticate(req, accessSecret, refreshSecret, db, now).Accept? ==>
      r == Connect(reg, Authenticate(req, accessSecret, refreshSecret, db, now).userId, socket)
  {
    match Authenticate(req, accessSecret, refreshSecret, db, now)
    case Accept(userId) => Connect(reg, userId, socket)
    case Reject => reg
  }

  /** The URL of a client that logged in: both tokens in the query string. */
  function LoginQuery(tokens: Jwt.TokenPair): UpgradeRequest {
    UpgradeRequest(Some(Query(One(tokens.accessToken), One(tokens.refreshToken))))
  }

  /** With the tokens of a login, the socket opens for that user while the access token lasts. */
  lemma FreshLoginConnects(user: UserRow, accessSecret: string, refreshSecret: string, db: Db, issued: int, now: int)
    requires accessSecret != "" && refreshSecret != ""
    requires issued <= now < issued + Jwt.AccessLifetime
    ensures var tokens := Auth.CreateTokens(user, Some(accessSecret), Some(refreshSecret), issued).value;
      Authenticate(LoginQuery(tokens), Some(accessSecret), Some(refreshSecret), db, now) == Accept(user.id)
  {
  }

  /**
   * Once the access token has expired the refresh token still opens the
   * socket, as long as the stored user keeps the token version it was issued
   * with.
   */
  lemma RefreshTokenConnects(user: UserRow, accessSecret: string, refreshSecret: string, db: Db, issued: int, now: int)
    requires accessSecret != "" && refreshSecret != ""
    requires issued + Jwt.AccessLifetime <= now < issued + Jwt.RefreshLifetime
    requires db.fault.None? && user in db.users && user.tokenVersion.Some?
    ensures var tokens := Auth.CreateTokens(user, Some(accessSecret), Some(refreshSecret), issued).value;
      Authenticate(LoginQuery(tokens), Some(accessSecret), Some(refreshSecret), db, now) == Accept(user.id)
  {
    var tokens := Auth.CreateTokens(user, Some(accessSecret), Some(refreshSecret), issued).value;
    assert Jwt.Verify(tokens.accessToken, Some(accessSecret), now).None?;
    assert Jwt.Verify(tokens.refreshToken, Some(refreshSecret), now) == Some(Jwt.RefreshClaims(user.id, user.tokenVersion));
  }

  /**
   * Bumping the stored token version revokes the refresh token: after the
   * access token expires, no stored row carries the issued version and the
   * socket is refused.
   */
  lemma RevokedRefreshRejected(user: UserRow, accessSecret: string, refreshSecret: string, db: Db, issued: int, now: int)
    requires accessSecret != "" && refreshSecret != ""
    requires issued + Jwt.AccessLifetime <= now
    requires forall u :: u in db.users && u.id == user.id ==> u.tokenVersion != user.tokenVersion
    ensures var tokens := Auth.CreateTokens(user, Some(accessSecret), Some(refreshSecret), issued).value;
      Authenticate(LoginQuery(tokens), Some(accessSecret), Some(refreshSecret), db, now) == Reject
  {
    var tokens := Auth.CreateTokens(user, Some(accessSecret), Some(refreshSecret), issued).value;
    assert Jwt.Verify(tokens.accessToken, Some(accessSecret), now).None?;
  }

  /** While a token secret is unset no socket is ever accepted. */
  lemma UnconfiguredRejectsAll(req: UpgradeRequest, accessSecret: Option<string>, refreshSecret: Option<string>,
                               db: Db, now: int, reg: Registry, socket: SocketId)
    requires !Jwt.UsableSecret(accessSecret) || !Jwt.UsableSecret(refreshSecret)
    ensures Authenticate(req, accessSecret, refreshSecret, db, now) == Reject
    ensures HandleUpgrade(reg, req, socket, accessSecret, refreshSecret, db, now) == reg
  {
  }
}

=== FILE: recency.dfy ===
/**
 * `ORDER BY <timestamp> DESC NULLS LAST`, as the message history and the
 * conversation list use it. SQL leaves the order of equal keys open; the model
 * fixes one admissible order (ties keep their table order).
 */
module Recency {
  import opened Wrappers

  /** `a` may come before `b`: a later time first, and every time before a missing one. */
  predicate NoOlder(a: Option<int>, b: Option<int>) {
    match (a, b)
    case (Some(x), Some(y)) => x >= y
    case (Some(_), None) => true
    case (None, None) => true
    case (None, Some(_)) => false
  }

  /** Every row's key is no older than the key of any later row. */
  predicate NewestFirst<T>(s: seq<T>, key: T -> Option<int>) {
    forall i, j :: 0 <= i < j < |s| ==> NoOlder(key(s[i]), key(s[j]))
  }

  /** `x` placed before the first row it is no older than. */
  function Insert<T>(x: T, s: seq<T>, key: T -> Option<int>): (r: seq<T>)
    requires NewestFirst(s, key)
    ensures NewestFirst(r, key)
    ensures multiset(r) == multiset(s) + multiset{x}
  {
    if s == [] || NoOlder(key(x), key(s[0])) then
      [x] + s
    else
      var t := Insert(x, s[1..], key);
      assert s == [s[0]] + s[1..];
      HeadFirst(s[0], t, s[1..], x, key);
      [s[0]] + t
  }

  /** A head no older than every row of a sorted tail keeps the list sorted. */
  lemma HeadFirst<T>(h: T, t: seq<T>, tail: seq<T>, x: T, key: T -> Option<int>)
    requires NewestFirst(t, key) && NewestFirst([h] + tail, key)
    requires multiset(t) == multiset(tail) + multiset{x}
    requires NoOlder(key(h), key(x))
    ensures NewestFirst([h] + t, key)
  {
    var r := [h] + t;
    forall i, j | 0 <= i < j < |r| ensures NoOlder(key(r[i]), key(r[j])) {
      if i == 0 {
        var y := t[j - 1];
        assert r[0] == h && r[j] == y;
        assert y in multiset(t);
        if y != x {
          assert y in multiset(tail);
          var k :| 0 <= k < |tail| && tail[k] == y;
          var ht := [h] + tail;
          assert ht[0] == h && ht[k + 1] == y;
          assert NoOlder(key(ht[0]), key(ht[k + 1]));
        }
      } else {
        assert r[i] == t[i - 1] && r[j] == t[j - 1];
      }
    }
  }

  /** The rows reordered newest first: a permutation of the input in key order. */
  function SortNewestFirst<T>(s: seq<T>, key: T -> Option<int>): (r: seq<T>)
    ensures NewestFirst(r, key)
    ensures multiset(r) == multiset(s)
  {
    if s == [] then [] else
      assert s == [s[0]] + s[1..];
      Insert(s[0], SortNewestFirst(s[1..], key), key)
  }

  /** `LIMIT n` applied to a result. */
  function Take<T>(s: seq<T>, n: nat): (r: seq<T>)
    ensures |r| == if |s| <= n then |s| else n
    ensures r == s[..|r|]
  {
    if |s| <= n then s else s[..n]
  }

  /** A prefix of a sorted list is sorted, and every row it keeps is no older than every row it drops. */
  lemma TakeKeepsNewest<T>(s: seq<T>, n: nat, key: T -> Option<int>)
    requires NewestFirst(s, key)
    ensures NewestFirst(Take(s, n), key)
    ensures forall i, j :: 0 <= i < |Take(s, n)| <= j < |s| ==> NoOlder(key(s[i]), key(s[j]))
  {
  }

  /** A prefix takes no row more often than the list holds it. */
  lemma TakeSubMultiset<T>(s: seq<T>, n: nat)
    ensures multiset(Take(s, n)) <= multiset(s)
  {
    if |s| > n {
      assert s == s[..n] + s[n..];
      assert multiset(s) == multiset(s[..n]) + multiset(s[n..]);
    }
  }

  /** In a sorted list, each row of a prefix is no older than each row left after it. */
  lemma PrefixBeatsRest<T>(s: seq<T>, k: nat, key: T -> Option<int>)
    requires NewestFirst(s, key) && k <= |s|
    ensures forall x, y :: x in s[..k] && y in multiset(s) - multiset(s[..k]) ==> NoOlder(key(x), key(y))
  {
    assert s == s[..k] + s[k..];
    assert multiset(s) - multiset(s[..k]) == multiset(s[k..]);
    forall x, y | x in s[..k] && y in multiset(s) - multiset(s[..k]) ensures NoOlder(key(x), key(y)) {
      var i :| 0 <= i < k && s[..k][i] == x;
      assert y in s[k..];
      var j :| 0 <= j < |s| - k && s[k..][j] == y;
      assert s[i] == x && s[k + j] == y;
    }
  }
}

=== FILE: reconnecting_socket.dfy ===
/**
 * The webview's reconnecting socket (`ReconnectingWebSocket` in
 * `extension/webview/shared/websocket.ts`) as a state machine: the current
 * browser socket, the attempt counter bounded by 10, the pending retry timer
 * and the forced-close flag. Browser events are transitions; the delay of a
 * retry is not modelled, only whether one is pending.
 */
module ReconnectingSocket {
  import opened Wrappers
  import Wire

  /** `maxReconnectAttempts`. */
  const MaxReconnectAttempts: nat := 10

  /** A browser socket's `readyState`. */
  datatype ReadyState = Connecting | Open | Closing | Closed

  /** A browser socket: which one it is and its state. */
  datatype Socket = Socket(id: nat, readyState: ReadyState)

  /** The fields of one `ReconnectingWebSocket`. */
  datatype Rws = Rws(url: string, socket: Option<Socket>, attempts: nat, timerPending: bool, forceClosed: bool)

  /** A freshly constructed instance. */
  const Initial := Rws("", None, 0, false, false)

  /** `this.socket?.readyState === WebSocket.OPEN`. */
  predicate IsOpen(s: Rws) {
    s.socket.Some? && s.socket.value.readyState == Open
  }

  /** The invariant every reachable state keeps: the attempt counter never exceeds its maximum. */
  predicate Bounded(s: Rws) {
    s.attempts <= MaxReconnectAttempts
  }

  /** A frame handed to a browser socket. */
  datatype Transmission = Transmission(socket: nat, data: Wire.Inbound)

  /**
   * `reconnect()`: nothing while a retry is pending or after a forced close;
   * otherwise one more attempt is counted and a retry scheduled, as long as
   * fewer than the maximum were made; after that it gives up.
   */
  function Reconnect(s: Rws): (r: Rws)
    ensures Bounded(s) ==> Bounded(r)
    ensures r.timerPending <==> s.timerPending || (!s.forceClosed && s.attempts < MaxReconnectAttempts)
    ensures r.attempts == (if !s.timerPending && !s.forceClosed && s.attempts < MaxReconnectAttempts
                           then s.attempts + 1 else s.attempts)
    ensures r == s.(attempts := r.attempts, timerPending := r.timerPending)
  {
    if s.timerPending || s.forceClosed then s
    else if s.attempts < MaxReconnectAttempts then s.(attempts := s.attempts + 1, timerPending := true)
    else s
  }

  /**
   * `createWebSocket()`: a new socket, numbered `newSocket`, connecting; when the
   * constructor throws (`urlOk` false, an unusable URL) the old socket stays
   * and a reconnect is tried instead.
   */
  function CreateSocket(s: Rws, urlOk: bool, newSocket: nat): (r: Rws)
    ensures Bounded(s) ==> Bounded(r)
    ensures urlOk ==> r == s.(socket := Some(Socket(newSocket, Connecting)))
    ensures !urlOk ==> r == Reconnect(s)
  {
    if urlOk then s.(socket := Some(Socket(newSocket, Connecting))) else Reconnect(s)
  }

  /**
   * `connect(url)`: nothing while the socket is open (the new URL is not
   * even recorded); otherwise the URL is recorded, a forced close is undone
   * and a socket is created. The attempt counter is not reset and a pending
   * retry is not cancelled.
   */
  function Connect(s: Rws, url: string, urlOk: bool, newSocket: nat): (r: Rws)
    ensures Bounded(s) ==> Bounded(r)
    ensures IsOpen(s) ==> r == s
    ensures !IsOpen(s) ==> r.url == url && !r.forceClosed && r.attempts >= s.attempts
    ensures !IsOpen(s) && urlOk ==>
      r == s.(url := url, forceClosed := false, socket := Some(Socket(newSocket, Connecting)))
  {
    if IsOpen(s) then s else CreateSocket(s.(url := url, forceClosed := false), urlOk, newSocket)
  }

  /** `disconnect()`: forced close, no socket, the retry timer cancelled, the counter reset. */
  function Disconnect(s: Rws): (r: Rws)
    ensures r.forceClosed && r.socket.None? && !r.timerPending && r.attempts == 0
    ensures r.url == s.url
  {
    s.(forceClosed := true, socket := None, timerPending := false, attempts := 0)
  }

  /** `send(data)`: handed to the socket when it is open, dropped otherwise. */
  function Send(s: Rws, data: Wire.Inbound): (r: Option<Transmission>)
    ensures r.Some? <==> IsOpen(s)
    ensures r.Some? ==> r.value == Transmission(s.socket.value.id, data)
  {
    if IsOpen(s) then Some(Transmission(s.socket.value.id, data)) else None
  }

  /** The socket `id` changes state, if it is still the current one. */
  function SetState(s: Rws, id: nat, st: ReadyState): (r: Rws)
    ensures r == s.(socket := r.socket)
    ensures s.socket.Some? && s.socket.value.id == id ==> r.socket == Some(Socket(id, st))
    ensures !(s.socket.Some? && s.socket.value.id == id) ==> r.socket == s.socket
  {
    if s.socket.Some? && s.socket.value.id == id then s.(socket := Some(Socket(id, st))) else s
  }

  /** A browser event, tagged with the socket it comes from, or the retry timer firing. */
  datatype Event =
    | Opened(socket: nat)
    | ClosedEvent(socket: nat)
    | TimerFired(urlOk: bool, newSocket: nat)

  /**
   * One event. The listeners do not look at which socket fired: an `open`
   * resets the counter and a `close` reconnects unless force-closed, even
   * when it comes from a socket that has since been replaced. A timer that
   * was cancelled never fires.
   */
  function Step(s: Rws, e: Event): (r: Rws)
    ensures Bounded(s) ==> Bounded(r)
    ensures e.Opened? ==> r.attempts == 0 && r.timerPending == s.timerPending && r.forceClosed == s.forceClosed
    ensures e.ClosedEvent? && s.forceClosed ==> r.timerPending == s.timerPending && r.attempts == s.attempts
    ensures e.TimerFired? && !s.timerPending ==> r == s
  {
    match e
    case Opened(id) => SetState(s, id, Open).(attempts := 0)
    case ClosedEvent(id) =>
      var s' := SetState(s, id, Closed);
      if s'.forceClosed then s' else Reconnect(s')
    case TimerFired(urlOk, newSocket) =>
      if s.timerPending then CreateSocket(s.(timerPending := false), urlOk, newSocket) else s
  }

  /** A sequence of events in order. */
  function Run(s: Rws, es: seq<Event>): Rws
    decreases |es|
  {
    if es == [] then s else Run(Step(s, es[0]), es[1..])
  }

  /** However the events arrive, the attempt counter never exceeds 10. */
  lemma {:induction false} RunBounded(s: Rws, es: seq<Event>)
    requires Bounded(s)
    ensures Bounded(Run(s, es))
    decreases |es|
  {
    if es != [] {
      RunBounded(Step(s, es[0]), es[1..]);
    }
  }

  /**
   * After `disconnect()` no event brings a socket back: no retry is ever
   * scheduled, and the only way out is a new `connect`.
   */
  lemma {:induction false} ForcedCloseStaysClosed(s: Rws, es: seq<Event>)
    requires s.forceClosed && !s.timerPending && s.socket.None?
    ensures var r := Run(s, es); r.forceClosed && !r.timerPending && r.socket.None?
    decreases |es|
  {
    if es != [] {
      ForcedCloseStaysClosed(Step(s, es[0]), es[1..]);
    }
  }

  /** The state after `disconnect()` meets the premise of the previous lemma. */
  lemma DisconnectThenEvents(s: Rws, es: seq<Event>)
    ensures var r := Run(Disconnect(s), es); r.forceClosed && !r.timerPending && r.socket.None?
  {
    ForcedCloseStaysClosed(Disconnect(s), es);
  }

  /** A failed round: the current socket closes, then the retry timer fires with a new socket. */
  function FailedRound(s: Rws, newSocket: nat): Rws {
    var id := if s.socket.Some? then s.socket.value.id else newSocket;
    Step(Step(s, ClosedEvent(id)), TimerFired(true, newSocket))
  }

  /** `k` failed rounds in a row, the new sockets numbered from `newSocket`. */
  function FailedRounds(s: Rws, k: nat, newSocket: nat): Rws
    decreases k
  {
    if k == 0 then s else FailedRounds(FailedRound(s, newSocket), k - 1, newSocket + 1)
  }

  /**
   * A server that keeps refusing: each refused socket's close schedules one
   * more retry until 10 attempts were counted, then the client gives up and
   * nothing is pending any more.
   */
  lemma {:induction false} RetriesExhaust(s: Rws, k: nat, newSocket: nat)
    requires Bounded(s) && !s.forceClosed && !s.timerPending
    ensures var r := FailedRounds(s, k, newSocket);
      && r.attempts == (if s.attempts + k <= MaxReconnectAttempts then s.attempts + k else MaxReconnectAttempts)
      && !r.timerPending && !r.forceClosed
    decreases k
  {
    if k > 0 {
      var s1 := FailedRound(s, newSocket);
      assert s1.attempts == (if s.attempts < MaxReconnectAttempts then s.attempts + 1 else s.attempts);
      RetriesExhaust(s1, k - 1, newSocket + 1);
    }
  }

  /** Once 10 attempts were counted a close schedules nothing until a socket opens again. */
  lemma GivesUpAtMax(s: Rws, id: nat)
    requires s.attempts == MaxReconnectAttempts && !s.timerPending
    ensures !Step(s, ClosedEvent(id)).timerPending
    ensures Step(s, ClosedEvent(id)).attempts == MaxReconnectAttempts
  {
  }

  /** An open socket resets the count, so a later drop starts a newSocket series of retries. */
  lemma OpenRestartsRetries(s: Rws, id: nat, id2: nat)
    requires !s.forceClosed && !s.timerPending
    ensures var r := Step(Step(s, Opened(id)), ClosedEvent(id2));
      r.attempts == 1 && r.timerPending
  {
  }

  /** Connecting again while open keeps the old URL: tokens passed later are not used until the socket drops. */
  lemma ConnectWhileOpenKeepsUrl(s: Rws, url: string, urlOk: bool, newSocket: nat)
    requires IsOpen(s)
    ensures Connect(s, url, urlOk, newSocket).url == s.url
    ensures Send(Connect(s, url, urlOk, newSocket), Wire.Malformed) == Send(s, Wire.Malformed)
  {
  }

  /** A send reaches the socket only once its `open` event arrived. */
  lemma SendNeedsOpen(s: Rws, url: string, newSocket: nat, data: Wire.Inbound)
    requires !IsOpen(s)
    ensures var c := Connect(s, url, true, newSocket);
      && Send(c, data).None?
      && Send(Step(c, Opened(newSocket)), data) == Some(Transmission(newSocket, data))
  {
  }
}

=== FILE: schema.dfy ===
/**
 * The persisted records (the `users`, `conversations` and `messages` tables)
 * with their column defaults, the in-memory database that stands in for
 * PostgreSQL, the client-safe projections of a user, and the shapes of an HTTP
 * handler's outcome.
 */
module Schema {
  import opened Wrappers

  /** A `users` row. `tokenVersion` defaults to 1 and is nullable, as are `avatar`, `email` and `google_id`. */
  datatype UserRow = UserRow(
    id: string,
    username: string,
    avatar: Option<string>,
    email: Option<string>,
    tokenVersion: Option<int>,
    googleId: Option<string>,
    createdAt: int,
    updatedAt: int)

  /** A `conversations` row: `read1` belongs to `userId1`, `read2` to `userId2`; flags default to false. */
  datatype ConversationRow = ConversationRow(
    id: string,
    userId1: string,
    userId2: string,
    read1: bool,
    read2: bool,
    unfriended: bool,
    createdAt: int)

  /** A `messages` row. */
  datatype MessageRow = MessageRow(
    id: string,
    conversationId: Option<string>,
    senderId: string,
    recipientId: string,
    text: string,
    createdAt: int)

  /** The message was exchanged between `a` and `b`, in either direction. */
  predicate Exchanged(m: MessageRow, a: string, b: string) {
    (m.recipientId == a && m.senderId == b) || (m.senderId == a && m.recipientId == b)
  }

  /**
   * The database: the three tables in storage order, and `fault`, the SQLSTATE
   * code of the error every query raises while the database is failing.
   */
  datatype Db = Db(
    users: seq<UserRow>,
    conversations: seq<ConversationRow>,
    messages: seq<MessageRow>,
    fault: Option<string>)

  /** The SQLSTATE code PostgreSQL reports for a unique-constraint violation. */
  const UniqueViolation := "23505"

  /** What a failing handler hands on: an `http-errors` error, or a raw driver error. */
  datatype Failure = HttpError(status: int, message: string) | DriverError(code: string)

  /** The outcome of an HTTP handler: a response, an error passed to `next`, or no answer at all. */
  datatype Reply<+T> = Respond(status: int, body: T) | Forward(failure: Failure) | Unanswered

  /** A profile with `tokenVersion`, `googleId` and `email` stripped. */
  datatype PublicProfile = PublicProfile(
    id: string,
    username: string,
    avatar: Option<string>,
    createdAt: int,
    updatedAt: int)

  /** A user with `tokenVersion` and `googleId` stripped; the e-mail address stays. */
  datatype Account = Account(
    id: string,
    username: string,
    avatar: Option<string>,
    email: Option<string>,
    createdAt: int,
    updatedAt: int)

  function ToPublic(u: UserRow): PublicProfile {
    PublicProfile(u.id, u.username, u.avatar, u.createdAt, u.updatedAt)
  }

  function ToAccount(u: UserRow): Account {
    Account(u.id, u.username, u.avatar, u.email, u.createdAt, u.updatedAt)
  }

  /** The rows of `users` whose id is `id`, in storage order (`select ... where id = $1`). */
  function UsersWithId(users: seq<UserRow>, id: string): (r: seq<UserRow>)
    ensures forall u :: u in r <==> u in users && u.id == id
    ensures |r| <= |users|
  {
    if users == [] then []
    else (if users[0].id == id then [users[0]] else []) + UsersWithId(users[1..], id)
  }

  /** Row `i` is the earliest row of `users` whose id is `id`. */
  predicate FirstWithId(users: seq<UserRow>, id: string, i: int) {
    0 <= i < |users| && users[i].id == id && forall j :: 0 <= j < i ==> users[j].id != id
  }

  /** The lookup by id starts with the earliest row that has the id. */
  lemma {:induction false} UsersWithIdHead(users: seq<UserRow>, id: string, i: int)
    requires FirstWithId(users, id, i)
    ensures UsersWithId(users, id) != [] && UsersWithId(users, id)[0] == users[i]
  {
    if i > 0 {
      assert users[0].id != id;
      assert FirstWithId(users[1..], id, i - 1) by {
        assert forall j :: 0 <= j < i - 1 ==> users[1..][j] == users[j + 1];
      }
      UsersWithIdHead(users[1..], id, i - 1);
    }
  }

  /** `UsersWithIdHead` for every index at once. */
  lemma UsersWithIdFirst(users: seq<UserRow>, id: string)
    ensures forall i :: FirstWithId(users, id, i) ==> UsersWithId(users, id) != [] && UsersWithId(users, id)[0] == users[i]
  {
    forall i | FirstWithId(users, id, i)
      ensures UsersWithId(users, id) != [] && UsersWithId(users, id)[0] == users[i]
    {
      UsersWithIdHead(users, id, i);
    }
  }

  /** Some row at or before any row with the id is the earliest one. */
  lemma {:induction false} EarliestWithId(users: seq<UserRow>, id: string, k: int) returns (i: int)
    requires 0 <= k < |users| && users[k].id == id
    ensures FirstWithId(users, id, i) && i <= k
    decreases k
  {
    if exists j :: 0 <= j < k && users[j].id == id {
      var j :| 0 <= j < k && users[j].id == id;
      i := EarliestWithId(users, id, j);
    } else {
      i := k;
    }
  }

  /** When some row has the id, one of them is the earliest. */
  lemma SomeEarliestWithId(users: seq<UserRow>, id: string) returns (i: int)
    requires exists u :: u in users && u.id == id
    ensures FirstWithId(users, id, i)
  {
    var u :| u in users && u.id == id;
    var k :| 0 <= k < |users| && users[k] == u;
    i := EarliestWithId(users, id, k);
  }

  /** The first row of a result (`const [row] = await ...`). */
  function First<T>(rows: seq<T>): Option<T> {
    if rows == [] then None else Some(rows[0])
  }
}

=== FILE: socket_manager.dfy ===
/**
 * The webview's `WebSocketManager` (`extension/webview/shared/websocket.ts`):
 * the subscriber list, the chat the user has open and its announcement to
 * the server, the socket URL, and the fan-out of inbound frames, on top of
 * one reconnecting socket.
 */
module SocketManager {
  import opened Wrappers
  import Js
  import Schema
  import Wire
  import ReconnectingSocket
  import Realtime
  import Monolith
  import ConversationService

  /** A subscribed handler, compared by identity (`h !== handler`). */
  type HandlerId = nat

  /** A parsed inbound frame (`WebSocketMessage`). */
  datatype Notice =
    | NewMessageNotice(message: Schema.MessageRow)
    | UnfriendNotice(userId: string)
    | MessageOpenNotice(peer: Option<string>)

  /** The manager's fields. */
  datatype Manager = Manager(
    ws: Option<ReconnectingSocket.Rws>,
    handlers: seq<HandlerId>,
    connected: bool,
    currentChat: Option<string>)

  /** The singleton as constructed. */
  const Initial := Manager(None, [], false, None)

  // ---------------------------------------------------------------------------
  // Subscribers
  // ---------------------------------------------------------------------------

  /** `handlers.filter(h => h !== handler)`. */
  function Without(hs: seq<HandlerId>, h: HandlerId): (r: seq<HandlerId>)
    ensures h !in r
    ensures forall g :: g != h ==> multiset(r)[g] == multiset(hs)[g]
    ensures |r| <= |hs|
  {
    if hs == [] then []
    else
      assert hs == [hs[0]] + hs[1..];
      (if hs[0] == h then [] else [hs[0]]) + Without(hs[1..], h)
  }

  /** Filtering distributes over concatenation, so the order of the remaining handlers is kept. */
  lemma {:induction false} WithoutAppend(a: seq<HandlerId>, b: seq<HandlerId>, h: HandlerId)
    ensures Without(a + b, h) == Without(a, h) + Without(b, h)
  {
    if a != [] {
      assert (a + b)[1..] == a[1..] + b;
      WithoutAppend(a[1..], b, h);
    } else {
      assert a + b == b;
    }
  }

  /** Filtering out a handler that is not subscribed changes nothing. */
  lemma {:induction false} WithoutAbsent(hs: seq<HandlerId>, h: HandlerId)
    requires h !in hs
    ensures Without(hs, h) == hs
  {
    if hs != [] {
      WithoutAbsent(hs[1..], h);
    }
  }

  /** `subscribe(handler)`: the handler goes to the end of the list. */
  function Subscribe(m: Manager, h: HandlerId): (r: Manager)
    ensures r.handlers == m.handlers + [h]
    ensures r == m.(handlers := r.handlers)
  {
    m.(handlers := m.handlers + [h])
  }

  /** The function `subscribe` returns: every occurrence of the handler goes, every other stays. */
  function Unsubscribe(m: Manager, h: HandlerId): (r: Manager)
    ensures h !in r.handlers
    ensures forall g :: g != h ==> multiset(r.handlers)[g] == multiset(m.handlers)[g]
    ensures r == m.(handlers := r.handlers)
  {
    m.(handlers := Without(m.handlers, h))
  }

  /** Subscribing a new handler and calling the returned function restores the list exactly. */
  lemma SubscribeThenUnsubscribe(m: Manager, h: HandlerId)
    requires h !in m.handlers
    ensures Unsubscribe(Subscribe(m, h), h) == m
  {
    WithoutAppend(m.handlers, [h], h);
    WithoutAbsent(m.handlers, h);
    assert Without([h], h) == [];
  }

  /** Calling an unsubscribe function twice is calling it once. */
  lemma UnsubscribeIdempotent(m: Manager, h: HandlerId)
    ensures Unsubscribe(Unsubscribe(m, h), h) == Unsubscribe(m, h)
  {
    WithoutAbsent(Without(m.handlers, h), h);
  }

  // ---------------------------------------------------------------------------
  // Inbound frames
  // ---------------------------------------------------------------------------

  /**
   * `handleMessage(event)`: a frame that parses goes to every handler in
   * subscription order, once per subscription; one that does not is dropped.
   */
  function Deliver(m: Manager, data: Option<Notice>): (r: seq<(HandlerId, Notice)>)
    ensures data.None? ==> r == []
    ensures data.Some? ==> |r| == |m.handlers| && forall i :: 0 <= i < |r| ==> r[i] == (m.handlers[i], data.value)
  {
    if data.None? then [] else seq(|m.handlers|, i requires 0 <= i < |m.handlers| => (m.handlers[i], data.value))
  }

  /** After unsubscribing, a handler receives nothing, and every other handler what it received before. */
  lemma UnsubscribedGetsNothing(m: Manager, h: HandlerId, n: Notice)
    ensures forall d :: d in Deliver(Unsubscribe(m, h), Some(n)) ==> d.0 != h
    ensures forall g :: g != h ==>
      multiset(Unsubscribe(m, h).handlers)[g] == multiset(m.handlers)[g]
  {
    var hs := Unsubscribe(m, h).handlers;
    forall d | d in Deliver(Unsubscribe(m, h), Some(n)) ensures d.0 != h {
      var i :| 0 <= i < |hs| && Deliver(Unsubscribe(m, h), Some(n))[i] == d;
      assert hs[i] in hs;
    }
  }

  // ---------------------------------------------------------------------------
  // Active chat
  // ---------------------------------------------------------------------------

  /** The frame announcing the open chat, as the server parses it: `{ type: 'message-open', userId }`. */
  function Announcement(userId: Option<string>): Wire.Inbound {
    Wire.Parsed(Wire.MessageOpen, userId)
  }

  /**
   * `setActiveChatUser(userId)`: the user is always recorded; it is
   * announced only while the manager believes it is connected, and then
   * reaches the server only if the socket is open.
   */
  function SetActiveChatUser(m: Manager, userId: Option<string>): (r: (Manager, Option<ReconnectingSocket.Transmission>))
    ensures r.0 == m.(currentChat := userId)
    ensures r.1.Some? <==> m.ws.Some? && m.connected && ReconnectingSocket.IsOpen(m.ws.value)
    ensures r.1.Some? ==> r.1.value == ReconnectingSocket.Transmission(m.ws.value.socket.value.id, Announcement(userId))
  {
    var m' := m.(currentChat := userId);
    if m.ws.Some? && m.connected then (m', ReconnectingSocket.Send(m.ws.value, Announcement(userId)))
    else (m', None)
  }

  /** An announced chat is what the modular server records as the user's open chat, and it marks that chat read. */
  lemma AnnouncementReachesServer(m: Manager, peer: string, reg: Wire.Registry, db: Schema.Db, userId: string)
    requires userId in reg
    requires SetActiveChatUser(m, Some(peer)).1.Some?
    ensures var t := SetActiveChatUser(m, Some(peer)).1.value;
      var (reg', db') := Realtime.Receive(reg, db, userId, t.data);
      && reg'[userId].openChatUserId == Some(peer)
      && db' == ConversationService.MarkConversationAsRead(db, userId, Some(peer))
    ensures var t := SetActiveChatUser(m, Some(peer)).1.value;
      Monolith.Receive(reg, userId, t.data) == Some(reg[userId := reg[userId].(openChatUserId := Some(peer))])
  {
  }

  // ---------------------------------------------------------------------------
  // Connection
  // ---------------------------------------------------------------------------

  /** `apiBaseUrl.replace(/^http/, 'ws')`: only a leading `http` is replaced. */
  function ToWs(base: string): string {
    if |base| >= 4 && base[..4] == "http" then "ws" + base[4..] else base
  }

  /** The socket URL: the WebSocket base, `/ws`, and both tokens in the query string. */
  function SocketUrl(apiBaseUrl: string, accessToken: string, refreshToken: string): string {
    ToWs(apiBaseUrl) + "/ws?accessToken=" + accessToken + "&refreshToken=" + refreshToken
  }

  /** `http` becomes `ws` and `https` becomes `wss`; any other base is kept as it is. */
  lemma ToWsSchemes(rest: string, other: string)
    requires |other| < 4 || other[..4] != "http"
    ensures ToWs("http://" + rest) == "ws://" + rest
    ensures ToWs("https://" + rest) == "wss://" + rest
    ensures ToWs(other) == other
  {
    assert ("http://" + rest)[..4] == "http";
    assert ("http://" + rest)[4..] == "://" + rest;
    assert ("https://" + rest)[..4] == "http";
    assert ("https://" + rest)[4..] == "s://" + rest;
  }

  /**
   * `connect(apiBaseUrl, accessToken, refreshToken)`: the reconnecting socket
   * is created on first use, then asked to connect to the URL built from the
   * base and the tokens.
   */
  function Connect(m: Manager, apiBaseUrl: string, accessToken: string, refreshToken: string,
                   urlOk: bool, newSocket: nat): (r: Manager)
    ensures r.ws.Some? && r == m.(ws := r.ws)
    ensures var ws := if m.ws.Some? then m.ws.value else ReconnectingSocket.Initial;
      r.ws.value == ReconnectingSocket.Connect(ws, SocketUrl(apiBaseUrl, accessToken, refreshToken), urlOk, newSocket)
  {
    var ws := if m.ws.Some? then m.ws.value else ReconnectingSocket.Initial;
    m.(ws := Some(ReconnectingSocket.Connect(ws, SocketUrl(apiBaseUrl, accessToken, refreshToken), urlOk, newSocket)))
  }

  /**
   * `disconnect()`: the open chat is cleared (and the clearing announced
   * while connected), then the socket is force-closed.
   */
  function Disconnect(m: Manager): (r: (Manager, Option<ReconnectingSocket.Transmission>))
    ensures m.ws.None? ==> r == (m, None)
    ensures m.ws.Some? ==>
      && r.0.currentChat.None? && !r.0.connected && r.0.handlers == m.handlers
      && r.0.ws == Some(ReconnectingSocket.Disconnect(m.ws.value))
    ensures r.1 == (if m.ws.Some? then SetActiveChatUser(m, None).1 else None)
  {
    if m.ws.None? then (m, None)
    else
      var (m1, t) := SetActiveChatUser(m, None);
      (m1.(ws := Some(ReconnectingSocket.Disconnect(m1.ws.value)), connected := false), t)
  }

  /**
   * The socket's `open` event: the socket's own listener runs first, then the
   * manager marks itself connected and re-announces a recorded chat.
   */
  function Opened(m: Manager, id: nat): (r: (Manager, Option<ReconnectingSocket.Transmission>))
    ensures m.ws.None? ==> r == (m, None)
    ensures m.ws.Some? ==>
      && r.0.connected && r.0.currentChat == m.currentChat && r.0.handlers == m.handlers
      && r.0.ws == Some(ReconnectingSocket.Step(m.ws.value, ReconnectingSocket.Opened(id)))
    ensures r.1.Some? ==> Js.Present(m.currentChat) && r.1.value.data == Announcement(m.currentChat)
  {
    if m.ws.None? then (m, None)
    else
      var m1 := m.(ws := Some(ReconnectingSocket.Step(m.ws.value, ReconnectingSocket.Opened(id))), connected := true);
      if Js.Present(m.currentChat) then SetActiveChatUser(m1, m.currentChat) else (m1, None)
  }

  /** The socket's `close` event: the manager marks itself disconnected and the socket may schedule a retry. */
  function Closed(m: Manager, id: nat): (r: Manager)
    ensures m.ws.None? ==> r == m
    ensures m.ws.Some? ==>
      r == m.(connected := false, ws := Some(ReconnectingSocket.Step(m.ws.value, ReconnectingSocket.ClosedEvent(id))))
  {
    if m.ws.None? then m
    else m.(connected := false, ws := Some(ReconnectingSocket.Step(m.ws.value, ReconnectingSocket.ClosedEvent(id))))
  }

  /** A chat opened while the socket is still connecting is announced as soon as the socket opens. */
  lemma FocusAnnouncedOnOpen(m: Manager, peer: string, id: nat)
    requires peer != "" && m.ws.Some? && m.ws.value.socket == Some(ReconnectingSocket.Socket(id, ReconnectingSocket.Connecting))
    ensures SetActiveChatUser(m, Some(peer)).1.None?
    ensures var m1 := SetActiveChatUser(m, Some(peer)).0;
      Opened(m1, id).1 == Some(ReconnectingSocket.Transmission(id, Announcement(Some(peer))))
  {
  }

  /** Without a recorded chat an `open` announces nothing. */
  lemma NoChatNoAnnouncement(m: Manager, id: nat)
    requires m.currentChat.None? || m.currentChat == Some("")
    ensures Opened(m, id).1.None?
  {
  }

  /**
   * After `disconnect()` the chat is cleared, so a later `open` (the old
   * socket's event arriving late) re-announces nothing, and no retry is
   * pending.
   */
  lemma DisconnectForgetsChat(m: Manager, id: nat)
    requires m.ws.Some?
    ensures var m1 := Disconnect(m).0;
      && Opened(m1, id).1.None?
      && !m1.ws.value.timerPending && m1.ws.value.forceClosed
  {
  }

  /** A connected manager with an open socket tells the server the chat was closed when it disconnects. */
  lemma DisconnectAnnouncesClear(m: Manager)
    requires m.ws.Some? && m.connected && ReconnectingSocket.IsOpen(m.ws.value)
    ensures Disconnect(m).1 == Some(ReconnectingSocket.Transmission(m.ws.value.socket.value.id, Announcement(None)))
  {
  }

  /** The first connection opens a socket to the URL built from the tokens. */
  lemma FirstConnectOpensSocket(apiBaseUrl: string, accessToken: string, refreshToken: string, id: nat)
    ensures var m := Connect(Initial, apiBaseUrl, accessToken, refreshToken, true, id);
      && m.ws.value.url == SocketUrl(apiBaseUrl, accessToken, refreshToken)
      && m.ws.value.socket == Some(ReconnectingSocket.Socket(id, ReconnectingSocket.Connecting))
      && m.ws.value.attempts == 0 && !m.ws.value.forceClosed
  {
  }
}

=== FILE: string_order.dfy ===
/**
 * JavaScript's default string order and `getUserIdOrder`, the helper that puts
 * the two participants of a conversation into a canonical (sorted) pair.
 *
 * `Array.prototype.sort()` without a comparator compares strings by UTF-16 code
 * units; the model compares characters, which agrees with it on every string of
 * the Basic Multilingual Plane (identifiers are UUIDs, plain ASCII).
 */
module StringOrder {
  import opened Wrappers

  /** Strict lexicographic order on strings. */
  predicate Below(a: string, b: string)
    decreases |a|
  {
    if a == [] then b != []
    else if b == [] then false
    else if a[0] != b[0] then a[0] < b[0]
    else Below(a[1..], b[1..])
  }

  /** `a <= b` in the default sort order. */
  predicate AtMost(a: string, b: string) {
    a == b || Below(a, b)
  }

  lemma {:induction false} BelowIrreflexive(a: string)
    ensures !Below(a, a)
    decreases |a|
  {
    if a != [] {
      BelowIrreflexive(a[1..]);
    }
  }

  lemma {:induction false} BelowAsymmetric(a: string, b: string)
    requires Below(a, b)
    ensures !Below(b, a)
    decreases |a|
  {
    if a != [] && b != [] && a[0] == b[0] {
      BelowAsymmetric(a[1..], b[1..]);
    }
  }

  lemma {:induction false} BelowTransitive(a: string, b: string, c: string)
    requires Below(a, b) && Below(b, c)
    ensures Below(a, c)
    decreases |a|
  {
    if a != [] && a[0] == b[0] && b[0] == c[0] {
      BelowTransitive(a[1..], b[1..], c[1..]);
    }
  }

  lemma {:induction false} BelowTotal(a: string, b: string)
    requires a != b
    ensures Below(a, b) || Below(b, a)
    decreases |a|
  {
    if a != [] && b != [] && a[0] == b[0] {
      assert a == [a[0]] + a[1..] && b == [b[0]] + b[1..];
      BelowTotal(a[1..], b[1..]);
    }
  }

  lemma AtMostTransitive(a: string, b: string, c: string)
    requires AtMost(a, b) && AtMost(b, c)
    ensures AtMost(a, c)
  {
    if a != b && b != c {
      BelowTransitive(a, b, c);
    }
  }

  lemma AtMostAntisymmetric(a: string, b: string)
    requires AtMost(a, b) && AtMost(b, a)
    ensures a == b
  {
    if a != b {
      BelowAsymmetric(a, b);
    }
  }

  lemma AtMostTotal(a: string, b: string)
    ensures AtMost(a, b) || AtMost(b, a)
  {
    if a != b {
      BelowTotal(a, b);
    }
  }

  /** Every element is at most every later one. */
  predicate Sorted(s: seq<string>) {
    forall i, j :: 0 <= i < j < |s| ==> AtMost(s[i], s[j])
  }

  /** `x` placed in front of the first element it does not exceed. */
  function Insert(x: string, s: seq<string>): (r: seq<string>)
    requires Sorted(s)
    ensures Sorted(r)
    ensures multiset(r) == multiset(s) + multiset{x}
  {
    if s == [] || AtMost(x, s[0]) then
      InsertFront(x, s);
      [x] + s
    else
      AtMostTotal(x, s[0]);
      var t := Insert(x, s[1..]);
      assert s == [s[0]] + s[1..];
      FrontIsLeast(s[0], t, s[1..], x);
      [s[0]] + t
  }

  /** Putting an element no larger than the head in front keeps a list sorted. */
  lemma InsertFront(x: string, s: seq<string>)
    requires Sorted(s)
    requires s == [] || AtMost(x, s[0])
    ensures Sorted([x] + s)
  {
    var r := [x] + s;
    forall i, j | 0 <= i < j < |r| ensures AtMost(r[i], r[j]) {
      if i == 0 && j > 1 {
        AtMostTransitive(x, s[0], s[j - 1]);
      }
    }
  }

  /** A head below every element of a sorted tail makes a sorted list. */
  lemma FrontIsLeast(h: string, t: seq<string>, tail: seq<string>, x: string)
    requires Sorted(t) && Sorted([h] + tail)
    requires multiset(t) == multiset(tail) + multiset{x}
    requires AtMost(h, x)
    ensures Sorted([h] + t)
  {
    var r := [h] + t;
    forall i, j | 0 <= i < j < |r| ensures AtMost(r[i], r[j]) {
      if i == 0 {
        var y := t[j - 1];
        assert r[0] == h && r[j] == y;
        assert y in multiset(t);
        if y != x {
          assert y in multiset(tail);
          var k :| 0 <= k < |tail| && tail[k] == y;
          var ht := [h] + tail;
          assert ht[0] == h && ht[k + 1] == y;
          assert AtMost(ht[0], ht[k + 1]);
        }
      } else {
        assert r[i] == t[i - 1] && r[j] == t[j - 1];
      }
    }
  }

  /** `Array.prototype.sort()` on strings: an ordered permutation of the input. */
  function Sort(s: seq<string>): (r: seq<string>)
    ensures Sorted(r)
    ensures multiset(r) == multiset(s)
  {
    if s == [] then [] else
      assert s == [s[0]] + s[1..];
      Insert(s[0], Sort(s[1..]))
  }

  /** The head of a sorted list is at most every string the list holds. */
  lemma SortedHeadLeast(s: seq<string>, x: string)
    requires Sorted(s) && x in multiset(s)
    ensures AtMost(s[0], x)
  {
    var k :| 0 <= k < |s| && s[k] == x;
    if k == 0 {
      assert s[0] == x;
    } else {
      assert AtMost(s[0], s[k]);
    }
  }

  /** The tail of a sorted list is sorted. */
  lemma SortedTail(s: seq<string>)
    requires Sorted(s) && s != []
    ensures Sorted(s[1..])
  {
    forall i, j | 0 <= i < j < |s| - 1
      ensures AtMost(s[1..][i], s[1..][j])
    {
      assert s[1..][i] == s[i + 1] && s[1..][j] == s[j + 1];
    }
  }

  /** Dropping the head of a list drops one copy of it from the multiset. */
  lemma MultisetOfTail(s: seq<string>)
    requires s != []
    ensures multiset(s[1..]) == multiset(s) - multiset{s[0]}
  {
    assert s == [s[0]] + s[1..];
  }

  /**
   * Two sorted non-empty lists with the same elements start alike, and their
   * tails are sorted lists with the same elements.
   */
  lemma SortedHeadsAgree(a: seq<string>, b: seq<string>)
    requires Sorted(a) && Sorted(b) && a != []
    requires multiset(a) == multiset(b)
    ensures b != [] && a[0] == b[0]
    ensures Sorted(a[1..]) && Sorted(b[1..]) && multiset(a[1..]) == multiset(b[1..])
  {
    assert |b| == |multiset(b)| == |multiset(a)| == |a|;
    SortedHeadLeast(b, a[0]);
    SortedHeadLeast(a, b[0]);
    AtMostAntisymmetric(a[0], b[0]);
    MultisetOfTail(a);
    MultisetOfTail(b);
    SortedTail(a);
    SortedTail(b);
  }

  /** Two sorted lists with the same elements are the same list: the sort order is total. */
  lemma {:induction false} SortedUnique(a: seq<string>, b: seq<string>)
    requires Sorted(a) && Sorted(b)
    requires multiset(a) == multiset(b)
    ensures a == b
    decreases |a|
  {
    if a == [] {
      assert |b| == |multiset(b)| == 0;
    } else {
      SortedHeadsAgree(a, b);
      SortedUnique(a[1..], b[1..]);
      assert a == [a[0]] + a[1..] && b == [b[0]] + b[1..];
    }
  }

  /** Sorting depends only on which strings are given, not on their order. */
  lemma SortPermutationInvariant(a: seq<string>, b: seq<string>)
    requires multiset(a) == multiset(b)
    ensures Sort(a) == Sort(b)
  {
    SortedUnique(Sort(a), Sort(b));
  }

  /** The object `{ userId1, userId2 }` destructured from the sorted arguments; absent slots are `undefined`. */
  datatype IdPair = IdPair(userId1: Option<string>, userId2: Option<string>)

  /**
   * `getUserIdOrder(...uuids)`: the first two elements of the sorted arguments.
   * The first is the least argument, the second the least of the rest.
   */
  function GetUserIdOrder(uuids: seq<string>): (r: IdPair)
    ensures r.userId1.Some? <==> |uuids| >= 1
    ensures r.userId2.Some? <==> |uuids| >= 2
    ensures r.userId1.Some? ==> r.userId1.value in uuids && forall x :: x in uuids ==> AtMost(r.userId1.value, x)
    ensures r.userId2.Some? ==> AtMost(r.userId1.value, r.userId2.value)
    ensures r.userId2.Some? ==> multiset{r.userId1.value, r.userId2.value} <= multiset(uuids)
    ensures r.userId2.Some? ==>
      forall x :: x in multiset(uuids) - multiset{r.userId1.value} ==> AtMost(r.userId2.value, x)
  {
    var s := Sort(uuids);
    assert |s| == |multiset(s)| == |uuids|;
    if |s| >= 2 then
      SortedTwoLeast(s);
      IdPair(Some(s[0]), Some(s[1]))
    else if |s| == 1 then
      assert s[0] in multiset(uuids);
      IdPair(Some(s[0]), None)
    else
      IdPair(None, None)
  }

  /** In a sorted list the head is below everything and the second element below everything but the head. */
  lemma SortedTwoLeast(s: seq<string>)
    requires Sorted(s) && |s| >= 2
    ensures multiset{s[0], s[1]} <= multiset(s)
    ensures forall x :: x in multiset(s) ==> AtMost(s[0], x)
    ensures forall x :: x in multiset(s) - multiset{s[0]} ==> AtMost(s[1], x)
  {
    var t := s[1..];
    assert s == [s[0]] + t;
    assert multiset(s) == multiset{s[0]} + multiset(t);
    assert s[1] == t[0];
    assert multiset{s[0], s[1]} <= multiset(s);
    forall x | x in multiset(s) ensures AtMost(s[0], x) {
      var k :| 0 <= k < |s| && s[k] == x;
    }
    forall x | x in multiset(t) ensures AtMost(s[1], x) {
      var k :| 0 <= k < |t| && t[k] == x;
      assert x == s[k + 1];
    }
  }

  /** The canonical ordering of two participants, as every caller uses `getUserIdOrder(a, b)`. */
  function OrderPair(a: string, b: string): (r: (string, string))
    ensures AtMost(r.0, r.1)
    ensures multiset{r.0, r.1} == multiset{a, b}
  {
    var p := GetUserIdOrder([a, b]);
    assert multiset{p.userId1.value, p.userId2.value} <= multiset([a, b]);
    (p.userId1.value, p.userId2.value)
  }

  /** Swapping the two participants gives the same pair. */
  lemma OrderPairSymmetric(a: string, b: string)
    ensures OrderPair(a, b) == OrderPair(b, a)
  {
    assert multiset([a, b]) == multiset([b, a]);
    SortPermutationInvariant([a, b], [b, a]);
  }

  /** Two two-element multisets are equal only when the pairs agree up to a swap. */
  lemma PairOfMultiset(x: string, y: string, a: string, b: string)
    requires multiset{x, y} == multiset{a, b}
    ensures (x, y) == (a, b) || (x, y) == (b, a)
  {
    assert x in multiset{a, b};
    if x == a {
      assert multiset{y} == multiset{a, b} - multiset{a} == multiset{b};
      assert y in multiset{b};
    } else {
      assert multiset{y} == multiset{a, b} - multiset{b} == multiset{a};
      assert y in multiset{a};
    }
  }

  /** The pair is the smaller id first: `userId1` is `a` exactly when `a` sorts no later than `b`. */
  lemma OrderPairFirst(a: string, b: string)
    ensures OrderPair(a, b).0 == a <==> AtMost(a, b)
    ensures OrderPair(a, b) == (if AtMost(a, b) then (a, b) else (b, a))
  {
    var r := OrderPair(a, b);
    PairOfMultiset(r.0, r.1, a, b);
    if r == (b, a) && AtMost(a, b) {
      AtMostAntisymmetric(a, b);
    }
  }

  /** A conversation with oneself orders to the same id twice. */
  lemma OrderPairSame(a: string)
    ensures OrderPair(a, a) == (a, a)
  {
    var r := OrderPair(a, a);
    PairOfMultiset(r.0, r.1, a, a);
  }

  /** A pair already in order is stored as it is, whichever of the two asks. */
  lemma OrderPairOfSorted(a: string, b: string)
    requires AtMost(a, b)
    ensures OrderPair(a, b) == (a, b) && OrderPair(b, a) == (a, b)
  {
    OrderPairFirst(a, b);
    OrderPairSymmetric(a, b);
  }
}

=== FILE: user_controller.dfy ===
/**
 * The user routes' handlers (`user.controller.ts`): the feed, profile
 * updates, lookups by id, and development accounts.
 */
module UserController {
  import opened Wrappers
  import opened Schema
  import Js
  import UserService

  /** `GET /users/feed`: 401 without an authenticated user, otherwise every other user's public profile. */
  function GetFeed(db: Db, userId: Option<string>): (r: Reply<seq<PublicProfile>>)
    ensures !Js.Present(userId) ==> r == Forward(HttpError(401, "Not authenticated"))
    ensures Js.Present(userId) && db.fault.Some? ==> r == Forward(DriverError(db.fault.value))
    ensures r.Respond? <==> Js.Present(userId) && db.fault.None?
    ensures r.Respond? ==>
      && r.status == 200
      && (forall p :: p in r.body ==> p.id != userId.value && exists u :: u in db.users && ToPublic(u) == p)
      && (forall u :: u in db.users && u.id != userId.value ==> ToPublic(u) in r.body)
  {
    if !Js.Present(userId) then Forward(HttpError(401, "Not authenticated"))
    else
      match UserService.GetFeedProfiles(db, userId.value)
      case Success(profiles) => Respond(200, profiles)
      case Failure(e) => Forward(e)
  }

  /** Both fields must be strings that are not blank. */
  predicate ValidDetails(email: Js.Json, username: Js.Json) {
    email.Str? && username.Str? && Js.Trim(email.s) != "" && Js.Trim(username.s) != ""
  }

  /**
   * `PUT /users/current`: 401 without an authenticated user, 400 unless both
   * the e-mail address and the user name are non-blank strings, 404 when no
   * row has the user's id, otherwise 200 with the updated account.
   */
  function UpdateUser(db: Db, userId: Option<string>, email: Js.Json, username: Js.Json): (r: (Db, Reply<Account>))
    ensures !Js.Present(userId) ==> r == (db, Forward(HttpError(401, "Not authenticated")))
    ensures Js.Present(userId) && !ValidDetails(email, username) ==>
      r == (db, Forward(HttpError(400, "Email and username are required and must be non-empty strings.")))
    ensures Js.Present(userId) && ValidDetails(email, username) && db.fault.Some? ==>
      r == (db, Forward(UserService.UpdateFailure(db.fault.value)))
    ensures (Js.Present(userId) && ValidDetails(email, username) && db.fault.None?
             && forall u :: u in db.users ==> u.id != userId.value) ==>
      r.1 == Forward(HttpError(404, "User not found or update failed in service"))
    ensures r.1.Respond? ==>
      && r.1.status == 200
      && r.1.body.id == userId.value
      && r.1.body.email == Some(Js.Trim(email.s)) && r.1.body.username == Js.Trim(username.s)
      && r.0 == UserService.UpdateUserDetails(db, userId.value, email.s, username.s).value.db
    ensures Js.Present(userId) && ValidDetails(email, username) && db.fault.None? ==>
      forall i :: FirstWithId(db.users, userId.value, i) ==>
        r.1 == Respond(200, ToAccount(db.users[i]).(email := Some(Js.Trim(email.s)), username := Js.Trim(username.s)))
    ensures !r.1.Unanswered?
  {
    if !Js.Present(userId) then (db, Forward(HttpError(401, "Not authenticated")))
    else if !ValidDetails(email, username) then
      (db, Forward(HttpError(400, "Email and username are required and must be non-empty strings.")))
    else
      match UserService.UpdateUserDetails(db, userId.value, email.s, username.s)
      case Failure(e) => (db, Forward(e))
      case Success(u) =>
        if u.user.None? then (u.db, Forward(HttpError(404, "User not found or update failed in service")))
        else (u.db, Respond(200, u.user.value))
  }

  /** `GET /users/:id`: 400 without an id, 404 when no row has it, otherwise the account with its e-mail address. */
  function GetUserById(db: Db, id: string): (r: Reply<Account>)
    ensures id == "" ==> r == Forward(HttpError(400, "User ID parameter is required"))
    ensures id != "" && db.fault.Some? ==> r == Forward(DriverError(db.fault.value))
    ensures (id != "" && db.fault.None? && forall u :: u in db.users ==> u.id != id) ==>
      r == Forward(HttpError(404, "User not found"))
    ensures r.Respond? ==> r.status == 200 && r.body.id == id && exists u :: u in db.users && ToAccount(u) == r.body
    ensures id != "" && db.fault.None? ==>
      forall i :: FirstWithId(db.users, id, i) ==> r == Respond(200, ToAccount(db.users[i]))
    ensures !r.Unanswered?
  {
    if id == "" then Forward(HttpError(400, "User ID parameter is required"))
    else
      match UserService.FindUserById(db, id)
      case Failure(e) => Forward(e)
      case Success(None) => Forward(HttpError(404, "User not found"))
      case Success(Some(u)) => Respond(200, ToAccount(u))
  }

  /** A profile edit is what a later lookup of the same user returns. */
  lemma UpdateThenLookup(db: Db, userId: string, email: Js.Json, username: Js.Json)
    requires UpdateUser(db, Some(userId), email, username).1.Respond?
    ensures var (db', reply) := UpdateUser(db, Some(userId), email, username);
      GetUserById(db', userId) == Respond(200, reply.body)
  {
    var u := UserService.UpdateUserDetails(db, userId, email.s, username.s).value;
    assert UpdateUser(db, Some(userId), email, username) == (u.db, Respond(200, u.user.value));
    UserService.UpdatedIsFound(db, userId, email.s, username.s);
  }

  /**
   * `POST /users/dev`: 403 in production; 400 unless both an e-mail address
   * and a user name are given; otherwise the development account, with 201.
   */
  function DevCreateUser(db: Db, prod: bool, email: Option<string>, username: Option<string>,
                         avatar: Option<string>, newId: string, now: int): (r: (Db, Reply<Account>))
    ensures prod ==> r == (db, Forward(HttpError(403, "This route is not available in production")))
    ensures !prod && (!Js.Present(email) || !Js.Present(username)) ==>
      r == (db, Forward(HttpError(400, "Email and username are required for dev user creation")))
    ensures r.1.Respond? <==> !prod && Js.Present(email) && Js.Present(username) && db.fault.None?
    ensures r.1.Respond? ==>
      && r.1.status == 201
      && r.1.body == Account(newId, username.value, avatar, email, now, now)
      && r.0.users == db.users + [UserService.DevRow(newId, email.value, username.value, avatar, now)]
    ensures !prod && Js.Present(email) && Js.Present(username) && db.fault == Some(UniqueViolation) ==>
      r == (db, Forward(HttpError(409, "User with this email or username already exists.")))
    ensures !prod && Js.Present(email) && Js.Present(username) && db.fault.Some? && db.fault != Some(UniqueViolation) ==>
      r == (db, Forward(HttpError(500, "Database error during dev user creation.")))
    ensures r.1.Forward? ==> r.0 == db
  {
    if prod then (db, Forward(HttpError(403, "This route is not available in production")))
    else if !Js.Present(email) || !Js.Present(username) then
      (db, Forward(HttpError(400, "Email and username are required for dev user creation")))
    else
      match UserService.CreateDevelopmentUser(db, email.value, username.value, avatar, newId, now)
      case Success(c) => (c.db, Respond(201, c.user))
      case Failure(e) => (db, Forward(e))
  }

  /** A development account created under a fresh id is what a lookup of that id returns. */
  lemma DevCreateThenLookup(db: Db, email: string, username: string, avatar: Option<string>, newId: string, now: int)
    requires newId != "" && email != "" && username != "" && db.fault.None?
    requires forall u :: u in db.users ==> u.id != newId
    ensures var (db', reply) := DevCreateUser(db, false, Some(email), Some(username), avatar, newId, now);
      reply.Respond? && GetUserById(db', newId) == Respond(200, reply.body)
  {
    UserService.DevUserFound(db, email, username, avatar, newId, now);
  }
}

=== FILE: user_service.dfy ===
/**
 * The user service (`user.service.ts`): lookups by id and by Google id, the
 * discovery feed, profile updates and development accounts, with the
 * client-safe projections they return.
 */
module UserService {
  import opened Wrappers
  import opened Schema
  import Js

  /** `findUserById(id)`: the first row with that id, or none. A failing query rethrows the driver error. */
  function FindUserById(db: Db, id: string): (r: Result<Option<UserRow>, Failure>)
    ensures db.fault.Some? <==> r.Failure?
    ensures r.Failure? ==> r.error == DriverError(db.fault.value)
    ensures r.Success? ==> (r.value.Some? <==> exists u :: u in db.users && u.id == id)
    ensures r.Success? && r.value.Some? ==> r.value.value in db.users && r.value.value.id == id
    ensures db.fault.None? ==> forall i :: FirstWithId(db.users, id, i) ==> r == Success(Some(db.users[i]))
  {
    if db.fault.Some? then Failure(DriverError(db.fault.value))
    else
      UsersWithIdFirst(db.users, id);
      var rows := UsersWithId(db.users, id);
      if rows != [] then assert rows[0] in rows; Success(Some(rows[0]))
      else Success(None)
  }

  /** The rows whose `google_id` equals `googleId`; a null column never matches. */
  function UsersWithGoogleId(users: seq<UserRow>, googleId: string): (r: seq<UserRow>)
    ensures forall u :: u in r <==> u in users && u.googleId == Some(googleId)
  {
    if users == [] then []
    else (if users[0].googleId == Some(googleId) then [users[0]] else []) + UsersWithGoogleId(users[1..], googleId)
  }

  /** `findUserByGoogleId(googleId)`: the first row linked to that Google account, or none. */
  function FindUserByGoogleId(db: Db, googleId: string): (r: Result<Option<UserRow>, Failure>)
    ensures db.fault.Some? <==> r.Failure?
    ensures r.Failure? ==> r.error == DriverError(db.fault.value)
    ensures r.Success? ==> (r.value.Some? <==> exists u :: u in db.users && u.googleId == Some(googleId))
    ensures r.Success? && r.value.Some? ==> r.value.value in db.users && r.value.value.googleId == Some(googleId)
  {
    if db.fault.Some? then Failure(DriverError(db.fault.value))
    else
      var rows := UsersWithGoogleId(db.users, googleId);
      if rows != [] then assert rows[0] in rows; Success(Some(rows[0]))
      else Success(None)
  }

  /** The public profiles of every user except `me`, in table order. */
  function Others(users: seq<UserRow>, me: string): (r: seq<PublicProfile>)
    ensures |r| <= |users|
    ensures forall p :: p in r ==> p.id != me && exists u :: u in users && ToPublic(u) == p
    ensures forall u :: u in users && u.id != me ==> ToPublic(u) in r
  {
    if users == [] then []
    else
      assert forall u :: u in users ==> u == users[0] || u in users[1..];
      (if users[0].id != me then [ToPublic(users[0])] else []) + Others(users[1..], me)
  }

  /**
   * `getFeedProfiles(me)`: every other user, with the token version, the
   * Google id and the e-mail address stripped. A failing query rethrows.
   */
  function GetFeedProfiles(db: Db, me: string): (r: Result<seq<PublicProfile>, Failure>)
    ensures db.fault.Some? <==> r.Failure?
    ensures r.Failure? ==> r.error == DriverError(db.fault.value)
    ensures r.Success? ==> forall p :: p in r.value ==> p.id != me && exists u :: u in db.users && ToPublic(u) == p
    ensures r.Success? ==> forall u :: u in db.users && u.id != me ==> ToPublic(u) in r.value
  {
    if db.fault.Some? then Failure(DriverError(db.fault.value)) else Success(Others(db.users, me))
  }

  /** A database failure becomes a 409 on a unique-constraint violation and a 500 otherwise. */
  function UpdateFailure(code: string): (r: Failure)
    ensures r.HttpError? && (r.status == 409 <==> code == UniqueViolation)
  {
    if code == UniqueViolation then HttpError(409, "Email already in use.")
    else HttpError(500, "Database error during user update.")
  }

  /** Every row with the id gets the trimmed e-mail address and user name. */
  function SetDetails(users: seq<UserRow>, id: string, email: string, username: string): (r: seq<UserRow>)
    ensures |r| == |users|
    ensures forall i :: 0 <= i < |r| ==>
      r[i] == if users[i].id == id then users[i].(email := Some(Js.Trim(email)), username := Js.Trim(username))
              else users[i]
  {
    seq(|users|, i requires 0 <= i < |users| =>
      if users[i].id == id then users[i].(email := Some(Js.Trim(email)), username := Js.Trim(username))
      else users[i])
  }

  /** The database after an update and the client-safe view of the first updated row, if any. */
  datatype Updated = Updated(db: Db, user: Option<Account>)

  /**
   * `updateUserDetails(id, { email, username })`: both values are trimmed;
   * `null` when no row has the id. The token version and the Google id are
   * never touched, so sessions survive a profile edit.
   */
  function UpdateUserDetails(db: Db, id: string, email: string, username: string): (r: Result<Updated, Failure>)
    ensures db.fault.Some? <==> r.Failure?
    ensures r.Failure? ==> r.error == UpdateFailure(db.fault.value)
    ensures r.Success? ==>
      && r.value.db.conversations == db.conversations && r.value.db.messages == db.messages
      && |r.value.db.users| == |db.users|
      && (forall i :: 0 <= i < |db.users| ==>
            var (u, u') := (db.users[i], r.value.db.users[i]);
            && u'.id == u.id && u'.tokenVersion == u.tokenVersion && u'.googleId == u.googleId
            && u'.createdAt == u.createdAt && u'.updatedAt == u.updatedAt && u'.avatar == u.avatar
            && (u.id == id ==> u'.email == Some(Js.Trim(email)) && u'.username == Js.Trim(username))
            && (u.id != id ==> u' == u))
      && (r.value.user.Some? <==> exists u :: u in db.users && u.id == id)
      && (r.value.user.Some? ==>
            && r.value.user.value.id == id
            && r.value.user.value.email == Some(Js.Trim(email))
            && r.value.user.value.username == Js.Trim(username))
    ensures r.Success? ==> forall i :: FirstWithId(db.users, id, i) ==> r.value.user == Some(ToAccount(r.value.db.users[i]))
  {
    if db.fault.Some? then Failure(UpdateFailure(db.fault.value))
    else
      var users' := SetDetails(db.users, id, email, username);
      assert forall i :: FirstWithId(db.users, id, i) ==> FirstWithId(users', id, i);
      UsersWithIdFirst(users', id);
      var rows := UsersWithId(users', id);
      if rows != [] then
        assert rows[0] in rows;
        Success(Updated(db.(users := users'), Some(ToAccount(rows[0]))))
      else
        assert forall i :: 0 <= i < |db.users| && db.users[i].id == id ==> users'[i] in rows;
        Success(Updated(db.(users := users'), None))
  }

  /** After an update that found the user, looking the user up returns the updated account. */
  lemma UpdatedIsFound(db: Db, id: string, email: string, username: string)
    requires UpdateUserDetails(db, id, email, username).Success?
    requires UpdateUserDetails(db, id, email, username).value.user.Some?
    ensures var u := UpdateUserDetails(db, id, email, username).value;
      var found := FindUserById(u.db, id);
      found.Success? && found.value.Some? && ToAccount(found.value.value) == u.user.value
  {
    var u := UpdateUserDetails(db, id, email, username).value;
    var i := SomeEarliestWithId(db.users, id);
    assert FirstWithId(u.db.users, id, i);
  }

  /** Updating with the same values twice leaves what the first update left. */
  lemma UpdateIdempotent(db: Db, id: string, email: string, username: string)
    requires db.fault.None?
    ensures var once := UpdateUserDetails(db, id, email, username).value;
      UpdateUserDetails(once.db, id, email, username) == Success(once)
  {
    var once := UpdateUserDetails(db, id, email, username).value;
    Js.TrimIdempotent(email);
    Js.TrimIdempotent(username);
    var twice := UpdateUserDetails(once.db, id, email, username).value;
    assert twice.db.users == once.db.users;
  }

  /** The `users` row a development account starts as: token version 1, no Google account. */
  function DevRow(newId: string, email: string, username: string, avatar: Option<string>, now: int): UserRow {
    UserRow(newId, username, avatar, Some(email), Some(1), None, now, now)
  }

  /** The database after creating a development account, and the account's client-safe view. */
  datatype Created = Created(db: Db, user: Account)

  /**
   * `createDevelopmentUser({ email, username, bio, avatar })`: inserts the
   * account (`bio` has no column and is dropped); a unique-constraint
   * violation is a 409, any other failure a 500.
   */
  function CreateDevelopmentUser(db: Db, email: string, username: string, avatar: Option<string>,
                                 newId: string, now: int): (r: Result<Created, Failure>)
    ensures db.fault == Some(UniqueViolation) ==>
      r == Failure(HttpError(409, "User with this email or username already exists."))
    ensures db.fault.Some? && db.fault != Some(UniqueViolation) ==>
      r == Failure(HttpError(500, "Database error during dev user creation."))
    ensures r.Success? <==> db.fault.None?
    ensures r.Success? ==>
      && r.value.db == db.(users := db.users + [DevRow(newId, email, username, avatar, now)])
      && r.value.user == Account(newId, username, avatar, Some(email), now, now)
  {
    if db.fault == Some(UniqueViolation) then
      Failure(HttpError(409, "User with this email or username already exists."))
    else if db.fault.Some? then
      Failure(HttpError(500, "Database error during dev user creation."))
    else
      var row := DevRow(newId, email, username, avatar, now);
      Success(Created(db.(users := db.users + [row]), ToAccount(row)))
  }

  /** A freshly created development account is found by its id, when no earlier row had that id. */
  lemma DevUserFound(db: Db, email: string, username: string, avatar: Option<string>, newId: string, now: int)
    requires db.fault.None?
    requires forall u :: u in db.users ==> u.id != newId
    ensures var c := CreateDevelopmentUser(db, email, username, avatar, newId, now).value;
      FindUserById(c.db, newId) == Success(Some(DevRow(newId, email, username, avatar, now)))
  {
    var c := CreateDevelopmentUser(db, email, username, avatar, newId, now).value;
    var row := DevRow(newId, email, username, avatar, now);
    UsersWithIdAppend(db.users, row);
  }

  /** Appending a row with a new id: the lookup by that id finds exactly that row. */
  lemma {:induction false} UsersWithIdAppend(users: seq<UserRow>, row: UserRow)
    requires forall u :: u in users ==> u.id != row.id
    ensures UsersWithId(users + [row], row.id) == [row]
  {
    if users != [] {
      assert (users + [row])[1..] == users[1..] + [row];
      UsersWithIdAppend(users[1..], row);
    } else {
      assert [row][1..] == [];
    }
  }
}

=== FILE: wire.dfy ===
/**
 * What travels over the realtime channel: the frames the server pushes, the
 * frames a client sends, the registry of connected users, and the query
 * string of an upgrade request. Shared by the modular server and the
 * single-file server.
 */
module Wire {
  import opened Wrappers
  import opened Schema
  import Jwt

  /** Identifies one accepted websocket connection. */
  type SocketId = nat

  /** A frame pushed by the server: `{ type: 'new-message', message }`. */
  datatype ServerFrame = NewMessage(message: MessageRow)

  /**
   * A frame received from a client after `JSON.parse`. `Malformed` is text that
   * does not parse, or parses to a value that cannot be destructured (`null`).
   * `peer` is the frame's `userId`; `None` when absent or `null`.
   */
  datatype Inbound = Malformed | Parsed(kind: string, peer: Option<string>)

  /** The `type` of the focus frame. */
  const MessageOpen := "message-open"

  /** A registry entry: the user's socket and the chat partner they have open. */
  datatype Entry = Entry(socket: SocketId, openChatUserId: Option<string>)

  /** `wsUsers`: at most one entry per user id. */
  type Registry = map<string, Entry>

  /** One frame handed to one socket. */
  datatype Delivery = Delivery(socket: SocketId, frame: ServerFrame)

  /** What `ws.send` does for a registered user: the delivery, or a throw on a broken socket. */
  datatype SendOutcome = Delivered(delivery: Delivery) | NotConnected | SendFailed

  /** Looks the user up and hands the frame to their socket; `broken` are the sockets whose `send` throws. */
  function Transmit(reg: Registry, broken: set<SocketId>, to: string, frame: ServerFrame): (r: SendOutcome)
    ensures r.NotConnected? <==> to !in reg
    ensures r.SendFailed? <==> to in reg && reg[to].socket in broken
    ensures r.Delivered? ==> r.delivery == Delivery(reg[to].socket, frame) && reg[to].socket !in broken
  {
    if to !in reg then NotConnected
    else if reg[to].socket in broken then SendFailed
    else Delivered(Delivery(reg[to].socket, frame))
  }

  /**
   * One query parameter after `url.parse(url, true)`: absent, given once (a
   * token text), or given several times (an array, which `verify` rejects).
   */
  datatype Param = Missing | One(text: Jwt.TokenText) | Repeated {
    /** JavaScript truthiness: an array is always truthy, a string when non-empty. */
    predicate Truthy() {
      match this
      case Missing => false
      case One(t) => t.NonEmpty()
      case Repeated => true
    }

    /** `verify(param, secret)`: only a single string can verify. */
    function Verify(secret: Option<string>, now: int): (r: Option<Jwt.Claims>)
      ensures r.Some? ==> One? && Jwt.Verify(text, secret, now) == r
    {
      if One? then Jwt.Verify(text, secret, now) else None
    }
  }

  /** The two token parameters of an upgrade URL. */
  datatype Query = Query(accessToken: Param, refreshToken: Param)

  /** An upgrade request: `None` when the request carries no URL. */
  datatype UpgradeRequest = UpgradeRequest(url: Option<Query>)

  /** Whether the upgrade is completed for a user or refused. */
  datatype Verdict = Accept(userId: string) | Reject
}

=== FILE: wrappers.dfy ===
/** Failure-compatible wrapper datatypes shared by every module of the model. */
module Wrappers {

  /** A value that may be absent: JavaScript's `null`/`undefined` on one side, a value on the other. */
  datatype Option<+T> = None | Some(value: T) {

    /** Returns the value, or `default` when absent. */
    function GetOr(default: T): T {
      match this
      case Some(v) => v
      case None => default
    }
  }

  /** The outcome of an operation that may fail with an error value of type E. */
  datatype Result<+R, +E> = Success(value: R) | Failure(error: E)
}
